=== FILE: README.md ===
# Patraplus, modelled in Dafny

Patraplus is an Android app that helps an operator collect customer orders
from a web panel. A JavaScript extraction script runs inside the app's
WebView. It finds the order links on the listing page and remembers each
link's registration date and listed delivery status. It then fetches every
order page and reads the labelled cells. It drops rows it has already
produced, and returns the new rows as JSON. The app decodes that answer and
merges the rows into a store kept in SharedPreferences, keyed by name plus
mobile with whitespace removed. On a merge, the operator's review status and
notes survive. The app lists the records by review status. When no review
status is selected, an advanced filter applies: a delivery category
(normalized from the page's free text) and an inclusive date range picked on
a Jalali (Persian) calendar.

The model is one Dafny module per concern:

| module | file | models |
|---|---|---|
| `Int32` | int32.dfy | Kotlin `Int`: wrap-around, truncating `/` and `%` |
| `Text` | text.dfy | the three whitespace classes, `trim`, `replace`, `split`, `toIntOrNull`, zero padding |
| `Records` | records.dfy | `RecordStatus`, `CustomerRecord` and its `key()` |
| `Status` | status.dfy | the app's `normalizeDeliveryStatus` and the page's `normalizeStatus`/`mapStatus` |
| `OrderedMaps` | ordered_maps.dfy | insertion-ordered maps (`linkedMapOf`, JavaScript `Map`) |
| `Registry` | registry.dfy | the script registry of `JavaScriptInjector` |
| `RecordStore` | record_store.dfy | `RecordStore`: JSON encoding, load/save, `upsertAll`, the two updates |
| `Calendar` | calendar.dfy | the Jalali/Gregorian converters and leap rules of `MainActivity` |
| `Dates` | dates.dfy | `parseDate` and the Persian date picker |
| `Filters` | filters.dfy | `applyAdvancedFilters` and the list shown by `showRecords` |
| `Scraper` | scraper.dfy | the extraction script: column lookup, link collection, label map, `extract`, deduplication, the whole run |
| `Dispatch` | dispatch.dfy | `decodeJavaScriptPayload`, `parseRecords` and `handleExtractionResult` |

Side effects become values. The browser's DOM is a `Placement` per anchor
plus the detail page's `td` texts. The synchronous request is a function from
URL to `Response`. The page's two globals (`_patraLinks`, `_patraSeen`) are a
`PageState` threaded through `Run`. SharedPreferences is the list of stored
objects. The JSON library is a `Codec` parameter. Kotlin `Int` arithmetic is
written out with `Int32.Wrap`, `KDiv` and `KMod` where it matters.

## Model

| member | source | states |
|---|---|---|
| Int32.Wrap | Patraplus-main/webui/app/src/main/java/ir/patraplus/webui/MainActivity.kt:693-699 | an Int result is the mathematical value reduced into the 32-bit range; values already in range are unchanged |
| Int32.KDiv | Patraplus-main/webui/app/src/main/java/ir/patraplus/webui/MainActivity.kt:693-699 | Kotlin `/` on Int truncates toward zero: the quotient keeps the dividend's sign |
| Int32.KMod | Patraplus-main/webui/app/src/main/java/ir/patraplus/webui/MainActivity.kt:693-699 | Kotlin `%` on Int: `a == b * (a / b) + r` with `r` strictly inside (-b, b) and carrying the dividend's sign |
| Int32.TruncationMatchesOnNonNegative | Patraplus-main/webui/app/src/main/java/ir/patraplus/webui/MainActivity.kt:664-699 | for a non-negative dividend Kotlin's division and remainder agree with the mathematical (Euclidean) ones |
| Int32.TruncationOnNegative | Patraplus-main/webui/app/src/main/java/ir/patraplus/webui/MainActivity.kt:664-699 | for a negative dividend that is not a multiple, Kotlin's quotient is one more and its remainder one divisor less than the Euclidean ones |
| Int32.KModZero | Patraplus-main/webui/app/src/main/java/ir/patraplus/webui/MainActivity.kt:749-751 | `a % b == 0` means the same in Kotlin and in the model, so divisibility tests carry over |
| Records.StatusesEnumerated | Patraplus-main/webui/app/src/main/java/ir/patraplus/webui/RecordModels.kt:3-7 | the review status has exactly three distinct values and both its Persian label and its enum name identify it |
| Records.NewRecord | Patraplus-main/webui/app/src/main/java/ir/patraplus/webui/RecordModels.kt:9-22 | a record built without a review status is PENDING with no operator notes, and keeps every field it was given |
| Records.Key | Patraplus-main/webui/app/src/main/java/ir/patraplus/webui/RecordModels.kt:23 | the record key contains no `\s` character and is at most as long as name plus mobile |
| Records.KeyOfCompactFields | Patraplus-main/webui/app/src/main/java/ir/patraplus/webui/RecordModels.kt:23 | when name and mobile contain no whitespace the key is exactly their concatenation |
| Records.KeyIgnoresOtherFields | Patraplus-main/webui/app/src/main/java/ir/patraplus/webui/RecordModels.kt:23 | two records with the same name and mobile have the same key whatever their other fields |
| Records.KeyWhitespaceInsensitive | Patraplus-main/webui/app/src/main/java/ir/patraplus/webui/RecordModels.kt:23 | records whose name and mobile agree once whitespace is removed have the same key |
| Records.KeyIgnoresInsertedWhitespace | Patraplus-main/webui/app/src/main/java/ir/patraplus/webui/RecordModels.kt:23 | inserting runs of whitespace anywhere in the name or the mobile does not change the key |
| Records.KeyIgnoresSplit | Patraplus-main/webui/app/src/main/java/ir/patraplus/webui/RecordModels.kt:23 | the key depends only on name + mobile: moving the boundary between the two fields does not change it, so distinct customers can collide |
| Text.SpaceClassesCompared | Patraplus-main/webui/app/src/main/java/ir/patraplus/webui/RecordModels.kt:23 | the three whitespace classes in play (Android regex `\s`, JavaScript `\s`/`trim`, Kotlin `isWhitespace`) agree except on U+0085, U+FEFF and U+001C..U+001F, with a witness for each difference |
| Text.Strip | Patraplus-main/webui/app/src/main/java/ir/patraplus/webui/RecordModels.kt:23 | removing every `\s` leaves no such character, never lengthens the text, and leaves text without whitespace unchanged |
| Text.StripAppend | Patraplus-main/webui/app/src/main/java/ir/patraplus/webui/RecordModels.kt:23 | whitespace removal distributes over concatenation |
| Text.StripMembers | Patraplus-main/webui/app/src/main/java/ir/patraplus/webui/RecordModels.kt:23 | a character survives whitespace removal exactly when it occurs in the text and is not whitespace |
| Text.Trim | Patraplus-main/webui/app/src/main/java/ir/patraplus/webui/MainActivity.kt:571-572 | `trim()` leaves no whitespace at either end, yields the empty text exactly for blank input, and leaves trimmed text unchanged |
| Text.TrimIsSlice | Patraplus-main/webui/app/src/main/java/ir/patraplus/webui/MainActivity.kt:571 | the trimmed text is a contiguous slice of the input, and everything before and after that slice is whitespace |
| Text.TrimMembers | Patraplus-main/webui/app/src/main/java/ir/patraplus/webui/MainActivity.kt:597 | trimming introduces no character that was not in the input |
| Text.Collapse | Patraplus-main/webui/app/src/main/java/ir/patraplus/webui/MainActivity.kt:596 | after `replace("\\s+", " ")` no two whitespace characters are adjacent, every remaining whitespace is a space, the result is empty exactly when the input is, it starts with whitespace exactly when the input does, and the non-whitespace characters are kept in order |
| Text.CollapseRunToSpace | Patraplus-main/webui/app/src/main/java/ir/patraplus/webui/MainActivity.kt:596 | each maximal whitespace run, leading, inner or trailing, becomes exactly one space, with the text on either side collapsed in place |
| Text.CollapseWordFree | Patraplus-main/webui/app/src/main/java/ir/patraplus/webui/MainActivity.kt:596 | text without whitespace is left unchanged by collapsing |
| Text.CollapseAfterWord | Patraplus-main/webui/app/src/main/java/ir/patraplus/webui/MainActivity.kt:596 | a whitespace-free prefix passes through collapsing untouched, whatever follows it |
| Text.CollapseMembers | Patraplus-main/webui/app/src/main/java/ir/patraplus/webui/MainActivity.kt:596 | a non-whitespace character occurs after collapsing exactly when it occurred before |
| Text.CollapseCompact | Patraplus-main/webui/app/src/main/java/ir/patraplus/webui/MainActivity.kt:596 | collapsing text that already has only single spaces changes nothing |
| Text.CollapseKeepsOccurrence | Patraplus-main/webui/app/src/main/java/ir/patraplus/webui/MainActivity.kt:596 | a run of words separated by single spaces that occurs in the text still occurs after whitespace runs are collapsed |
| Text.CollapseFindsOccurrence | Patraplus-main/webui/app/src/main/java/ir/patraplus/webui/MainActivity.kt:596 | collapsing whitespace creates no new occurrence of a word without whitespace |
| Text.TrimKeepsOccurrence | Patraplus-main/webui/app/src/main/java/ir/patraplus/webui/MainActivity.kt:597 | an occurrence that neither starts nor ends with whitespace survives `trim()` |
| Text.ReplaceChar | Patraplus-main/webui/app/src/main/java/ir/patraplus/webui/MainActivity.kt:594-595 | `replace(old, new)` on one character rewrites exactly the occurrences of `old` and nothing else |
| Text.Split | Patraplus-main/webui/app/src/main/java/ir/patraplus/webui/MainActivity.kt:573 | `split("-", "/")` yields one more part than there are separators and no part contains a separator |
| Text.SplitFirst | Patraplus-main/webui/app/src/main/java/ir/patraplus/webui/MainActivity.kt:573 | the part before the first separator is the first element of the split |
| Text.ParseInt | Patraplus-main/webui/app/src/main/java/ir/patraplus/webui/MainActivity.kt:575-577 | `toIntOrNull()`: a result is a 32-bit Int read from an optional sign and digits; every digit string whose value fits in an Int is read to that value |
| Text.ParsePersianDigits | Patraplus-main/webui/app/src/main/java/ir/patraplus/webui/MainActivity.kt:575-577 | Persian digits are read as decimal digits, so the Persian spelling of 1402 parses to 1402 |
| Text.ZeroPadded | Patraplus-main/webui/app/src/main/java/ir/patraplus/webui/MainActivity.kt:588 | `%04d`-style padding gives at least the requested width, only digits, and the same value |
| Text.ParsePadded | Patraplus-main/webui/app/src/main/java/ir/patraplus/webui/MainActivity.kt:575-588 | reading a zero-padded number back gives the number, for every Int |
| Status.PersianLetters | Patraplus-main/webui/app/src/main/java/ir/patraplus/webui/MainActivity.kt:594-595 | the Arabic yeh and kaf are replaced by the Persian letters, the length is kept, and text without them is unchanged |
| Status.CleanKotlinShape | Patraplus-main/webui/app/src/main/java/ir/patraplus/webui/MainActivity.kt:593-597 | the Kotlin cleaning leaves no Arabic yeh or kaf, single spaces only, and no whitespace at either end |
| Status.CleanKotlinIdempotent | Patraplus-main/webui/app/src/main/java/ir/patraplus/webui/MainActivity.kt:593-597 | cleaning a cleaned status changes nothing |
| Status.NormalizeDelivery | Patraplus-main/webui/app/src/main/java/ir/patraplus/webui/MainActivity.kt:592-605 | `normalizeDeliveryStatus` returns either the cleaned text or one of the four delivery categories |
| Status.NormalizeDeliveryIdempotent | Patraplus-main/webui/app/src/main/java/ir/patraplus/webui/MainActivity.kt:592-605 | normalizing twice gives the same result as normalizing once |
| Status.KotlinFixesCategories | Patraplus-main/webui/app/src/main/java/ir/patraplus/webui/MainActivity.kt:598-604 | each of the four category labels is its own normalization |
| Status.CleanJsShape | Patraplus-main/webui/app/src/main/java/ir/patraplus/webui/JavaScriptInjector.kt:155-161 | the page's `normalizeStatus` leaves no Arabic yeh or kaf, single spaces only, no surrounding whitespace, and the empty text exactly for blank input |
| Status.CleanJsIdempotent | Patraplus-main/webui/app/src/main/java/ir/patraplus/webui/JavaScriptInjector.kt:155-161 | the page's cleaning is idempotent |
| Status.MapStatus | Patraplus-main/webui/app/src/main/java/ir/patraplus/webui/JavaScriptInjector.kt:163-171 | `mapStatus` returns a category or the cleaned text, and the empty text exactly when the input is blank |
| Status.MapStatusIdempotent | Patraplus-main/webui/app/src/main/java/ir/patraplus/webui/JavaScriptInjector.kt:163-171 | mapping a mapped status changes nothing |
| Status.PageFixesCategories | Patraplus-main/webui/app/src/main/java/ir/patraplus/webui/JavaScriptInjector.kt:163-171 | each category label maps to itself on the page |
| Status.AppKeepsPageCategories | Patraplus-main/webui/app/src/main/java/ir/patraplus/webui/MainActivity.kt:592-605 | whenever the page classifies a status into a category, the app's normalization keeps that category |
| Status.BareCancelDiffers | Patraplus-main/webui/app/src/main/java/ir/patraplus/webui/JavaScriptInjector.kt:168 | the two classifiers disagree on the bare word for cancel: the app files it as a final cancel, the page keeps it as it is |
| Status.ByteOrderMarkDiffers | Patraplus-main/webui/app/src/main/java/ir/patraplus/webui/JavaScriptInjector.kt:155-165 | a status made of U+FEFF is blank to the page but kept by the app, since the two runtimes disagree on whitespace |
| Status.FallbackIsDead | Patraplus-main/webui/app/src/main/java/ir/patraplus/webui/JavaScriptInjector.kt:173-178 | because label values are already trimmed, the fallback to `normalizeStatus(listStatus)` never changes the final status |
| Status.WithdrawnIsPlain | Patraplus-main/webui/app/src/main/java/ir/patraplus/webui/JavaScriptInjector.kt:169 | the withdrawn pattern holds exactly when the text contains the word for withdrawn |
| Status.KotlinKeeps | Patraplus-main/webui/app/src/main/java/ir/patraplus/webui/MainActivity.kt:593-597 | a keyword written as letters with single spaces that occurs in the raw status still occurs after the app's cleaning |
| Status.KotlinFinds | Patraplus-main/webui/app/src/main/java/ir/patraplus/webui/MainActivity.kt:593-597 | a space-free keyword without Persian yeh or kaf found after the app's cleaning was in the raw status |
| Status.KotlinWaitingWins | Patraplus-main/webui/app/src/main/java/ir/patraplus/webui/MainActivity.kt:592-599 | the waiting test comes first: raw text mentioning both "در انتظار" and "تحویل" is filed as waiting, whatever collected, cancel or withdrawal words it also contains |
| Status.KotlinCollectedWins | Patraplus-main/webui/app/src/main/java/ir/patraplus/webui/MainActivity.kt:592-600 | the collected test comes second: raw text mentioning "وصولی" but not "انتظار" is filed as collected, whatever cancel or withdrawal words it also contains |
| Status.PageKeeps | Patraplus-main/webui/app/src/main/java/ir/patraplus/webui/JavaScriptInjector.kt:155-161 | a keyword written as letters with single spaces that occurs in the raw status still occurs after `normalizeStatus` |
| Status.PageFinds | Patraplus-main/webui/app/src/main/java/ir/patraplus/webui/JavaScriptInjector.kt:155-161 | a space-free keyword without Persian yeh or kaf found after `normalizeStatus` was in the raw status |
| Status.WaitingNeedsWaitWord | Patraplus-main/webui/app/src/main/java/ir/patraplus/webui/JavaScriptInjector.kt:166 | every match of the waiting pattern contains "انتظار" |
| Status.PageWaitingWins | Patraplus-main/webui/app/src/main/java/ir/patraplus/webui/JavaScriptInjector.kt:163-166 | the waiting pattern is tested first: raw text containing "در انتظار تحویل" maps to waiting |
| Status.PageCollectedWins | Patraplus-main/webui/app/src/main/java/ir/patraplus/webui/JavaScriptInjector.kt:163-167 | "وصولی" is tested second: raw text containing it but not "انتظار" maps to collected, whatever cancel or withdrawal words it also contains |
| Scraper.StatusHeaderIsPlain | Patraplus-main/webui/app/src/main/java/ir/patraplus/webui/JavaScriptInjector.kt:73 | the status-column test with its two alternatives holds exactly when the header contains the word for status, since the first alternative contains the second |
| OrderedMaps.Put | Patraplus-main/webui/app/src/main/java/ir/patraplus/webui/JavaScriptInjector.kt:10-12 | putting into an insertion-ordered map sets the value, keeps the order of an existing key and appends a new key at the end |
| OrderedMaps.Remove | Patraplus-main/webui/app/src/main/java/ir/patraplus/webui/JavaScriptInjector.kt:14-16 | removing a key drops exactly that entry and keeps the order of the rest |
| OrderedMaps.FirstOccurrences | Patraplus-main/webui/app/src/main/java/ir/patraplus/webui/RecordStore.kt:24 | the keys in first-seen order: no duplicates and the same members as the input |
| OrderedMaps.FirstOccurrencesAbsorb | Patraplus-main/webui/app/src/main/java/ir/patraplus/webui/RecordStore.kt:26-38 | appending only keys already present does not change the key order |
| OrderedMaps.Values | Patraplus-main/webui/app/src/main/java/ir/patraplus/webui/RecordStore.kt:39 | `map.values.toList()` lists one value per key, in key order |
| Registry.Init | Patraplus-main/webui/app/src/main/java/ir/patraplus/webui/JavaScriptInjector.kt:6-8 | a fresh injector offers exactly the "Extract Records" script, bound to the extraction script |
| Registry.Register | Patraplus-main/webui/app/src/main/java/ir/patraplus/webui/JavaScriptInjector.kt:10-12 | after registering, the name maps to the new script and every other name is unaffected |
| Registry.Unregister | Patraplus-main/webui/app/src/main/java/ir/patraplus/webui/JavaScriptInjector.kt:14-16 | after unregistering, the name has no script and every other name is unaffected |
| Registry.Inject | Patraplus-main/webui/app/src/main/java/ir/patraplus/webui/JavaScriptInjector.kt:20-25 | a script runs exactly when its name is registered and a page is open, and it is the registered script |
| Registry.RegisterExisting | Patraplus-main/webui/app/src/main/java/ir/patraplus/webui/JavaScriptInjector.kt:10-18 | re-registering a name keeps its position in the list of available scripts |
| Registry.RegisterNew | Patraplus-main/webui/app/src/main/java/ir/patraplus/webui/JavaScriptInjector.kt:10-18 | registering a new name appends it to the list of available scripts |
| Registry.UnregisterDropsName | Patraplus-main/webui/app/src/main/java/ir/patraplus/webui/JavaScriptInjector.kt:14-18 | unregistering removes exactly that name from the list of available scripts |
| Registry.UnregisterUndoesRegister | Patraplus-main/webui/app/src/main/java/ir/patraplus/webui/JavaScriptInjector.kt:10-16 | registering a new name and unregistering it restores the injector |
| Registry.RegistrationOrder | Patraplus-main/webui/app/src/main/java/ir/patraplus/webui/JavaScriptInjector.kt:6-18 | the available scripts are "Extract Records" followed by the registered names in first-registration order, without duplicates |
| RecordStore.StatusFromName | Patraplus-main/webui/app/src/main/java/ir/patraplus/webui/RecordStore.kt:61-62 | `RecordStatus.valueOf` with a PENDING default: a valid enum name gives that status, anything else PENDING |
| RecordStore.ToRecord | Patraplus-main/webui/app/src/main/java/ir/patraplus/webui/RecordStore.kt:60-78 | missing fields read as empty, a missing status as PENDING, and a present status through `valueOf` |
| RecordStore.RecordRoundTrip | Patraplus-main/webui/app/src/main/java/ir/patraplus/webui/RecordStore.kt:60-95 | reading back what `toJson` wrote gives the same record, every field and the status included |
| RecordStore.StatusNameRoundTrip | Patraplus-main/webui/app/src/main/java/ir/patraplus/webui/RecordStore.kt:61-94 | the stored enum name of every status reads back as that status |
| RecordStore.UnknownStatusLoadsPending | Patraplus-main/webui/app/src/main/java/ir/patraplus/webui/RecordStore.kt:61-62 | a stored object whose status is absent or not an enum name loads as PENDING |
| RecordStore.Save | Patraplus-main/webui/app/src/main/java/ir/patraplus/webui/RecordStore.kt:52-58 | the saved array holds one object per record, in order |
| RecordStore.Load | Patraplus-main/webui/app/src/main/java/ir/patraplus/webui/RecordStore.kt:11-20 | nothing stored loads as no records; otherwise one record per stored object, in order |
| RecordStore.LoadAfterSave | Patraplus-main/webui/app/src/main/java/ir/patraplus/webui/RecordStore.kt:11-58 | loading what was saved gives back the same list |
| RecordStore.IndexByKey | Patraplus-main/webui/app/src/main/java/ir/patraplus/webui/RecordStore.kt:24 | `associateBy { it.key() }`: keys in first-seen order, each mapped to the last record with that key |
| RecordStore.UpsertAll | Patraplus-main/webui/app/src/main/java/ir/patraplus/webui/RecordStore.kt:22-42 | the merged keys are the stored keys then the new ones, in first-seen order, and the added count is the number of incoming keys not stored before |
| RecordStore.UpsertValues | Patraplus-main/webui/app/src/main/java/ir/patraplus/webui/RecordStore.kt:26-38 | each merged record is the last incoming record with its key carrying the stored status and operator notes, or the stored record when no incoming record has that key |
| RecordStore.UpsertKeysUnion | Patraplus-main/webui/app/src/main/java/ir/patraplus/webui/RecordStore.kt:22-42 | the merged keys are distinct and are exactly the union of the stored and incoming keys |
| RecordStore.UpsertKeepsOperatorFields | Patraplus-main/webui/app/src/main/java/ir/patraplus/webui/RecordStore.kt:32-37 | a re-scraped record keeps the operator's review status and notes |
| RecordStore.UpsertKnownKeys | Patraplus-main/webui/app/src/main/java/ir/patraplus/webui/RecordStore.kt:28-37 | upserting a record whose key is stored adds nothing and keeps the key order |
| RecordStore.UpsertKnownRecord | Patraplus-main/webui/app/src/main/java/ir/patraplus/webui/RecordStore.kt:32-37 | a record whose key is stored replaces the stored one but with the stored status and notes |
| RecordStore.UpsertNewRecord | Patraplus-main/webui/app/src/main/java/ir/patraplus/webui/RecordStore.kt:29-31 | a record with a new key is appended and counted as one added |
| RecordStore.UpsertTwice | Patraplus-main/webui/app/src/main/java/ir/patraplus/webui/RecordStore.kt:22-42 | upserting the same batch again adds nothing and changes nothing |
| RecordStore.UpsertIntoEmpty | Patraplus-main/webui/app/src/main/java/ir/patraplus/webui/RecordStore.kt:22-42 | into an empty store a batch with distinct keys counts every record as added |
| RecordStore.AddedIsNewKeys | Patraplus-main/webui/app/src/main/java/ir/patraplus/webui/RecordStore.kt:25-31 | the growth of the first-seen key list is the number of new distinct keys |
| RecordStore.UpdateStatus | Patraplus-main/webui/app/src/main/java/ir/patraplus/webui/RecordStore.kt:44-50 | keys are unchanged, only the status may change, every record with the given key gets the new status, and every other record is unchanged |
| RecordStore.UpdateStatusFrame | Patraplus-main/webui/app/src/main/java/ir/patraplus/webui/RecordStore.kt:44-50 | an absent key changes nothing, and setting the same status twice is the same as once |
| RecordStore.UpdateOperatorNotes | Patraplus-main/webui/app/src/main/java/ir/patraplus/webui/RecordStore.kt:97-107 | keys are unchanged, only the operator notes may change, every record with the given key gets the new notes, and every other record is unchanged |
| RecordStore.UpdateOperatorNotesFrame | Patraplus-main/webui/app/src/main/java/ir/patraplus/webui/RecordStore.kt:97-107 | an absent key changes nothing, and writing the same notes twice is the same as once |
| RecordStore.StatusSurvivesRescrape | Patraplus-main/webui/app/src/main/java/ir/patraplus/webui/RecordStore.kt:22-50 | a status the operator set survives a later merge of re-scraped records |
| Calendar.GregorianLeapRule | Patraplus-main/webui/app/src/main/java/ir/patraplus/webui/MainActivity.kt:749-751 | `isGregorianLeap` is the usual rule: divisible by 4 and not by 100, or by 400 |
| Calendar.MonthTablesAgree | Patraplus-main/webui/app/src/main/java/ir/patraplus/webui/MainActivity.kt:722-745 | the cumulative month table and the month lengths describe the same calendar, summing to 365 or 366 |
| Calendar.KotlinJalaliDayNumber | Patraplus-main/webui/app/src/main/java/ir/patraplus/webui/MainActivity.kt:693-698 | the Kotlin day-number computation always yields a 32-bit Int |
| Calendar.KotlinJalaliToGregorianExact | Patraplus-main/webui/app/src/main/java/ir/patraplus/webui/MainActivity.kt:693-747 | for fields within a million the Int arithmetic never wraps, so the Kotlin conversion equals the exact one |
| Calendar.KotlinMonthWraps | Patraplus-main/webui/app/src/main/java/ir/patraplus/webui/MainActivity.kt:693-698 | for month 143165578 the product `jm2 * 30` wraps and the Kotlin day number falls on 1400/1/21, far from the exact value |
| Calendar.DaysInJalaliMonth | Patraplus-main/webui/app/src/main/java/ir/patraplus/webui/MainActivity.kt:753-759 | months 1-6 have 31 days, 7-11 have 30, and month 12 has 30 exactly in an `isJalaliLeap` year and 29 otherwise |
| Calendar.CycleDaysInJalaliMonth | Patraplus-main/webui/app/src/main/java/ir/patraplus/webui/MainActivity.kt:693-698 | the month lengths implied by the converters' 33-year arithmetic |
| Calendar.JalaliDayOfYear | Patraplus-main/webui/app/src/main/java/ir/patraplus/webui/MainActivity.kt:693-698 | a valid Jalali date's position in its year is below the length of that year |
| Calendar.JalaliRoundTrip | Patraplus-main/webui/app/src/main/java/ir/patraplus/webui/MainActivity.kt:671-698 | the Jalali day number of a valid date decodes back to that date |
| Calendar.JalaliYearLength | Patraplus-main/webui/app/src/main/java/ir/patraplus/webui/MainActivity.kt:693-698 | consecutive Jalali new years are 366 days apart in cycle-leap years and 365 otherwise |
| Calendar.GregorianYearOfSpec | Patraplus-main/webui/app/src/main/java/ir/patraplus/webui/MainActivity.kt:699-720 | the 400/100/4/1-year decomposition locates the year and day-of-year containing a day number |
| Calendar.GregorianFromDayNumberSpec | Patraplus-main/webui/app/src/main/java/ir/patraplus/webui/MainActivity.kt:699-747 | the Gregorian date computed from a non-negative day number is valid and has that day number |
| Calendar.GregorianYearBound | Patraplus-main/webui/app/src/main/java/ir/patraplus/webui/MainActivity.kt:699-747 | the Gregorian year produced from day number `n` lies between 1600 and 1600 + n |
| Calendar.JalaliGregorianRoundTrip | Patraplus-main/webui/app/src/main/java/ir/patraplus/webui/MainActivity.kt:661-747 | `gregorianToJalali(jalaliToGregorian(d)) == d` for every valid Jalali date, and the intermediate date is a valid Gregorian date |
| Calendar.JalaliToGregorianValid | Patraplus-main/webui/app/src/main/java/ir/patraplus/webui/MainActivity.kt:692-747 | converting a valid Jalali date gives a valid Gregorian date from 1600 on |
| Calendar.PrecedesIsDayOrder | Patraplus-main/webui/app/src/main/java/ir/patraplus/webui/MainActivity.kt:564-565 | `before`/`after` on parsed dates is the order of their day numbers |
| Calendar.YearLength | Patraplus-main/webui/app/src/main/java/ir/patraplus/webui/MainActivity.kt:699-751 | a Gregorian year has 366 days exactly when it is a leap year |
| Dates.DateFields | Patraplus-main/webui/app/src/main/java/ir/patraplus/webui/MainActivity.kt:571-577 | the three leading fields of a date text, each a 32-bit Int |
| Dates.ParseDate | Patraplus-main/webui/app/src/main/java/ir/patraplus/webui/MainActivity.kt:570-590 | a parsed date is a Gregorian date the non-lenient formatter accepts (year 1 to 292278994) and its text had three Int fields |
| Dates.ParseDateRejects | Patraplus-main/webui/app/src/main/java/ir/patraplus/webui/MainActivity.kt:571-574 | blank text and text with fewer than two separators parse to null |
| Dates.ParseDateFields | Patraplus-main/webui/app/src/main/java/ir/patraplus/webui/MainActivity.kt:571-577 | text of the form year, separator, month, separator, day (and anything after another separator) yields those three fields |
| Dates.ParseDateOf | Patraplus-main/webui/app/src/main/java/ir/patraplus/webui/MainActivity.kt:579-589 | the result is the converted date when the formatter accepts it and null otherwise |
| Dates.FormatFields | Patraplus-main/webui/app/src/main/java/ir/patraplus/webui/MainActivity.kt:588 | formatting three non-negative Ints and splitting the text gives back the three fields |
| Dates.ParseGregorianText | Patraplus-main/webui/app/src/main/java/ir/patraplus/webui/MainActivity.kt:579-589 | a Gregorian date after 1900 written as text reads back as itself |
| Dates.ParseGregorianBeyondCap | Patraplus-main/webui/app/src/main/java/ir/patraplus/webui/MainActivity.kt:585-589 | a year beyond 292278994 is rejected by the formatter and parses to null |
| Dates.ParseJalaliText | Patraplus-main/webui/app/src/main/java/ir/patraplus/webui/MainActivity.kt:579-589 | a valid Jalali date up to year 1900 written as text parses to its Gregorian conversion, which converts back to it |
| Dates.AsGregorianOfJalali | Patraplus-main/webui/app/src/main/java/ir/patraplus/webui/MainActivity.kt:579-583 | small Jalali fields are converted without Int wrap-around |
| Dates.JalaliWithinFormatter | Patraplus-main/webui/app/src/main/java/ir/patraplus/webui/MainActivity.kt:579-589 | every valid Jalali date up to 1900 converts to a date the formatter accepts |
| Dates.WrappedMonthParses | Patraplus-main/webui/app/src/main/java/ir/patraplus/webui/MainActivity.kt:575-589 | text with fields 1400, 143165578, 1 parses to the Gregorian date of 1400/1/21, as the Int wrap-around dictates |
| Dates.GregorianYear1900IsReadAsJalali | Patraplus-main/webui/app/src/main/java/ir/patraplus/webui/MainActivity.kt:579 | year 1900 itself goes through the Jalali branch, so 1900-01-01 parses to a different date |
| Dates.ClampDay | Patraplus-main/webui/app/src/main/java/ir/patraplus/webui/MainActivity.kt:631-633 | the day is lowered to the maximum when it exceeds it and kept otherwise |
| Dates.UpdateDayPicker | Patraplus-main/webui/app/src/main/java/ir/patraplus/webui/MainActivity.kt:628-634 | the picked day never exceeds the month's length and a day of at least 1 stays at least 1 |
| Dates.UpdateDayPickerSettles | Patraplus-main/webui/app/src/main/java/ir/patraplus/webui/MainActivity.kt:620-637 | after an update the picker shows a valid selection, a second update changes nothing, and a shown selection is left alone |
| Dates.PickedText | Patraplus-main/webui/app/src/main/java/ir/patraplus/webui/MainActivity.kt:646-652 | the `%04d/%02d/%02d` text of a picked date splits back into the same three fields |
| Dates.ParsePicked | Patraplus-main/webui/app/src/main/java/ir/patraplus/webui/MainActivity.kt:646-652 | the picked text parses to the Gregorian conversion of the picked fields |
| Dates.LeapRulesInPickerRange | Patraplus-main/webui/app/src/main/java/ir/patraplus/webui/MainActivity.kt:620-621 | within the picker's 1390..1500, `isJalaliLeap` and the converters' leap years differ exactly in 1403, 1404, 1436, 1437, 1469 and 1470 |
| Dates.PickerOffersPhantomDay | Patraplus-main/webui/app/src/main/java/ir/patraplus/webui/MainActivity.kt:753-764 | the picker offers 1404/12/30 and it parses to the same day as 1405/01/01 |
| Dates.PickerHidesLeapDay | Patraplus-main/webui/app/src/main/java/ir/patraplus/webui/MainActivity.kt:753-764 | the real leap day 1403/12/30 cannot be picked: the picker pulls it back to 1403/12/29 |
| Dates.CorrectedUpdateDayPicker | Patraplus-main/webui/app/src/main/java/ir/patraplus/webui/MainActivity.kt:628-634 | the picker bounded by the converters' month lengths keeps year and month and never exceeds the month |
| Dates.CorrectedPickerRoundTrip | Patraplus-main/webui/app/src/main/java/ir/patraplus/webui/MainActivity.kt:628-652 | with the corrected month lengths every picked date is a valid Jalali date whose Gregorian conversion converts back to it |
| Dates.CorrectedPickerInjective | Patraplus-main/webui/app/src/main/java/ir/patraplus/webui/MainActivity.kt:628-652 | with the corrected month lengths two different picked dates never parse to the same day |
| Filters.ApplyAdvancedFilters | Patraplus-main/webui/app/src/main/java/ir/patraplus/webui/MainActivity.kt:550-568 | with a review status selected the list is returned as it is; otherwise exactly the records passing the delivery and date criteria remain, each as often as in the source, in their order |
| Filters.ShowRecords | Patraplus-main/webui/app/src/main/java/ir/patraplus/webui/MainActivity.kt:385-391 | the list shown holds exactly the records with the selected review status, or those passing the advanced filters when none is selected, each as often as in the list, in their order |
| Filters.EmptyPanelKeepsAll | Patraplus-main/webui/app/src/main/java/ir/patraplus/webui/MainActivity.kt:556-566 | with "all statuses" chosen and both date fields blank every record is shown |
| Filters.NoBoundsIgnoreDates | Patraplus-main/webui/app/src/main/java/ir/patraplus/webui/MainActivity.kt:557-566 | when neither bound parses, a record passes exactly when its delivery status matches |
| Filters.UnparsableDateExcluded | Patraplus-main/webui/app/src/main/java/ir/patraplus/webui/MainActivity.kt:563-565 | when a bound is set, a record whose registration date does not parse is excluded |
| Filters.BoundsAreInclusive | Patraplus-main/webui/app/src/main/java/ir/patraplus/webui/MainActivity.kt:564-565 | both date bounds are inclusive: a date lies within [from, to] exactly when it is neither before from nor after to |
| Filters.CategoryOptionMatches | Patraplus-main/webui/app/src/main/java/ir/patraplus/webui/MainActivity.kt:525-562 | choosing a category in the spinner keeps exactly the records whose normalized delivery status is that category |
| Filters.OptionsAreTrimmed | Patraplus-main/webui/app/src/main/java/ir/patraplus/webui/MainActivity.kt:525-556 | every spinner option is already trimmed and is a category, so `trim()` on the selection changes nothing |
| Scraper.FirstIndex | Patraplus-main/webui/app/src/main/java/ir/patraplus/webui/JavaScriptInjector.kt:43-50 | `find`/`findIndex`: the first position satisfying the test, or none when no position does |
| Scraper.HeaderText | Patraplus-main/webui/app/src/main/java/ir/patraplus/webui/JavaScriptInjector.kt:46-47 | a header's text with all whitespace removed |
| Scraper.PickColumn | Patraplus-main/webui/app/src/main/java/ir/patraplus/webui/JavaScriptInjector.kt:33-80 | a looked-up cell is trimmed, and an anchor outside a table row gives the empty text |
| Scraper.HeaderLookup | Patraplus-main/webui/app/src/main/java/ir/patraplus/webui/JavaScriptInjector.kt:40-56 | the cell read is the one under the first matching header of the first header row, or empty when the row is too short |
| Scraper.HeaderLookupEmpty | Patraplus-main/webui/app/src/main/java/ir/patraplus/webui/JavaScriptInjector.kt:50-51 | no matching header gives the empty text |
| Scraper.NoHeaderRow | Patraplus-main/webui/app/src/main/java/ir/patraplus/webui/JavaScriptInjector.kt:43-44 | a table without a header row gives the empty text |
| Scraper.CollapseMap | Patraplus-main/webui/app/src/main/java/ir/patraplus/webui/JavaScriptInjector.kt:96-107 | the `unique` map holds one entry per distinct URL in first-seen order |
| Scraper.CollapseLinks | Patraplus-main/webui/app/src/main/java/ir/patraplus/webui/JavaScriptInjector.kt:85-111 | the collected links are the distinct URLs in first-seen order, and there are none exactly when no anchors were found |
| Scraper.FirstNonEmpty | Patraplus-main/webui/app/src/main/java/ir/patraplus/webui/JavaScriptInjector.kt:99-105 | the chain of JavaScript `or` operators yields some non-empty value of the chain, and the empty text exactly when every value is empty |
| Scraper.CollapseKeepsFirstNonEmpty | Patraplus-main/webui/app/src/main/java/ir/patraplus/webui/JavaScriptInjector.kt:96-107 | for every URL each field is the first non-empty value among that URL's anchors |
| Scraper.Texts | Patraplus-main/webui/app/src/main/java/ir/patraplus/webui/JavaScriptInjector.kt:144-149 | the loop reads cell `i` as the trimmed text of `td` number `i`, one text per cell |
| Scraper.LabelMapDomain | Patraplus-main/webui/app/src/main/java/ir/patraplus/webui/JavaScriptInjector.kt:143-151 | the label map holds exactly the non-empty cell texts seen so far, each mapped to some cell text |
| Scraper.LabelMapFirstWins | Patraplus-main/webui/app/src/main/java/ir/patraplus/webui/JavaScriptInjector.kt:146-151 | a label maps to the cell after its first occurrence |
| Scraper.TdFirst | Patraplus-main/webui/app/src/main/java/ir/patraplus/webui/JavaScriptInjector.kt:146-153 | `td(label)` is the text of the cell after the label's first occurrence |
| Scraper.TdAbsent | Patraplus-main/webui/app/src/main/java/ir/patraplus/webui/JavaScriptInjector.kt:153 | `td(label)` is empty when no cell before the last holds the label |
| Scraper.TdFromTexts | Patraplus-main/webui/app/src/main/java/ir/patraplus/webui/JavaScriptInjector.kt:148-153 | `td(label)` is empty or one of the cell texts |
| Scraper.TdTrimmed | Patraplus-main/webui/app/src/main/java/ir/patraplus/webui/JavaScriptInjector.kt:147-153 | every `td` value starts with a non-whitespace character or is empty |
| Scraper.Extract | Patraplus-main/webui/app/src/main/java/ir/patraplus/webui/JavaScriptInjector.kt:127-196 | no row for an exception or a status outside 200..299; otherwise a row carrying the link's registration date |
| Scraper.ExtractStatus | Patraplus-main/webui/app/src/main/java/ir/patraplus/webui/JavaScriptInjector.kt:173-178 | a row's status is `mapStatus` of the page status, or of the listing status when the page has none: a category or the cleaned text |
| Scraper.Dedup | Patraplus-main/webui/app/src/main/java/ir/patraplus/webui/JavaScriptInjector.kt:204-211 | the kept rows are a subsequence of the clean rows and the seen set grows by exactly their keys |
| Scraper.DedupFresh | Patraplus-main/webui/app/src/main/java/ir/patraplus/webui/JavaScriptInjector.kt:206-209 | every kept row has a non-empty key that was not seen before |
| Scraper.DedupDistinct | Patraplus-main/webui/app/src/main/java/ir/patraplus/webui/JavaScriptInjector.kt:206-209 | no two kept rows share a key |
| Scraper.DedupComplete | Patraplus-main/webui/app/src/main/java/ir/patraplus/webui/JavaScriptInjector.kt:205-211 | afterwards every non-empty key of a clean row is in the seen set |
| Scraper.DedupTwice | Patraplus-main/webui/app/src/main/java/ir/patraplus/webui/JavaScriptInjector.kt:204-211 | running the same rows against the updated seen set keeps nothing |
| Scraper.DedupKeepsNothing | Patraplus-main/webui/app/src/main/java/ir/patraplus/webui/JavaScriptInjector.kt:204-215 | nothing is kept exactly when every clean row has an empty key or one already seen |
| Scraper.Raw | Patraplus-main/webui/app/src/main/java/ir/patraplus/webui/JavaScriptInjector.kt:198 | one extraction result per link, in order |
| Scraper.Present | Patraplus-main/webui/app/src/main/java/ir/patraplus/webui/JavaScriptInjector.kt:199 | `filter(Boolean)` keeps exactly the rows that were produced |
| Scraper.Run | Patraplus-main/webui/app/src/main/java/ir/patraplus/webui/JavaScriptInjector.kt:85-217 | the links are collected once; "no links" exactly when there are none; "no new rows" exactly when links exist and every clean row has an empty or seen key; a row result is non-empty; the seen set only grows |
| Scraper.RunRows | Patraplus-main/webui/app/src/main/java/ir/patraplus/webui/JavaScriptInjector.kt:198-217 | the returned rows are clean rows in order, with fresh, non-empty, pairwise different keys that are added to the seen set |
| Scraper.LinksReadOnce | Patraplus-main/webui/app/src/main/java/ir/patraplus/webui/JavaScriptInjector.kt:85-114 | once links are cached on the page, a later run ignores the anchors present then |
| Scraper.RerunFindsNothingNew | Patraplus-main/webui/app/src/main/java/ir/patraplus/webui/JavaScriptInjector.kt:114-215 | running the script again on the same page reports that no new rows remain |
| Dispatch.DecodePayload | Patraplus-main/webui/app/src/main/java/ir/patraplus/webui/MainActivity.kt:329-333 | null for a missing, blank or "null" result; an exception when the text does not tokenize; a string literal decodes to its contents |
| Dispatch.OptString | Patraplus-main/webui/app/src/main/java/ir/patraplus/webui/MainActivity.kt:310-322 | `optString`: the fallback for a missing key and the string itself for a string value |
| Dispatch.RecordOf | Patraplus-main/webui/app/src/main/java/ir/patraplus/webui/MainActivity.kt:310-323 | a record read from the page is PENDING with no operator notes |
| Dispatch.ParseRecords | Patraplus-main/webui/app/src/main/java/ir/patraplus/webui/MainActivity.kt:306-327 | at most one record per array element, every one PENDING with no notes |
| Dispatch.ParseRecordsAppend | Patraplus-main/webui/app/src/main/java/ir/patraplus/webui/MainActivity.kt:306-327 | parsing distributes over concatenation of arrays |
| Dispatch.ParseRecordsSingle | Patraplus-main/webui/app/src/main/java/ir/patraplus/webui/MainActivity.kt:309 | an object element yields its record and any other element is skipped |
| Dispatch.MissingKeysAreEmpty | Patraplus-main/webui/app/src/main/java/ir/patraplus/webui/MainActivity.kt:311-321 | a missing key reads as the empty text |
| Dispatch.AddedMessage | Patraplus-main/webui/app/src/main/java/ir/patraplus/webui/MainActivity.kt:291-295 | the "nothing new" message is shown exactly when nothing was added |
| Dispatch.AddedMessageNamesCount | Patraplus-main/webui/app/src/main/java/ir/patraplus/webui/MainActivity.kt:291-292 | different positive counts give different messages |
| Dispatch.Dispatch | Patraplus-main/webui/app/src/main/java/ir/patraplus/webui/MainActivity.kt:281-302 | an array is merged into the store with the matching message; an object shows its "error" text or the payload; anything else shows the payload |
| Dispatch.HandleExtractionResult | Patraplus-main/webui/app/src/main/java/ir/patraplus/webui/MainActivity.kt:274-303 | an undecodable result escapes as an exception, no payload shows "nothing received", and only a decoded payload can reach the store |
| Dispatch.RowJsonRead | Patraplus-main/webui/app/src/main/java/ir/patraplus/webui/MainActivity.kt:306-327 | the app reads each object the script builds back into the record the row describes |
| Dispatch.RowsRead | Patraplus-main/webui/app/src/main/java/ir/patraplus/webui/MainActivity.kt:306-327 | the script's array of rows parses to one record per row, in order |
| Dispatch.ParseAllObjects | Patraplus-main/webui/app/src/main/java/ir/patraplus/webui/MainActivity.kt:306-327 | an array of objects parses to one record per element, in order |
| Dispatch.RowsAreStored | Patraplus-main/webui/app/src/main/java/ir/patraplus/webui/MainActivity.kt:274-296 | when the script returns rows, the store receives exactly those rows as records |
| Dispatch.FailureIsShown | Patraplus-main/webui/app/src/main/java/ir/patraplus/webui/MainActivity.kt:298-301 | when the script reports no links or no new rows, that error text is shown and nothing is stored |
| Dispatch.SameRowsTwice | Patraplus-main/webui/app/src/main/java/ir/patraplus/webui/MainActivity.kt:274-296 | delivering the same rows twice stores them once: the second time nothing is added and "nothing new" is shown |

## Left out

- Android UI: dialogs, toasts, the navigation drawer, the RecyclerView, the overlay service and the login screen. The model returns the value a dialog would show (`Dispatch.Outcome`).
- `runExtraction`: the script picker dialog and its "No scripts registered" toast are UI. The chosen name is the argument of `Registry.Inject`.
- I/O: SharedPreferences, the WebView, `evaluateJavascript`, the synchronous `XMLHttpRequest`, `DOMParser` and the DOM queries. Each becomes a value or a function parameter: the stored objects, `Placement`, `Response` and the `fetch` function of `Scraper.Reader`.
- The org.json library: `JSONTokener.nextValue()` and `toString()` are the `parse` and `show` fields of `Dispatch.Codec`, so the model assumes nothing about their text formats.
- Dispatch.HandleExtractionResult: the model stops at the exception `decodeJavaScriptPayload` lets through (`Uncaught`); what Android does next (the app crashes) is not modelled.
- Dispatch.Dispatch: after a merge the app replaces its in-memory list and redraws `showRecords`. The model returns the store's result and leaves the redraw to the UI.
- RecordStore.UpsertAll: the source reloads the stored list from SharedPreferences first; the model takes the loaded list as its `stored` argument.
- RecordStore.Load: a stored array element that is not a JSON object makes `getJSONObject` throw. The model's stored value is already a list of objects.
- Records.NewRecord: the `CustomerRecord` declaration in RecordModels.kt has no `operatorNotes` field, yet RecordStore.kt reads, writes and copies it. The model follows RecordStore.kt: `operatorNotes` is a string field with default "".
- Text.DigitValue: `toIntOrNull` reads digits through `Character.digit`, which accepts every Unicode decimal digit. The model accepts only ASCII digits, Arabic-Indic digits (U+0660..U+0669) and Persian digits (U+06F0..U+06F9), the ones this app's data uses. Fields written with other digit blocks (Devanagari, fullwidth, ...) parse to a number in the source and to null in the model.
- Dates.ParseDate: the model checks the three fields against the formatter's rules directly, without building the `%04d-%02d-%02d` text and reading it back. The rules are: a proleptic Gregorian date, year 1 to 292278994.
- Dates.ParseDate: within year 292278994, Java's calendar ends on 17 August. Later days of that year are accepted by the model and rejected by the source.
- Dates.ParseDate: Java's `GregorianCalendar` uses Julian leap years before 15 October 1582, and the model uses proleptic Gregorian rules for every year. They differ only for 29 February of a century year not divisible by 400 and for the ten skipped October days of 1582. Such a date can come only from the Jalali branch for a Jalali year before 979, the converters' epoch, where the day number is negative. The model computes the same converted fields as Kotlin there, but judges them by Gregorian rules.
- Calendar.GregorianToJalali: written without Int wrap-around. The model applies it only to Gregorian dates converted from valid Jalali dates, where no intermediate exceeds 32 bits. The source also applies it to today's date, which is just as far from the limit.
- Calendar.IsJalaliLeap: written without Int wrap-around, which it does not need within the picker's years 1390..1500.
- `showPersianDatePicker`: today's date comes from the device clock. The picker's starting selection is any date, an argument of `Dates.UpdateDayPicker`.
- Scraper.PickColumn: the regular expressions `/تاریخثبت/i` and `/وضعیتمشتری|وضعیت/i` are modelled as substring tests. The `i` flag has no effect on these Persian patterns.
- The extraction script's `try`/`catch` covers any exception while a page is fetched or parsed. The model merges every such failure into `Response.Threw`.

## Findings

| source | as written | input that shows it | evidently intended | confidence | as-written member | corrected member |
|---|---|---|---|---|---|---|
| Patraplus-main/webui/app/src/main/java/ir/patraplus/webui/MainActivity.kt:761-764 | `daysInJalaliMonth` gives the twelfth month 30 days when `isJalaliLeap` (a 2820-year rule) says so, but `jalaliToGregorian` and `gregorianToJalali` count days with a 33-year cycle; in the picker's years the two rules disagree in 1403, 1404, 1436, 1437, 1469 and 1470 | picking 1404/12/30 (offered, although 1404 has 29 days in its last month for the converters) parses to the same day as 1405/01/01; the real leap day 1403/12/30 cannot be picked | the last month has 30 days exactly in the converters' leap years, those where (jy - 979) mod 33 is a multiple of 4 below 32, so that every pickable date is a real day and distinct dates stay distinct | not executed | Dates.PickerOffersPhantomDay, Dates.PickerHidesLeapDay | Dates.CorrectedUpdateDayPicker, Dates.CorrectedPickerRoundTrip |

=== FILE: calendar.dfy ===
/**
  The Jalali (Persian) and Gregorian calendar arithmetic of MainActivity.kt:
  the day-number converters `jalaliToGregorian` and `gregorianToJalali`,
  `isGregorianLeap`, and the two month-length helpers the date picker uses.
  Every `/` and `%` is Kotlin's, truncating toward zero.
 */
module Calendar {
  import opened Int32

  /** A (year, month, day) triple; Kotlin's `Triple<Int, Int, Int>` and `JalaliDate`. */
  datatype Date = Date(year: int, month: int, day: int)

  // ---------------------------------------------------------------------------
  // Gregorian calendar
  // ---------------------------------------------------------------------------

  /** `isGregorianLeap(year)`. */
  predicate IsGregorianLeap(year: int) {
    (KMod(year, 4) == 0 && KMod(year, 100) != 0) || KMod(year, 400) == 0
  }

  /** Truncating remainders are zero exactly when Euclidean ones are, so the rule is the proleptic Gregorian one. */
  lemma GregorianLeapRule(year: int)
    ensures IsGregorianLeap(year) <==> (year % 4 == 0 && year % 100 != 0) || year % 400 == 0
  {
    KModZero(year, 4);
    KModZero(year, 100);
    KModZero(year, 400);
  }

  /** Days before month `m` of a common year: the `gDays` table. */
  function DaysBeforeMonth(m: int): int
    requires 1 <= m <= 12
  {
    [0, 31, 59, 90, 120, 151, 181, 212, 243, 273, 304, 334][m - 1]
  }

  /** The length of month `m`: the `salA` table, February taking 29 days in a leap year. */
  function GregorianMonthLength(leap: bool, m: int): (n: int)
    requires 1 <= m <= 12
    ensures 28 <= n <= 31
  {
    if m == 2 then (if leap then 29 else 28)
    else if m == 4 || m == 6 || m == 9 || m == 11 then 30
    else 31
  }

  /** Days before month `m`, the leap day counted after February. */
  function DaysBefore(leap: bool, m: int): int
    requires 1 <= m <= 12
  {
    DaysBeforeMonth(m) + (if m > 2 && leap then 1 else 0)
  }

  /** The `gDays` table is the running sum of the `salA` table, ending in a 365- or 366-day year. */
  lemma MonthTablesAgree(leap: bool, m: int)
    requires 1 <= m <= 12
    ensures m < 12 ==> DaysBefore(leap, m + 1) == DaysBefore(leap, m) + GregorianMonthLength(leap, m)
    ensures m == 12 ==> DaysBefore(leap, m) + GregorianMonthLength(leap, m) == (if leap then 366 else 365)
  {
  }

  /** A date of the proleptic Gregorian calendar from year 1 on, as a non-lenient formatter checks it. */
  predicate ValidGregorian(d: Date) {
    && d.year >= 1
    && 1 <= d.month <= 12
    && 1 <= d.day <= GregorianMonthLength(IsGregorianLeap(d.year), d.month)
  }

  /** Days from 1 January 1600 to 1 January of `gy` (the first line of `gDayNo`). */
  function DaysBeforeYear(gy: int): int {
    var gy2 := gy - 1600;
    365 * gy2 + KDiv(gy2 + 3, 4) - KDiv(gy2 + 99, 100) + KDiv(gy2 + 399, 400)
  }

  /** `gDayNo` of `gregorianToJalali`: the day number of a Gregorian date, 1 January 1600 being 0. */
  function GregorianDayNumber(gy: int, gm: int, gd: int): int
    requires 1 <= gm <= 12
  {
    DaysBeforeYear(gy) + DaysBefore(IsGregorianLeap(gy), gm) + gd - 1
  }

  /** The year a day number falls in, the leap flag the code tracks, and the 0-based day of that year. */
  datatype YearDay = YearDay(year: int, leap: bool, dayOfYear: int)

  /**
    The 400- and 100-year steps of `jalaliToGregorian` (MainActivity.kt:700-710):
    the year they reach, the days left, and whether that year may still be leap.
   */
  function CenturyStep(n: int): (int, int, bool) {
    var gy := 1600 + 400 * KDiv(n, 146097);
    var g := KMod(n, 146097);
    if g >= 36525 then
      var g1 := g - 1;
      var g2 := KMod(g1, 36524);
      if g2 >= 365 then (gy + 100 * KDiv(g1, 36524), g2 + 1, true)
      else (gy + 100 * KDiv(g1, 36524), g2, false)
    else (gy, g, true)
  }

  /** The year part of `jalaliToGregorian` (MainActivity.kt:700-720): the century steps, then the 4- and 1-year steps. */
  function GregorianYearOf(n: int): YearDay {
    var t := CenturyStep(n);
    GroupYear(t.0, t.2, KDiv(t.1, 1461), KMod(t.1, 1461))
  }

  /**
    The month loop of `jalaliToGregorian`: from month `i` on, subtract month
    lengths until `day` fits; month 0 when it never does.
   */
  function MonthOf(day: int, i: int, leap: bool): (r: (int, int))
    requires 1 <= i <= 13
    decreases 13 - i
  {
    if i > 12 then (0, day)
    else if day <= GregorianMonthLength(leap, i) then (i, day)
    else MonthOf(day - GregorianMonthLength(leap, i), i + 1, leap)
  }

  /** The Gregorian date of a day number, 1 January 1600 being 0. */
  function GregorianFromDayNumber(n: int): Date {
    var yd := GregorianYearOf(n);
    var md := MonthOf(yd.dayOfYear + 1, 1, yd.leap);
    Date(yd.year, md.0, md.1)
  }

  // ---------------------------------------------------------------------------
  // Jalali calendar
  // ---------------------------------------------------------------------------

  /** Days before Jalali month `jm`: six months of 31 days, then months of 30. */
  function JalaliDaysBeforeMonth(jm: int): int {
    var jm2 := jm - 1;
    if jm2 < 6 then jm2 * 31 else jm2 * 30 + 6 * 31 - 6 * 30
  }

  /** `jDayNo` of `jalaliToGregorian`: the day number of a Jalali date, 1 Farvardin 979 being 0. */
  function JalaliDayNumber(jy: int, jm: int, jd: int): int {
    var jy2 := jy - 979;
    365 * jy2 + KDiv(jy2, 33) * 8 + KDiv(KMod(jy2, 33) + 3, 4) + JalaliDaysBeforeMonth(jm) + jd - 1
  }

  /** The year part of `gregorianToJalali` (MainActivity.kt:670-680): 33-year cycles, 4-year groups, single years. */
  function JalaliYearOf(n: int): (int, int) {
    var jy := 979 + 33 * KDiv(n, 12053);
    var r := KMod(n, 12053);
    var jy1 := jy + 4 * KDiv(r, 1461);
    var r1 := KMod(r, 1461);
    if r1 >= 366 then (jy1 + KDiv(r1 - 1, 365), KMod(r1 - 1, 365)) else (jy1, r1)
  }

  /** The month part of `gregorianToJalali` (MainActivity.kt:681-688): six months of 31 days, then months of 30. */
  function JalaliMonthOf(jy: int, doy: int): Date {
    if doy < 186 then Date(jy, 1 + KDiv(doy, 31), 1 + KMod(doy, 31))
    else Date(jy, 7 + KDiv(doy - 186, 30), 1 + KMod(doy - 186, 30))
  }

  /** The Jalali date of a day number, 1 Farvardin 979 being 0. */
  function JalaliFromDayNumber(n: int): Date {
    var t := JalaliYearOf(n);
    JalaliMonthOf(t.0, t.1)
  }

  /** `jalaliToGregorian(jy, jm, jd)`; 1 Farvardin 979 is day 79 of 1600. */
  function JalaliToGregorian(jy: int, jm: int, jd: int): Date {
    GregorianOfJalaliDay(JalaliDayNumber(jy, jm, jd))
  }

  /** The Gregorian date of Jalali day number `n`: 1 Farvardin 979 is day 79 of 1600. */
  function GregorianOfJalaliDay(n: int): Date {
    GregorianFromDayNumber(n + 79)
  }

  // ---------------------------------------------------------------------------
  // The Jalali conversion on Kotlin `Int`
  // ---------------------------------------------------------------------------

  /**
    `jDayNo` as the app computes it, every `+`, `-` and `*` wrapping at 32
    bits (MainActivity.kt:693-699). The month term `jm2 * 30 + 6 * 31 - 6 * 30`
    wraps after each of its three steps.
   */
  function KotlinJalaliDayNumber(jy: int, jm: int, jd: int): (n: int)
    ensures InRange(n)
  {
    Wrap(Wrap(KotlinYearDays(Wrap(jy - 979)) + KotlinMonthDays(Wrap(jm - 1))) + Wrap(jd - 1))
  }

  /** The days before Jalali year `979 + jy2`, on `Int`. */
  function KotlinYearDays(jy2: int): int {
    Wrap(Wrap(Wrap(365 * jy2) + Wrap(KDiv(jy2, 33) * 8)) + KDiv(Wrap(KMod(jy2, 33) + 3), 4))
  }

  /** The days before month `jm2 + 1`, on `Int`. */
  function KotlinMonthDays(jm2: int): int {
    if jm2 < 6 then Wrap(jm2 * 31) else Wrap(Wrap(Wrap(jm2 * 30) + 6 * 31) - 6 * 30)
  }

  /**
    `jalaliToGregorian(jy, jm, jd)` on `Int`: the day number wraps, and so
    does the 79-day shift. From there on every value stays far inside the
    `Int` range, so the year and month steps are those of `GregorianFromDayNumber`.
   */
  function KotlinJalaliToGregorian(jy: int, jm: int, jd: int): Date {
    GregorianFromDayNumber(Wrap(KotlinJalaliDayNumber(jy, jm, jd) + 79))
  }

  /** Inputs within a million of zero never overflow: the `Int` conversion is the exact one. */
  lemma KotlinJalaliToGregorianExact(jy: int, jm: int, jd: int)
    requires -1_000_000 <= jy <= 1_000_000 && -1_000_000 <= jm <= 1_000_000 && -1_000_000 <= jd <= 1_000_000
    ensures KotlinJalaliDayNumber(jy, jm, jd) == JalaliDayNumber(jy, jm, jd)
    ensures KotlinJalaliToGregorian(jy, jm, jd) == JalaliToGregorian(jy, jm, jd)
  {
    var n := JalaliDayNumber(jy, jm, jd);
    KotlinDayNumberExact(jy, jm, jd, n);
    ShiftExact(n);
  }

  lemma ShiftExact(n: int)
    requires -500_000_000 <= n <= 500_000_000
    ensures Wrap(n + 79) == n + 79
  {
  }

  lemma KotlinDayNumberExact(jy: int, jm: int, jd: int, n: int)
    requires -1_000_000 <= jy <= 1_000_000 && -1_000_000 <= jm <= 1_000_000 && -1_000_000 <= jd <= 1_000_000
    requires n == JalaliDayNumber(jy, jm, jd)
    ensures KotlinJalaliDayNumber(jy, jm, jd) == n
    ensures -500_000_000 <= n <= 500_000_000
  {
    var jy2 := jy - 979;
    var years := 365 * jy2 + KDiv(jy2, 33) * 8 + KDiv(KMod(jy2, 33) + 3, 4);
    var months := JalaliDaysBeforeMonth(jm);
    KotlinYearsExact(jy2, years);
    KotlinMonthsExact(jm - 1, months);
    assert n == years + months + (jd - 1);
    assert Wrap(years + months) == years + months;
  }

  lemma KotlinYearsExact(jy2: int, years: int)
    requires -1_001_000 <= jy2 <= 1_001_000
    requires years == 365 * jy2 + KDiv(jy2, 33) * 8 + KDiv(KMod(jy2, 33) + 3, 4)
    ensures KotlinYearDays(Wrap(jy2)) == years
    ensures -400_000_000 <= years <= 400_000_000
  {
    var q := KDiv(jy2, 33);
    var m := KMod(jy2, 33);
    assert -1_001_000 <= q <= 1_001_000 && -33 < m < 33;
    assert -400_000_000 <= 365 * jy2 <= 400_000_000;
  }

  lemma KotlinMonthsExact(jm2: int, months: int)
    requires -1_000_001 <= jm2 <= 1_000_000
    requires months == (if jm2 < 6 then jm2 * 31 else jm2 * 30 + 6 * 31 - 6 * 30)
    ensures KotlinMonthDays(Wrap(jm2)) == months
    ensures -40_000_000 <= months <= 40_000_000
  {
    assert -40_000_000 <= jm2 * 31 <= 40_000_000;
    assert -40_000_000 <= jm2 * 30 <= 40_000_000;
  }

  /**
    A month field of 143165578 wraps: `jm2 * 30` is 4294967310, which the
    `Int` reduces to 14, so Jalali 1400/143165578/1 has the day number of 1400/1/21.
   */
  lemma KotlinMonthWraps(jy: int, jm: int, jd: int)
    requires jy == 1400 && jm == 143165578 && jd == 1
    ensures KotlinJalaliDayNumber(jy, jm, jd) == JalaliDayNumber(1400, 1, 21) == 153788
    ensures JalaliDayNumber(jy, jm, jd) == 4295121084
    ensures KotlinJalaliToGregorian(jy, jm, jd) == JalaliToGregorian(1400, 1, 21)
  {
    KotlinYearsExact(421, 153768);
    MonthFieldWraps(143165577);
    assert KotlinJalaliDayNumber(jy, jm, jd) == Wrap(Wrap(153768 + 20) + 0);
    KotlinJalaliToGregorianExact(1400, 1, 21);
  }

  lemma MonthFieldWraps(jm2: int)
    requires jm2 == 143165577
    ensures KotlinMonthDays(Wrap(jm2)) == 20
  {
    assert Wrap(jm2 * 30) == 14 by {
      assert jm2 * 30 == 14 + Modulus;
    }
  }

  /** `gregorianToJalali(gy, gm, gd)`; the month indexes `gDays`, so it must be 1..12. */
  function GregorianToJalali(gy: int, gm: int, gd: int): Date
    requires 1 <= gm <= 12
  {
    JalaliFromDayNumber(GregorianDayNumber(gy, gm, gd) - 79)
  }

  /** `isJalaliLeap(jy)`: the 2820-year arithmetic rule. */
  predicate IsJalaliLeap(jy: int) {
    var m := KMod(jy - 474, 2820) + 474;
    KMod((m + 38) * 682, 2816) < 682
  }

  /** `daysInJalaliMonth(jy, jm)`, which the date picker uses as the day limit. */
  function DaysInJalaliMonth(jy: int, jm: int): (n: int)
    ensures 29 <= n <= 31
    ensures n == 30 <==> (7 <= jm <= 11 || (jm >= 12 && IsJalaliLeap(jy)))
  {
    if jm <= 6 then 31
    else if jm <= 11 then 30
    else if IsJalaliLeap(jy) then 30 else 29
  }

  /**
    The leap rule the two converters share: in each 33-year cycle counted
    from 979, the years at offsets 0, 4, ..., 28 are leap.
   */
  predicate IsCycleLeap(jy: int) {
    var r := (jy - 979) % 33;
    r % 4 == 0 && r < 32
  }

  /** The month length that agrees with the converters. */
  function CycleDaysInJalaliMonth(jy: int, jm: int): (n: int)
    ensures 29 <= n <= 31
    ensures n == 30 <==> (7 <= jm <= 11 || (jm >= 12 && IsCycleLeap(jy)))
  {
    if jm <= 6 then 31
    else if jm <= 11 then 30
    else if IsCycleLeap(jy) then 30 else 29
  }

  /** A Jalali date the converters handle: from year 979 on, with the cycle's month lengths. */
  predicate ValidJalali(d: Date) {
    && d.year >= 979
    && 1 <= d.month <= 12
    && 1 <= d.day <= CycleDaysInJalaliMonth(d.year, d.month)
  }

  // ---------------------------------------------------------------------------
  // Jalali round trip
  // ---------------------------------------------------------------------------

  /** The 0-based day of the Jalali year that a valid date falls on. */
  function JalaliDayOfYear(d: Date): (doy: int)
    requires ValidJalali(d)
    ensures 0 <= doy < (if IsCycleLeap(d.year) then 366 else 365)
  {
    JalaliDaysBeforeMonth(d.month) + d.day - 1
  }

  /** The month-and-day split of `gregorianToJalali` inverts `JalaliDaysBeforeMonth`. */
  lemma {:induction false} JalaliMonthSplit(d: Date)
    requires ValidJalali(d)
    ensures JalaliMonthOf(d.year, JalaliDayOfYear(d)) == d
  {
    var doy := JalaliDayOfYear(d);
    if d.month <= 6 {
      assert doy == 31 * (d.month - 1) + (d.day - 1);
    } else {
      assert doy - 186 == 30 * (d.month - 7) + (d.day - 1);
    }
  }

  /** Within a 33-year cycle, year `r` starts `365 r + (r + 3) / 4` days in, and the 4-year and 1-year steps find it again. */
  lemma CyclePosition(r: int, doy: int, leap: bool, rem: int, q: int, r1: int)
    requires 0 <= r < 33 && leap == (r % 4 == 0 && r < 32)
    requires 0 <= doy < (if leap then 366 else 365)
    requires rem == 365 * r + KDiv(r + 3, 4) + doy
    requires q == KDiv(rem, 1461) && r1 == KMod(rem, 1461)
    ensures 0 <= rem < 12053
    ensures 4 * q + (if r1 >= 366 then KDiv(r1 - 1, 365) else 0) == r
    ensures (if r1 >= 366 then KMod(r1 - 1, 365) else r1) == doy
  {
    var a, b := KDiv(r, 4), KMod(r, 4);
    TruncationMatchesOnNonNegative(r, 4);
    if b == 0 {
      KDivOf(r + 3, 4, a, 3);
      KDivOf(rem, 1461, a, doy);
    } else {
      KDivOf(r + 3, 4, a + 1, b - 1);
      KDivOf(rem, 1461, a, 365 * b + 1 + doy);
      KDivOf(r1 - 1, 365, b, doy);
    }
  }

  /** The year part of the decoder finds the year and the day of the year back. */
  lemma JalaliYearRoundTrip(d: Date)
    requires ValidJalali(d)
    ensures JalaliYearOf(JalaliDayNumber(d.year, d.month, d.day)) == (d.year, JalaliDayOfYear(d))
  {
    var jy2 := d.year - 979;
    var c, r := KDiv(jy2, 33), KMod(jy2, 33);
    TruncationMatchesOnNonNegative(jy2, 33);
    var doy := JalaliDayOfYear(d);
    var n := JalaliDayNumber(d.year, d.month, d.day);
    JalaliDayNumberSplit(d, c, r, n);
    CycleYearOf(n, c, r, doy, IsCycleLeap(d.year));
    assert 979 + 33 * c + r == d.year;
  }

  /** Decoding a day that lies `doy` days into year `r` of 33-year cycle `c`. */
  lemma CycleYearOf(n: int, c: int, r: int, doy: int, leap: bool)
    requires 0 <= r < 33 && leap == (r % 4 == 0 && r < 32)
    requires 0 <= doy < (if leap then 366 else 365)
    requires c >= 0 && n == 12053 * c + 365 * r + KDiv(r + 3, 4) + doy
    ensures JalaliYearOf(n) == (979 + 33 * c + r, doy)
  {
    var rem := 365 * r + KDiv(r + 3, 4) + doy;
    var q, r1 := KDiv(rem, 1461), KMod(rem, 1461);
    CyclePosition(r, doy, leap, rem, q, r1);
    KDivOf(n, 12053, c, rem);
    JalaliYearOfParts(n, c, rem, q, r1);
  }

  lemma JalaliDayNumberSplit(d: Date, c: int, r: int, n: int)
    requires ValidJalali(d) && c == KDiv(d.year - 979, 33) && r == KMod(d.year - 979, 33)
    requires n == JalaliDayNumber(d.year, d.month, d.day)
    ensures n == 12053 * c + 365 * r + KDiv(r + 3, 4) + JalaliDayOfYear(d)
  {
  }

  /** `JalaliYearOf` once the 33-year step has found cycle `c` with `rem` days left. */
  lemma JalaliYearOfParts(n: int, c: int, rem: int, q: int, r1: int)
    requires c == KDiv(n, 12053) && rem == KMod(n, 12053) && rem >= 0
    requires q == KDiv(rem, 1461) && r1 == KMod(rem, 1461)
    ensures JalaliYearOf(n) == (979 + 33 * c + 4 * q + (if r1 >= 366 then KDiv(r1 - 1, 365) else 0),
                                if r1 >= 366 then KMod(r1 - 1, 365) else r1)
  {
  }

  /** `gregorianToJalali`'s decoding inverts `jalaliToGregorian`'s day count on every valid Jalali date. */
  lemma {:induction false} JalaliRoundTrip(d: Date)
    requires ValidJalali(d)
    ensures JalaliFromDayNumber(JalaliDayNumber(d.year, d.month, d.day)) == d
  {
    JalaliYearRoundTrip(d);
    JalaliMonthSplit(d);
  }

  /** The converters' day count gives each year 366 days exactly when the cycle rule calls it leap. */
  lemma JalaliYearLength(jy: int)
    requires jy >= 979
    ensures JalaliDayNumber(jy + 1, 1, 1) - JalaliDayNumber(jy, 1, 1) == (if IsCycleLeap(jy) then 366 else 365)
  {
    var jy2 := jy - 979;
    var r := KMod(jy2, 33);
    TruncationMatchesOnNonNegative(jy2, 33);
    TruncationMatchesOnNonNegative(r, 4);
    assert IsCycleLeap(jy) <==> KMod(r, 4) == 0 && r < 32;
    CycleYearLength(jy, KDiv(jy2, 33), r);
  }

  /** The length of year `jy`, which sits at offset `r` of cycle `c`. */
  lemma CycleYearLength(jy: int, c: int, r: int)
    requires jy >= 979 && c == KDiv(jy - 979, 33) && r == KMod(jy - 979, 33)
    ensures JalaliDayNumber(jy + 1, 1, 1) - JalaliDayNumber(jy, 1, 1) == (if KMod(r, 4) == 0 && r < 32 then 366 else 365)
  {
    var jy2 := jy - 979;
    var a := JalaliDayNumber(jy, 1, 1);
    var b := JalaliDayNumber(jy + 1, 1, 1);
    assert a == 365 * jy2 + c * 8 + KDiv(r + 3, 4);
    assert b == 365 * jy2 + 365 + KDiv(jy2 + 1, 33) * 8 + KDiv(KMod(jy2 + 1, 33) + 3, 4);
    if r < 32 {
      KDivOf(jy2 + 1, 33, c, r + 1);
      KDivOf(0, 4, 0, 0);
      StepOf(r, 4, 0);
      assert b - a == 365 + KDiv(r + 4, 4) - KDiv(r + 3, 4);
    } else {
      KDivOf(jy2 + 1, 33, c + 1, 0);
      KDivOf(r + 3, 4, 8, 3);
      KDivOf(3, 4, 0, 3);
      assert b - a == 365;
    }
  }

  // ---------------------------------------------------------------------------
  // Gregorian round trip
  // ---------------------------------------------------------------------------

  /** Days before year `1600 + 400 k + 100 c + y`, counted cycle by cycle. */
  lemma DaysBeforeYearShape(k: int, c: int, y: int)
    requires k >= 0 && 0 <= c <= 3 && 0 <= y < 100
    ensures DaysBeforeYear(1600 + 400 * k + 100 * c + y) ==
      146097 * k + 365 * y + KDiv(y + 3, 4) +
      (if c == 0 then 0 else 36524 * c + 1 - (if y > 0 then 1 else 0))
  {
    var gy2 := 400 * k + 100 * c + y;
    var q4, r4 := KDiv(y + 3, 4), KMod(y + 3, 4);
    var a := 100 * k + 25 * c + q4;
    KDivOf(gy2 + 3, 4, a, r4);
    var b := if y > 0 then 4 * k + c + 1 else 4 * k + c;
    if y > 0 {
      KDivOf(gy2 + 99, 100, b, y - 1);
    } else {
      KDivOf(gy2 + 99, 100, b, 99);
    }
    var e := if c > 0 || y > 0 then k + 1 else k;
    if c > 0 || y > 0 {
      KDivOf(gy2 + 399, 400, e, 100 * c + y - 1);
    } else {
      KDivOf(gy2 + 399, 400, e, 399);
    }
    DaysBeforeYearParts(1600 + 400 * k + 100 * c + y, gy2, a, b, e);
  }

  /** `DaysBeforeYear` once its three leap-day counts are known. */
  lemma DaysBeforeYearParts(gy: int, gy2: int, a: int, b: int, e: int)
    requires gy2 == gy - 1600
    requires a == KDiv(gy2 + 3, 4) && b == KDiv(gy2 + 99, 100) && e == KDiv(gy2 + 399, 400)
    ensures DaysBeforeYear(gy) == 365 * gy2 + a - b + e
  {
  }

  /** Which years of a 400-year cycle are leap. */
  lemma LeapShape(k: int, c: int, q: int, b: int)
    requires k >= 0 && 0 <= c <= 3 && 0 <= q < 25 && 0 <= b < 4
    ensures IsGregorianLeap(1600 + 400 * k + 100 * c + 4 * q + b) <==> b == 0 && (q > 0 || c == 0)
  {
    var y := 1600 + 400 * k + 100 * c + 4 * q + b;
    KDivOf(y, 4, 400 + 100 * k + 25 * c + q, b);
    KDivOf(y, 100, 16 + 4 * k + c, 4 * q + b);
    KDivOf(y, 400, 4 + k, 100 * c + 4 * q + b);
  }

  /** `yd` is the year day number `n` falls in, with the right leap flag and day of the year. */
  predicate LocatesDay(yd: YearDay, n: int) {
    && yd.year >= 1600
    && yd.leap == IsGregorianLeap(yd.year)
    && 0 <= yd.dayOfYear < (if yd.leap then 366 else 365)
    && DaysBeforeYear(yd.year) + yd.dayOfYear == n
  }

  /** The year steps of `jalaliToGregorian` find the year a day number falls in, its length and the day within it. */
  lemma GregorianYearOfSpec(n: int)
    requires n >= 0
    ensures LocatesDay(GregorianYearOf(n), n)
  {
    var k, g := KDiv(n, 146097), KMod(n, 146097);
    if g < 36525 {
      YearOfFirstCentury(n, k, g);
    } else {
      YearOfLaterCentury(n, k, g);
    }
  }

  lemma YearOfFirstCentury(n: int, k: int, g: int)
    requires n >= 0 && k == KDiv(n, 146097) && g == KMod(n, 146097) && g < 36525
    ensures LocatesDay(GregorianYearOf(n), n)
  {
    var q, s := KDiv(g, 1461), KMod(g, 1461);
    YearInFirstCentury(n, k, q, s);
    YearOfInFirstGroup(n, k, g, q, s);
  }

  lemma YearOfLaterCentury(n: int, k: int, g: int)
    requires n >= 0 && k == KDiv(n, 146097) && g == KMod(n, 146097) && g >= 36525
    ensures LocatesDay(GregorianYearOf(n), n)
  {
    var c, g2 := KDiv(g - 1, 36524), KMod(g - 1, 36524);
    if g2 < 365 {
      YearOfCenturyStart(n, k, g, c, g2);
    } else {
      YearOfCenturyRest(n, k, g, c, g2);
    }
  }

  /** A day in the first, common, year of a later century. */
  lemma YearOfCenturyStart(n: int, k: int, g: int, c: int, g2: int)
    requires n >= 0 && k == KDiv(n, 146097) && g == KMod(n, 146097) && g >= 36525
    requires c == KDiv(g - 1, 36524) && g2 == KMod(g - 1, 36524) && g2 < 365
    ensures LocatesDay(GregorianYearOf(n), n)
  {
    KDivOf(g2, 1461, 0, g2);
    CenturyYear(n, k, c, g2);
    YearOfInCenturyStart(n, k, g, c, g2, 0, g2);
  }

  /** A day past the first year of a later century. */
  lemma YearOfCenturyRest(n: int, k: int, g: int, c: int, g2: int)
    requires n >= 0 && k == KDiv(n, 146097) && g == KMod(n, 146097) && g >= 36525
    requires c == KDiv(g - 1, 36524) && g2 == KMod(g - 1, 36524) && g2 >= 365
    ensures LocatesDay(GregorianYearOf(n), n)
  {
    var q, s := KDiv(g2 + 1, 1461), KMod(g2 + 1, 1461);
    YearInLaterCentury(n, k, c, q, s);
    YearOfInCenturyRest(n, k, g, c, g2, q, s);
  }

  /** The 4-year and 1-year steps from year `y` with day offset `s` in 4-year group `q`. */
  function GroupYear(y: int, leap: bool, q: int, s: int): YearDay {
    if s >= 366 then YearDay(y + 4 * q + KDiv(s - 1, 365), false, KMod(s - 1, 365))
    else YearDay(y + 4 * q, leap, s)
  }

  lemma YearInFirstCentury(n: int, k: int, q: int, s: int)
    requires n >= 0 && k >= 0 && 0 <= q < 25 && 0 <= s < 1461
    requires n == 146097 * k + 1461 * q + s
    ensures LocatesDay(GroupYear(1600 + 400 * k, true, q, s), n)
  {
    if s >= 366 {
      LaterYearOfGroup(n, k, 0, q, s);
    } else {
      FirstYearOfGroup(n, k, 0, q, s);
    }
  }

  lemma YearInLaterCentury(n: int, k: int, c: int, q: int, s: int)
    requires n >= 0 && k >= 0 && 1 <= c <= 3 && 0 <= q < 25 && 0 <= s < 1461 && (q >= 1 || s >= 366)
    requires n == 146097 * k + 36524 * c + 1461 * q + s
    ensures LocatesDay(GroupYear(1600 + 400 * k + 100 * c, true, q, s), n)
  {
    if s >= 366 {
      LaterYearOfGroup(n, k, c, q, s);
    } else {
      FirstYearOfGroup(n, k, c, q, s);
    }
  }

  /** `GregorianYearOf` in the first century of a 400-year cycle: the 4-year and 1-year steps from its first year. */
  lemma YearOfInFirstGroup(n: int, k: int, g: int, q: int, s: int)
    requires k == KDiv(n, 146097) && g == KMod(n, 146097) && 0 <= g < 36525
    requires q == KDiv(g, 1461) && s == KMod(g, 1461)
    ensures GregorianYearOf(n) == GroupYear(1600 + 400 * k, true, q, s)
  {
    assert CenturyStep(n) == (1600 + 400 * k, g, true);
  }

  /** `GregorianYearOf` in the first, common, year of a later century `c`, `g2` days after its first day. */
  lemma YearOfInCenturyStart(n: int, k: int, g: int, c: int, g2: int, q: int, s: int)
    requires k == KDiv(n, 146097) && g == KMod(n, 146097) && g >= 36525
    requires c == KDiv(g - 1, 36524) && g2 == KMod(g - 1, 36524) && 0 <= g2 < 365
    requires q == KDiv(g2, 1461) && s == KMod(g2, 1461)
    ensures GregorianYearOf(n) == GroupYear(1600 + 400 * k + 100 * c, false, q, s)
  {
    assert CenturyStep(n) == (1600 + 400 * k + 100 * c, g2, false);
  }

  /**
    `GregorianYearOf` past the first year of a later century `c`: the
    4-year and 1-year steps count from its first year as if it were leap.
   */
  lemma YearOfInCenturyRest(n: int, k: int, g: int, c: int, g2: int, q: int, s: int)
    requires k == KDiv(n, 146097) && g == KMod(n, 146097) && g >= 36525
    requires c == KDiv(g - 1, 36524) && g2 == KMod(g - 1, 36524) && g2 >= 365
    requires q == KDiv(g2 + 1, 1461) && s == KMod(g2 + 1, 1461)
    ensures GregorianYearOf(n) == GroupYear(1600 + 400 * k + 100 * c, true, q, s)
  {
    assert CenturyStep(n) == (1600 + 400 * k + 100 * c, g2 + 1, true);
  }

  /** The first year of a century after the first in a 400-year cycle: common. */
  lemma CenturyYear(n: int, k: int, c: int, d: int)
    requires k >= 0 && 1 <= c <= 3 && 0 <= d < 365
    requires n == 146097 * k + 36524 * c + 1 + d
    ensures LocatesDay(YearDay(1600 + 400 * k + 100 * c, false, d), n)
  {
    DaysBeforeYearShape(k, c, 0);
    KDivOf(3, 4, 0, 3);
    LeapShape(k, c, 0, 0);
  }

  /**
    The first year of a 4-year group `q` (the day offset `s` within it
    being below 366): leap, except for the group that opens a later century.
   */
  lemma FirstYearOfGroup(n: int, k: int, c: int, q: int, s: int)
    requires k >= 0 && 0 <= c <= 3 && 0 <= q < 25 && 0 <= s < 366
    requires c > 0 ==> q >= 1
    requires n == 146097 * k + 36524 * c + 1461 * q + s
    ensures LocatesDay(YearDay(1600 + 400 * k + 100 * c + 4 * q, true, s), n)
  {
    DaysBeforeYearShape(k, c, 4 * q);
    KDivOf(4 * q + 3, 4, q, 3);
    LeapShape(k, c, q, 0);
  }

  /** A later year `b` of a 4-year group: common. */
  lemma LaterYearOfGroup(n: int, k: int, c: int, q: int, s: int)
    requires k >= 0 && 0 <= c <= 3 && 0 <= q < 25 && 366 <= s < 1461
    requires n == 146097 * k + 36524 * c + 1461 * q + s
    ensures var b := KDiv(s - 1, 365);
      LocatesDay(YearDay(1600 + 400 * k + 100 * c + 4 * q + b, false, KMod(s - 1, 365)), n)
  {
    var b := KDiv(s - 1, 365);
    assert 1 <= b <= 3;
    DaysBeforeYearShape(k, c, 4 * q + b);
    KDivOf(4 * q + b + 3, 4, q + 1, b - 1);
    LeapShape(k, c, q, b);
  }

  /** The month loop finds the month and day of a day of the year, counting from month `i`. */
  lemma {:induction false} MonthOfSpec(day: int, i: int, leap: bool)
    requires 1 <= i <= 12 && 1 <= day
    requires DaysBefore(leap, i) + day <= (if leap then 366 else 365)
    ensures var r := MonthOf(day, i, leap);
      && i <= r.0 <= 12
      && 1 <= r.1 <= GregorianMonthLength(leap, r.0)
      && DaysBefore(leap, r.0) + r.1 == DaysBefore(leap, i) + day
    decreases 13 - i
  {
    MonthTablesAgree(leap, i);
    if day > GregorianMonthLength(leap, i) {
      MonthOfSpec(day - GregorianMonthLength(leap, i), i + 1, leap);
    }
  }

  /** Every non-negative day number decodes to a valid Gregorian date whose day number it is. */
  lemma {:induction false} GregorianFromDayNumberSpec(n: int)
    requires n >= 0
    ensures ValidGregorian(GregorianFromDayNumber(n))
    ensures var g := GregorianFromDayNumber(n); GregorianDayNumber(g.year, g.month, g.day) == n
  {
    var yd := GregorianYearOf(n);
    GregorianYearOfSpec(n);
    MonthOfSpec(yd.dayOfYear + 1, 1, yd.leap);
  }

  /** A day number `n` lands no more than `n` years after 1600. */
  lemma GregorianYearBound(n: int)
    requires n >= 0
    ensures 1600 <= GregorianFromDayNumber(n).year <= 1600 + n
  {
    var yd := GregorianYearOf(n);
    GregorianYearOfSpec(n);
    DaysBeforeYearGrows(yd.year);
  }

  lemma DaysBeforeYearGrows(y: int)
    requires y >= 1600
    ensures DaysBeforeYear(y) >= y - 1600
  {
    var gy2 := y - 1600;
    var b := KDiv(gy2 + 99, 100);
    assert 100 * b <= gy2 + 99;
    assert 365 * gy2 - b >= gy2;
  }

  /**
    From 1 Farvardin 979 on, `jalaliToGregorian` yields a date the
    non-lenient formatter accepts, and `gregorianToJalali` takes it back.
   */
  lemma {:induction false} JalaliGregorianRoundTrip(d: Date)
    requires ValidJalali(d)
    ensures ValidGregorian(JalaliToGregorian(d.year, d.month, d.day))
    ensures var g := JalaliToGregorian(d.year, d.month, d.day); GregorianToJalali(g.year, g.month, g.day) == d
  {
    JalaliToGregorianValid(d);
    JalaliToGregorianReturns(d);
  }

  /** The conversion decodes the Jalali day number shifted by the 79-day offset. */
  lemma {:induction false} JalaliToGregorianValid(d: Date)
    requires ValidJalali(d)
    ensures var g := JalaliToGregorian(d.year, d.month, d.day);
      && ValidGregorian(g)
      && GregorianDayNumber(g.year, g.month, g.day) == JalaliDayNumber(d.year, d.month, d.day) + 79
  {
    var n := JalaliDayNumber(d.year, d.month, d.day) + 79;
    JalaliDayNumberNonNegative(d);
    ShiftedDecodes(d.year, d.month, d.day, n);
  }

  lemma {:induction false} ShiftedDecodes(jy: int, jm: int, jd: int, n: int)
    requires n >= 0 && n == JalaliDayNumber(jy, jm, jd) + 79
    ensures var g := JalaliToGregorian(jy, jm, jd);
      ValidGregorian(g) && GregorianDayNumber(g.year, g.month, g.day) == n
  {
    GregorianDecodes(n, GregorianFromDayNumber(n));
  }

  lemma {:induction false} GregorianDecodes(n: int, g: Date)
    requires n >= 0 && g == GregorianFromDayNumber(n)
    ensures ValidGregorian(g) && GregorianDayNumber(g.year, g.month, g.day) == n
  {
    GregorianFromDayNumberSpec(n);
  }

  lemma {:induction false} JalaliToGregorianReturns(d: Date)
    requires ValidJalali(d)
    ensures var g := JalaliToGregorian(d.year, d.month, d.day);
      ValidGregorian(g) && GregorianToJalali(g.year, g.month, g.day) == d
  {
    JalaliToGregorianValid(d);
    JalaliRoundTrip(d);
  }

  lemma JalaliDayNumberNonNegative(d: Date)
    requires ValidJalali(d)
    ensures JalaliDayNumber(d.year, d.month, d.day) >= 0
  {
  }

  // ---------------------------------------------------------------------------
  // Day numbers order dates
  // ---------------------------------------------------------------------------

  /** Calendar order of two dates: earlier year, then earlier month, then earlier day. */
  predicate Precedes(a: Date, b: Date) {
    || a.year < b.year
    || (a.year == b.year && a.month < b.month)
    || (a.year == b.year && a.month == b.month && a.day < b.day)
  }

  /** From 1600 on, a year is 365 days long, or 366 when `isGregorianLeap` holds. */
  lemma YearLength(y: int)
    requires y >= 1600
    ensures DaysBeforeYear(y + 1) == DaysBeforeYear(y) + if IsGregorianLeap(y) then 366 else 365
  {
    var x := y - 1600;
    assert DaysBeforeYear(y) == 365 * x + KDiv(x + 3, 4) - KDiv(x + 99, 100) + KDiv(x + 399, 400);
    assert DaysBeforeYear(y + 1) == 365 * x + 365 + KDiv(x + 4, 4) - KDiv(x + 100, 100) + KDiv(x + 400, 400);
    KDivOf(1600, 4, 400, 0);
    KDivOf(1600, 100, 16, 0);
    KDivOf(1600, 400, 4, 0);
    StepOf(x, 4, 1600);
    StepOf(x, 100, 1600);
    StepOf(x, 400, 1600);
    assert x + 1600 == y;
    Divisibility(y);
  }

  /** A multiple of 400 is a multiple of 100, and a multiple of 100 a multiple of 4. */
  lemma Divisibility(y: int)
    requires y >= 0
    ensures KMod(y, 400) == 0 ==> KMod(y, 100) == 0
    ensures KMod(y, 100) == 0 ==> KMod(y, 4) == 0
  {
    if KMod(y, 400) == 0 {
      KDivOf(y, 100, 4 * KDiv(y, 400), 0);
    }
    if KMod(y, 100) == 0 {
      KDivOf(y, 4, 25 * KDiv(y, 100), 0);
    }
  }

  /** Moving `x` up by one raises `(x + d - 1) / d` exactly when `x + base` is a multiple of `d`. */
  lemma StepOf(x: int, d: int, base: int)
    requires x >= 0 && d > 0 && base >= 0 && KMod(base, d) == 0
    ensures KDiv(x + d, d) - KDiv(x + d - 1, d) == if KMod(x + base, d) == 0 then 1 else 0
  {
    var q, r := KDiv(x, d), KMod(x, d);
    var qb := KDiv(base, d);
    assert d * (q + 1) == d * q + d;
    assert d * (q + qb) == d * q + d * qb;
    KDivOf(x + d, d, q + 1, r);
    if r >= 1 {
      KDivOf(x + d - 1, d, q + 1, r - 1);
    } else {
      KDivOf(x + d - 1, d, q, d - 1);
    }
    KDivOf(x + base, d, q + qb, r);
  }

  /** A later year starts at least a year later. */
  lemma {:induction false} LaterYearStartsLater(a: int, b: int)
    requires 1600 <= a < b
    ensures DaysBeforeYear(a) + 365 <= DaysBeforeYear(b)
    decreases b - a
  {
    YearLength(a);
    if a + 1 < b {
      LaterYearStartsLater(a + 1, b);
    }
  }

  /** The day number of a valid date lies within its year. */
  lemma DayNumberInYear(d: Date)
    requires ValidGregorian(d) && d.year >= 1600
    ensures DaysBeforeYear(d.year) <= GregorianDayNumber(d.year, d.month, d.day) < DaysBeforeYear(d.year + 1)
  {
    YearLength(d.year);
    MonthEndsInYear(IsGregorianLeap(d.year), d.month);
  }

  lemma MonthEndsInYear(leap: bool, m: int)
    requires 1 <= m <= 12
    ensures DaysBefore(leap, m) + GregorianMonthLength(leap, m) <= if leap then 366 else 365
  {
  }

  lemma EarlierMonthEndsFirst(leap: bool, m: int, m': int)
    requires 1 <= m < m' <= 12
    ensures DaysBefore(leap, m) + GregorianMonthLength(leap, m) <= DaysBefore(leap, m')
  {
  }

  /**
    For valid dates from 1600 on, calendar order is day-number order: the
    order of the instants `java.util.Date` compares.
   */
  lemma {:induction false} PrecedesIsDayOrder(a: Date, b: Date)
    requires ValidGregorian(a) && ValidGregorian(b) && a.year >= 1600 && b.year >= 1600
    ensures Precedes(a, b) <==> GregorianDayNumber(a.year, a.month, a.day) < GregorianDayNumber(b.year, b.month, b.day)
  {
    if Precedes(a, b) {
      PrecedesRaisesDayNumber(a, b);
    } else if a != b {
      PrecedesRaisesDayNumber(b, a);
    }
  }

  lemma PrecedesRaisesDayNumber(a: Date, b: Date)
    requires ValidGregorian(a) && ValidGregorian(b) && a.year >= 1600 && b.year >= 1600
    requires Precedes(a, b)
    ensures GregorianDayNumber(a.year, a.month, a.day) < GregorianDayNumber(b.year, b.month, b.day)
  {
    if a.year < b.year {
      DayNumberInYear(a);
      DayNumberInYear(b);
      if a.year + 1 < b.year {
        LaterYearStartsLater(a.year + 1, b.year);
      }
    } else if a.month < b.month {
      EarlierMonthEndsFirst(IsGregorianLeap(a.year), a.month, b.month);
    }
  }
}

=== FILE: dates.dfy ===
/**
  `parseDate`, which reads the filter's date bounds and every record's
  registration date, and the Persian date picker that fills the two bound
  fields (MainActivity.kt).
 */
module Dates {
  import opened Wrappers
  import opened Text
  import opened Calendar
  import Int32

  /** A year above this is read as Gregorian; any other year as Jalali. */
  const GregorianThreshold: int := 1900

  /**
    The last year `java.util.GregorianCalendar` accepts as a `YEAR` field;
    the non-lenient formatter refuses a triple beyond it.
   */
  const MaxFormatterYear: int := 292278994

  /** The Gregorian triples a non-lenient `SimpleDateFormat("yyyy-MM-dd")` turns into a date. */
  predicate FormatterAccepts(g: Date) {
    ValidGregorian(g) && g.year <= MaxFormatterYear
  }

  /** The two field separators of `split("-", "/")`. */
  predicate IsDateSeparator(c: char) {
    c == '-' || c == '/'
  }

  /** The (year, month, day) integers `parseDate` reads, before any calendar conversion. */
  function DateFields(value: string): (r: Option<Date>)
    ensures r.Some? ==> Int32.InRange(r.value.year) && Int32.InRange(r.value.month) && Int32.InRange(r.value.day)
  {
    var text := Trim(value, IsKotlinWhitespace);
    if AllIn(text, IsKotlinWhitespace) then None else FieldsOf(Split(text, IsDateSeparator))
  }

  /** The first three pieces as integers; `None` when there are fewer or one is not an `Int`. */
  function FieldsOf(parts: seq<string>): (r: Option<Date>)
    ensures r.Some? ==> Int32.InRange(r.value.year) && Int32.InRange(r.value.month) && Int32.InRange(r.value.day)
  {
    if |parts| < 3 then None
    else
      match (ParseInt(parts[0]), ParseInt(parts[1]), ParseInt(parts[2]))
      case (Some(y), Some(m), Some(d)) => Some(Date(y, m, d))
      case _ => None
  }

  /** The triple handed to the formatter: as read, or converted from Jalali with `Int` arithmetic. */
  function AsGregorian(f: Date): Date {
    if f.year > GregorianThreshold then f else KotlinJalaliToGregorian(f.year, f.month, f.day)
  }

  /**
    `parseDate(value)`: `None` when the text is blank, has fewer than three
    fields, one of the first three fields is not an `Int`, or the
    non-lenient formatter refuses the Gregorian triple.
   */
  function ParseDate(value: string): (r: Option<Date>)
    ensures r.Some? ==> ValidGregorian(r.value) && r.value.year <= MaxFormatterYear
    ensures r.Some? ==> DateFields(value).Some?
  {
    match DateFields(value)
    case None => None
    case Some(f) =>
      var g := AsGregorian(f);
      if FormatterAccepts(g) then Some(g) else None
  }

  /** Blank text, and text with fewer than two separators, give no date. */
  lemma ParseDateRejects(value: string)
    ensures AllIn(value, IsKotlinWhitespace) ==> ParseDate(value) == None
    ensures Count(value, IsDateSeparator) < 2 ==> ParseDate(value) == None
  {
    var text := Trim(value, IsKotlinWhitespace);
    var i := TrimSliceAt(value, IsKotlinWhitespace, text);
    CountSlice(value, IsDateSeparator, i, i + |text|);
  }

  /**
    The fields of a text without whitespace are the pieces before the
    first, between the first and the second, and after the second
    separator; anything after a third separator is ignored.
   */
  lemma ParseDateFields(value: string, y: string, m: string, d: string, tail: string, s1: char, s2: char)
    requires NoneIn(value, IsKotlinWhitespace)
    requires IsDateSeparator(s1) && IsDateSeparator(s2)
    requires NoneIn(y, IsDateSeparator) && NoneIn(m, IsDateSeparator) && NoneIn(d, IsDateSeparator)
    requires tail == [] || IsDateSeparator(tail[0])
    requires value == y + [s1] + m + [s2] + d + tail
    ensures DateFields(value) ==
      if ParseInt(y).Some? && ParseInt(m).Some? && ParseInt(d).Some?
      then Some(Date(ParseInt(y).value, ParseInt(m).value, ParseInt(d).value))
      else None
  {
    var text := Trim(value, IsKotlinWhitespace);
    assert text == value;
    assert value[|y|] == s1;
    assert !AllIn(text, IsKotlinWhitespace);
    assert DateFields(value) == FieldsOf(Split(value, IsDateSeparator));
    SplitThree(value, y, m, d, tail, s1, s2);
  }

  /** The first three pieces of `y s1 m s2 d tail`. */
  lemma SplitThree(value: string, y: string, m: string, d: string, tail: string, s1: char, s2: char)
    requires IsDateSeparator(s1) && IsDateSeparator(s2)
    requires NoneIn(y, IsDateSeparator) && NoneIn(m, IsDateSeparator) && NoneIn(d, IsDateSeparator)
    requires tail == [] || IsDateSeparator(tail[0])
    requires value == y + [s1] + m + [s2] + d + tail
    ensures var parts := Split(value, IsDateSeparator);
      |parts| >= 3 && parts[0] == y && parts[1] == m && parts[2] == d
  {
    var rest, last := m + [s2] + d + tail, d + tail;
    Regroup(y, s1, m, s2, d, tail, value, rest, last);
    SplitFirst(y, s1, rest, IsDateSeparator);
    SplitFirst(m, s2, last, IsDateSeparator);
    SplitHead(d, tail);
  }

  lemma Regroup(y: string, s1: char, m: string, s2: char, d: string, tail: string, value: string, rest: string, last: string)
    requires value == y + [s1] + m + [s2] + d + tail && rest == m + [s2] + d + tail && last == d + tail
    ensures value == y + [s1] + rest && rest == m + [s2] + last
  {
  }

  lemma SplitHead(d: string, tail: string)
    requires NoneIn(d, IsDateSeparator)
    requires tail == [] || IsDateSeparator(tail[0])
    ensures Split(d + tail, IsDateSeparator)[0] == d
  {
    if tail == [] {
      assert d + tail == d;
      SplitNone(d, IsDateSeparator);
    } else {
      assert d + tail == d + [tail[0]] + tail[1..];
      SplitFirst(d, tail[0], tail[1..], IsDateSeparator);
    }
  }

  /** Digits are neither whitespace nor separators. */
  lemma DigitsAreNotMarks(s: string)
    requires AllIn(s, IsDigit)
    ensures NoneIn(s, IsKotlinWhitespace) && NoneIn(s, IsDateSeparator)
  {
  }

  /**
    `String.format(Locale.US, "%04d<sep>%02d<sep>%02d", y, m, d)`: the
    picker writes it with `/`, and `parseDate` builds it with `-` for the
    formatter.
   */
  function Format(d: Date, sep: char): (s: string)
    requires d.year >= 0 && d.month >= 0 && d.day >= 0
    requires IsDateSeparator(sep)
    ensures |s| >= 10
    ensures Count(s, IsDateSeparator) == 2
  {
    var ys, ms, ds := ZeroPadded(d.year, 4), ZeroPadded(d.month, 2), ZeroPadded(d.day, 2);
    DigitsAreNotMarks(ys);
    DigitsAreNotMarks(ms);
    DigitsAreNotMarks(ds);
    NoSeparatorsCounted(ys);
    NoSeparatorsCounted(ms);
    NoSeparatorsCounted(ds);
    CountAppend(ys + [sep] + ms + [sep], ds, IsDateSeparator);
    CountAppend(ys + [sep] + ms, [sep], IsDateSeparator);
    CountAppend(ys + [sep], ms, IsDateSeparator);
    CountAppend(ys, [sep], IsDateSeparator);
    ys + [sep] + ms + [sep] + ds
  }

  lemma {:induction false} NoSeparatorsCounted(s: string)
    requires NoneIn(s, IsDateSeparator)
    ensures Count(s, IsDateSeparator) == 0
    decreases |s|
  {
    if s != [] {
      NoSeparatorsCounted(s[1..]);
    }
  }

  /** A formatted date reads back as the same three fields. */
  lemma FormatFields(d: Date, sep: char)
    requires 0 <= d.year <= Int32.Max && 0 <= d.month <= Int32.Max && 0 <= d.day <= Int32.Max
    requires IsDateSeparator(sep)
    ensures DateFields(Format(d, sep)) == Some(d)
  {
    var ys, ms, ds := ZeroPadded(d.year, 4), ZeroPadded(d.month, 2), ZeroPadded(d.day, 2);
    DigitsAreNotMarks(ys);
    DigitsAreNotMarks(ms);
    DigitsAreNotMarks(ds);
    var value := Format(d, sep);
    FormatPieces(ys, ms, ds, sep, value);
    ParsePadded(d.year, 4);
    ParsePadded(d.month, 2);
    ParsePadded(d.day, 2);
    ParseDateFields(value, ys, ms, ds, [], sep, sep);
  }

  lemma FormatPieces(ys: string, ms: string, ds: string, sep: char, value: string)
    requires NoneIn(ys, IsKotlinWhitespace) && NoneIn(ms, IsKotlinWhitespace) && NoneIn(ds, IsKotlinWhitespace)
    requires IsDateSeparator(sep) && value == ys + [sep] + ms + [sep] + ds
    ensures value == ys + [sep] + ms + [sep] + ds + []
    ensures NoneIn(value, IsKotlinWhitespace)
  {
    SeparatorIsNoSpace(sep);
    assert value + [] == value;
  }

  lemma SeparatorIsNoSpace(c: char)
    requires IsDateSeparator(c)
    ensures !IsKotlinWhitespace(c)
  {
  }

  /** A valid Gregorian date after 1900, written with either separator, parses to itself. */
  lemma ParseGregorianText(g: Date, sep: char)
    requires ValidGregorian(g) && GregorianThreshold < g.year <= MaxFormatterYear
    requires IsDateSeparator(sep)
    ensures ParseDate(Format(g, sep)) == Some(g)
  {
    FormatFields(g, sep);
    ParseDateOf(Format(g, sep), g);
  }

  /** A year past the formatter's last one is refused, although the calendar date is real. */
  lemma ParseGregorianBeyondCap(g: Date, sep: char)
    requires ValidGregorian(g) && MaxFormatterYear < g.year <= Int32.Max
    requires IsDateSeparator(sep)
    ensures ParseDate(Format(g, sep)) == None
  {
    FormatFields(g, sep);
    ParseDateOf(Format(g, sep), g);
  }

  /**
    A Jalali date up to year 1900 parses to its Gregorian counterpart, which
    `gregorianToJalali` takes back to the date that was written.
   */
  lemma ParseJalaliText(d: Date, sep: char)
    requires ValidJalali(d) && d.year <= GregorianThreshold
    requires IsDateSeparator(sep)
    ensures ParseDate(Format(d, sep)) == Some(JalaliToGregorian(d.year, d.month, d.day))
    ensures var g := JalaliToGregorian(d.year, d.month, d.day); GregorianToJalali(g.year, g.month, g.day) == d
  {
    var text := Format(d, sep);
    FormatFields(d, sep);
    AsGregorianOfJalali(d);
    JalaliWithinFormatter(d);
    ParseDateOf(text, d);
    JalaliGregorianRoundTrip(d);
  }

  /** Jalali fields within a million of zero do not overflow the `Int` conversion. */
  lemma AsGregorianOfJalali(f: Date)
    requires f.year <= GregorianThreshold
    requires -1_000_000 <= f.year && -1_000_000 <= f.month <= 1_000_000 && -1_000_000 <= f.day <= 1_000_000
    ensures AsGregorian(f) == JalaliToGregorian(f.year, f.month, f.day)
  {
    KotlinJalaliToGregorianExact(f.year, f.month, f.day);
  }

  /** A Jalali date up to year 1900 converts to a year the formatter still takes. */
  lemma JalaliWithinFormatter(d: Date)
    requires ValidJalali(d) && d.year <= GregorianThreshold
    ensures FormatterAccepts(JalaliToGregorian(d.year, d.month, d.day))
  {
    var n := JalaliDayNumber(d.year, d.month, d.day);
    JalaliDayNumberBelow(d, n);
    JalaliToGregorianValid(d);
    GregorianYearBound(n + 79);
  }

  lemma JalaliDayNumberBelow(d: Date, n: int)
    requires ValidJalali(d) && d.year <= GregorianThreshold
    requires n == JalaliDayNumber(d.year, d.month, d.day)
    ensures 0 <= n <= 1_000_000
  {
    JalaliDayNumberNonNegative(d);
  }

  /** Once the fields are known, only the conversion and the validity check remain. */
  lemma ParseDateOf(value: string, f: Date)
    requires DateFields(value) == Some(f)
    ensures var g := AsGregorian(f); ParseDate(value) == if FormatterAccepts(g) then Some(g) else None
  {
  }

  /**
    The year heuristic misreads early Gregorian dates: "1900-01-01" is taken
    as Jalali 1900 and converted, so it does not parse to 1 January 1900.
   */
  lemma GregorianYear1900IsReadAsJalali(g: Date)
    requires g == Date(1900, 1, 1)
    ensures ValidGregorian(g)
    ensures ParseDate(Format(g, '-')).Some? && ParseDate(Format(g, '-')) != Some(g)
  {
    ParseJalaliText(g, '-');
    JalaliToGregorianValid(g);
    DayNumbersOf1900(g.year, g.month, g.day);
  }

  /**
    The month field is multiplied before any check, on `Int`: month
    143165578 of 1400 wraps to the day number of 1400/1/21, so the text
    "1400/143165578/1" is accepted as 10 April 2021.
   */
  lemma WrappedMonthParses(value: string)
    requires DateFields(value) == Some(Date(1400, 143165578, 1))
    ensures ParseDate(value) == Some(JalaliToGregorian(1400, 1, 21))
  {
    KotlinMonthWraps(1400, 143165578, 1);
    JalaliWithinFormatter(Date(1400, 1, 21));
    ParseDateOf(value, Date(1400, 143165578, 1));
  }

  lemma DayNumbersOf1900(y: int, m: int, d: int)
    requires y == 1900 && m == 1 && d == 1
    ensures JalaliDayNumber(y, m, d) == 336389
    ensures GregorianDayNumber(y, m, d) == 109573
  {
  }

  // ---------------------------------------------------------------------------
  // The Persian date picker
  // ---------------------------------------------------------------------------

  /** The year wheel's range. */
  const PickerFirstYear: int := 1390
  const PickerLastYear: int := 1500

  /** The day wheel after its maximum is set to `max`: a day above it drops to it. */
  function ClampDay(d: Date, max: int): (r: Date)
    ensures r.year == d.year && r.month == d.month
    ensures r.day <= max && (r.day == d.day || r.day == max)
    ensures d.day <= max ==> r == d
  {
    if d.day > max then d.(day := max) else d
  }

  /** `updateDayPicker`: the day wheel follows `daysInJalaliMonth` of the chosen year and month. */
  function UpdateDayPicker(d: Date): (r: Date)
    ensures r.year == d.year && r.month == d.month
    ensures r.day <= DaysInJalaliMonth(d.year, d.month)
    ensures 1 <= d.day ==> 1 <= r.day
  {
    ClampDay(d, DaysInJalaliMonth(d.year, d.month))
  }

  /** A date the three wheels can show together. */
  predicate PickerShows(d: Date) {
    && PickerFirstYear <= d.year <= PickerLastYear
    && 1 <= d.month <= 12
    && 1 <= d.day <= DaysInJalaliMonth(d.year, d.month)
  }

  /**
    After any wheel moves, the picker shows a date; a date it already shows
    is left alone, so the update is idempotent.
   */
  lemma UpdateDayPickerSettles(d: Date)
    requires PickerFirstYear <= d.year <= PickerLastYear && 1 <= d.month <= 12 && 1 <= d.day
    ensures PickerShows(UpdateDayPicker(d))
    ensures UpdateDayPicker(UpdateDayPicker(d)) == UpdateDayPicker(d)
    ensures PickerShows(d) <==> UpdateDayPicker(d) == d
  {
  }

  /** What the picker writes into the bound field on "ثبت". */
  function PickedText(d: Date): (s: string)
    requires PickerShows(d)
    ensures DateFields(s) == Some(d)
  {
    FormatFields(d, '/');
    Format(d, '/')
  }

  /** The two leap rules in the picker's range: they disagree on exactly six years. */
  lemma LeapRulesInPickerRange(jy: int)
    requires PickerFirstYear <= jy <= PickerLastYear
    ensures IsJalaliLeap(jy) != IsCycleLeap(jy) <==> jy in {1403, 1404, 1436, 1437, 1469, 1470}
  {
    assert Int32.KMod(jy - 474, 2820) == jy - 474;
    assert Int32.KMod((jy + 38) * 682, 2816) == ((jy + 38) * 682) % 2816;
    LeapYearsListed(jy);
  }

  /** The simplified `isJalaliLeap` test and the converters' rule disagree on `jy`. */
  predicate RulesDiffer(jy: int) {
    (((jy + 38) * 682) % 2816 < 682) != IsCycleLeap(jy)
  }

  predicate DifferingYear(jy: int) {
    jy in {1403, 1404, 1436, 1437, 1469, 1470}
  }

  lemma LeapYearsListed(jy: int)
    requires PickerFirstYear <= jy <= PickerLastYear
    ensures (((jy + 38) * 682) % 2816 < 682) != IsCycleLeap(jy) <==> jy in {1403, 1404, 1436, 1437, 1469, 1470}
  {
    if jy < 1404 {
      LeapYearsFrom1390(jy);
    } else if jy < 1418 {
      LeapYearsFrom1404(jy);
    } else if jy < 1432 {
      LeapYearsFrom1418(jy);
    } else if jy < 1446 {
      LeapYearsFrom1432(jy);
    } else if jy < 1460 {
      LeapYearsFrom1446(jy);
    } else if jy < 1474 {
      LeapYearsFrom1460(jy);
    } else if jy < 1488 {
      LeapYearsFrom1474(jy);
    } else {
      LeapYearsFrom1488(jy);
    }
  }

  /** Years 1390 to 1403, one at a time. */
  lemma LeapYearsFrom1390(jy: int)
    requires 1390 <= jy < 1404
    ensures RulesDiffer(jy) <==> DifferingYear(jy)
  {
    if jy == 1390 {
    } else if jy == 1391 {
    } else if jy == 1392 {
    } else if jy == 1393 {
    } else if jy == 1394 {
    } else if jy == 1395 {
    } else if jy == 1396 {
    } else if jy == 1397 {
    } else if jy == 1398 {
    } else if jy == 1399 {
    } else if jy == 1400 {
    } else if jy == 1401 {
    } else if jy == 1402 {
    } else if jy == 1403 {
    }
  }

  /** Years 1404 to 1417, one at a time. */
  lemma LeapYearsFrom1404(jy: int)
    requires 1404 <= jy < 1418
    ensures RulesDiffer(jy) <==> DifferingYear(jy)
  {
    if jy == 1404 {
    } else if jy == 1405 {
    } else if jy == 1406 {
    } else if jy == 1407 {
    } else if jy == 1408 {
    } else if jy == 1409 {
    } else if jy == 1410 {
    } else if jy == 1411 {
    } else if jy == 1412 {
    } else if jy == 1413 {
    } else if jy == 1414 {
    } else if jy == 1415 {
    } else if jy == 1416 {
    } else if jy == 1417 {
    }
  }

  /** Years 1418 to 1431, one at a time. */
  lemma LeapYearsFrom1418(jy: int)
    requires 1418 <= jy < 1432
    ensures RulesDiffer(jy) <==> DifferingYear(jy)
  {
    if jy == 1418 {
    } else if jy == 1419 {
    } else if jy == 1420 {
    } else if jy == 1421 {
    } else if jy == 1422 {
    } else if jy == 1423 {
    } else if jy == 1424 {
    } else if jy == 1425 {
    } else if jy == 1426 {
    } else if jy == 1427 {
    } else if jy == 1428 {
    } else if jy == 1429 {
    } else if jy == 1430 {
    } else if jy == 1431 {
    }
  }

  /** Years 1432 to 1445, one at a time. */
  lemma LeapYearsFrom1432(jy: int)
    requires 1432 <= jy < 1446
    ensures RulesDiffer(jy) <==> DifferingYear(jy)
  {
    if jy == 1432 {
    } else if jy == 1433 {
    } else if jy == 1434 {
    } else if jy == 1435 {
    } else if jy == 1436 {
    } else if jy == 1437 {
    } else if jy == 1438 {
    } else if jy == 1439 {
    } else if jy == 1440 {
    } else if jy == 1441 {
    } else if jy == 1442 {
    } else if jy == 1443 {
    } else if jy == 1444 {
    } else if jy == 1445 {
    }
  }

  /** Years 1446 to 1459, one at a time. */
  lemma LeapYearsFrom1446(jy: int)
    requires 1446 <= jy < 1460
    ensures RulesDiffer(jy) <==> DifferingYear(jy)
  {
    if jy == 1446 {
    } else if jy == 1447 {
    } else if jy == 1448 {
    } else if jy == 1449 {
    } else if jy == 1450 {
    } else if jy == 1451 {
    } else if jy == 1452 {
    } else if jy == 1453 {
    } else if jy == 1454 {
    } else if jy == 1455 {
    } else if jy == 1456 {
    } else if jy == 1457 {
    } else if jy == 1458 {
    } else if jy == 1459 {
    }
  }

  /** Years 1460 to 1473, one at a time. */
  lemma LeapYearsFrom1460(jy: int)
    requires 1460 <= jy < 1474
    ensures RulesDiffer(jy) <==> DifferingYear(jy)
  {
    if jy == 1460 {
    } else if jy == 1461 {
    } else if jy == 1462 {
    } else if jy == 1463 {
    } else if jy == 1464 {
    } else if jy == 1465 {
    } else if jy == 1466 {
    } else if jy == 1467 {
    } else if jy == 1468 {
    } else if jy == 1469 {
    } else if jy == 1470 {
    } else if jy == 1471 {
    } else if jy == 1472 {
    } else if jy == 1473 {
    }
  }

  /** Years 1474 to 1487, one at a time. */
  lemma LeapYearsFrom1474(jy: int)
    requires 1474 <= jy < 1488
    ensures RulesDiffer(jy) <==> DifferingYear(jy)
  {
    if jy == 1474 {
    } else if jy == 1475 {
    } else if jy == 1476 {
    } else if jy == 1477 {
    } else if jy == 1478 {
    } else if jy == 1479 {
    } else if jy == 1480 {
    } else if jy == 1481 {
    } else if jy == 1482 {
    } else if jy == 1483 {
    } else if jy == 1484 {
    } else if jy == 1485 {
    } else if jy == 1486 {
    } else if jy == 1487 {
    }
  }

  /** Years 1488 to 1500, one at a time. */
  lemma LeapYearsFrom1488(jy: int)
    requires 1488 <= jy < 1501
    ensures RulesDiffer(jy) <==> DifferingYear(jy)
  {
    if jy == 1488 {
    } else if jy == 1489 {
    } else if jy == 1490 {
    } else if jy == 1491 {
    } else if jy == 1492 {
    } else if jy == 1493 {
    } else if jy == 1494 {
    } else if jy == 1495 {
    } else if jy == 1496 {
    } else if jy == 1497 {
    } else if jy == 1498 {
    } else if jy == 1499 {
    } else if jy == 1500 {
    }
  }

  // ---------------------------------------------------------------------------
  // The picker's day limit against the converters
  // ---------------------------------------------------------------------------

  /**
    The picker offers 30 Esfand 1404, which no calendar has: the converter
    maps it to the same day as 1 Farvardin 1405, and `gregorianToJalali`
    gives back 1 Farvardin 1405.
   */
  lemma PickerOffersPhantomDay(d: Date, e: Date)
    requires d == Date(1404, 12, 30) && e == Date(1405, 1, 1)
    ensures PickerShows(d) && PickerShows(e) && d != e
    ensures ParseDate(PickedText(d)) == ParseDate(PickedText(e))
    ensures ParseDate(PickedText(e)).Some?
    ensures var g := ParseDate(PickedText(d)).value; GregorianToJalali(g.year, g.month, g.day) == e
  {
    PhantomDayLeap(d.year);
    assert JalaliDayNumber(d.year, d.month, d.day) == JalaliDayNumber(e.year, e.month, e.day);
    SameDayNumberSameDate(d, e);
    ParsePicked(d);
    ParsePicked(e);
    ParseJalaliText(e, '/');
  }

  /** Two Jalali triples with one day number convert to one Gregorian date. */
  lemma SameDayNumberSameDate(d: Date, e: Date)
    requires JalaliDayNumber(d.year, d.month, d.day) == JalaliDayNumber(e.year, e.month, e.day)
    ensures JalaliToGregorian(d.year, d.month, d.day) == JalaliToGregorian(e.year, e.month, e.day)
  {
  }

  /** 1404 is leap for `isJalaliLeap` but not for the converters. */
  lemma PhantomDayLeap(jy: int)
    requires jy == 1404
    ensures IsJalaliLeap(jy) && !IsCycleLeap(jy)
  {
    assert Int32.KMod(jy - 474, 2820) == 930;
    assert Int32.KMod((jy + 38) * 682, 2816) == 660;
  }

  /** A picked date is read as Jalali and converted. */
  lemma ParsePicked(d: Date)
    requires PickerShows(d)
    ensures var g := JalaliToGregorian(d.year, d.month, d.day);
      ParseDate(PickedText(d)) == if FormatterAccepts(g) then Some(g) else None
  {
    AsGregorianOfJalali(d);
    ParseDateOf(PickedText(d), d);
  }

  /**
    The picker refuses 30 Esfand 1403, a real day (20 March 2025 for the
    converters): with the day wheel on 30, picking 1403 Esfand pulls it back to 29.
   */
  lemma PickerHidesLeapDay(d: Date)
    requires d == Date(1403, 12, 30)
    ensures ValidJalali(d) && !PickerShows(d)
    ensures UpdateDayPicker(d) == Date(1403, 12, 29)
  {
    assert Int32.KMod(1403 - 474, 2820) == 929;
    assert Int32.KMod((1403 + 38) * 682, 2816) == 2794;
    assert !IsJalaliLeap(1403);
    assert (1403 - 979) % 33 == 28;
  }

  /** The day limit the converters agree with: `CycleDaysInJalaliMonth` in place of `daysInJalaliMonth`. */
  function CorrectedUpdateDayPicker(d: Date): (r: Date)
    ensures r.year == d.year && r.month == d.month
    ensures r.day <= CycleDaysInJalaliMonth(d.year, d.month)
    ensures 1 <= d.day ==> 1 <= r.day
  {
    ClampDay(d, CycleDaysInJalaliMonth(d.year, d.month))
  }

  predicate CorrectedPickerShows(d: Date) {
    && PickerFirstYear <= d.year <= PickerLastYear
    && 1 <= d.month <= 12
    && 1 <= d.day <= CycleDaysInJalaliMonth(d.year, d.month)
  }

  /**
    With the corrected limit, every date the picker can show is written,
    parsed and converted back to itself, and distinct picks are distinct days.
   */
  lemma CorrectedPickerRoundTrip(d: Date)
    requires PickerFirstYear <= d.year <= PickerLastYear && 1 <= d.month <= 12 && 1 <= d.day
    ensures CorrectedPickerShows(CorrectedUpdateDayPicker(d))
    ensures var p := CorrectedUpdateDayPicker(d);
      && ParseDate(Format(p, '/')).Some?
      && var g := ParseDate(Format(p, '/')).value;
         GregorianToJalali(g.year, g.month, g.day) == p
  {
    var p := CorrectedUpdateDayPicker(d);
    assert ValidJalali(p);
    ParseJalaliText(p, '/');
  }

  lemma CorrectedPickerInjective(d: Date, e: Date)
    requires CorrectedPickerShows(d) && CorrectedPickerShows(e)
    requires ParseDate(Format(d, '/')) == ParseDate(Format(e, '/'))
    ensures d == e
  {
    assert ValidJalali(d) && ValidJalali(e);
    ParseJalaliText(d, '/');
    ParseJalaliText(e, '/');
  }
}

=== FILE: dispatch.dfy ===
/**
  What the app does with the script's answer (MainActivity.kt): the text
  `evaluateJavascript` hands back is decoded, tokenized as JSON, and either
  merged into the store as a batch of new records or shown as a message.
 */
module Dispatch {
  import opened Wrappers
  import opened Text
  import opened Records
  import RecordStore
  import Scraper

  /** A value `JSONTokener.nextValue()` yields; numbers and booleans are kept as their text. */
  datatype Json =
    | JNull
    | JString(text: string)
    | JScalar(literal: string)
    | JArray(items: seq<Json>)
    | JObject(fields: map<string, Json>)

  /**
    The JSON library, which is not part of this model: `parse` is
    `JSONTokener(text).nextValue()`, `None` when it throws; `show` is a
    value's `toString()`.
   */
  datatype Codec = Codec(parse: string -> Option<Json>, show: Json -> string)

  // ---------------------------------------------------------------------------
  // decodeJavaScriptPayload
  // ---------------------------------------------------------------------------

  /** The three ends of `decodeJavaScriptPayload`: `null`, a text, or an exception it lets through. */
  datatype Decoded = NoPayload | Payload(text: string) | DecodeThrew

  /** The literal `evaluateJavascript` reports for a script that returned nothing. */
  const NullLiteral: string := "null"

  /**
    `decodeJavaScriptPayload(result)`: `null` for a missing, blank or "null"
    result; otherwise the decoded string literal, or the text of any other
    value.
   */
  function DecodePayload(result: Option<string>, codec: Codec): (d: Decoded)
    ensures d.NoPayload? <==> result.None? || AllIn(result.value, IsKotlinWhitespace) || result.value == NullLiteral
    ensures d.DecodeThrew? <==> !d.NoPayload? && codec.parse(result.value).None?
    ensures d.Payload? && codec.parse(result.value).value.JString? ==> d.text == codec.parse(result.value).value.text
  {
    if result.None? || AllIn(result.value, IsKotlinWhitespace) || result.value == NullLiteral then NoPayload
    else
      match codec.parse(result.value)
      case None => DecodeThrew
      case Some(JString(s)) => Payload(s)
      case Some(token) => Payload(codec.show(token))
  }

  // ---------------------------------------------------------------------------
  // parseRecords
  // ---------------------------------------------------------------------------

  /** The JSON keys a scraped row travels under, in the order of the record's fields. */
  const NameKey: string := "نام"
  const MobileKey: string := "شماره موبایل"
  const PhoneKey: string := "شماره تلفن"
  const ProvinceKey: string := "استان"
  const CityKey: string := "شهر"
  const PostalCodeKey: string := "کد ارسال"
  const AddressKey: string := "آدرس"
  const NotesKey: string := "توضیحات"
  const RegisteredAtKey: string := "تاریخ ثبت"
  const SellerKey: string := "فروشنده"
  const StatusKey: string := "وضعیت"

  /** Android's `optString(name, fallback)`: a string as it is, any other value as its text, the fallback when absent. */
  function OptString(fields: map<string, Json>, name: string, fallback: string, codec: Codec): (s: string)
    ensures name !in fields ==> s == fallback
    ensures name in fields && fields[name].JString? ==> s == fields[name].text
  {
    if name !in fields then fallback
    else
      match fields[name]
      case JString(t) => t
      case v => codec.show(v)
  }

  /** The record one object of the array becomes; the operator fields start at their defaults. */
  function RecordOf(fields: map<string, Json>, codec: Codec): (r: CustomerRecord)
    ensures r.status == Pending && r.operatorNotes == ""
  {
    NewRecord(
      OptString(fields, NameKey, "", codec),
      OptString(fields, MobileKey, "", codec),
      OptString(fields, PhoneKey, "", codec),
      OptString(fields, ProvinceKey, "", codec),
      OptString(fields, CityKey, "", codec),
      OptString(fields, PostalCodeKey, "", codec),
      OptString(fields, AddressKey, "", codec),
      OptString(fields, NotesKey, "", codec),
      OptString(fields, RegisteredAtKey, "", codec),
      OptString(fields, SellerKey, "", codec),
      OptString(fields, StatusKey, "", codec))
  }

  /** `parseRecords(array)`: one record per object element, in order; `optJSONObject` skips every other element. */
  function ParseRecords(items: seq<Json>, codec: Codec): (records: seq<CustomerRecord>)
    ensures |records| <= |items|
    ensures forall r :: r in records ==> r.status == Pending && r.operatorNotes == ""
    decreases |items|
  {
    if items == [] then []
    else
      var head := match items[0] case JObject(f) => [RecordOf(f, codec)] case _ => [];
      head + ParseRecords(items[1..], codec)
  }

  /** Parsing a concatenation parses each part: the records keep the order of their objects. */
  lemma {:induction false} ParseRecordsAppend(a: seq<Json>, b: seq<Json>, codec: Codec)
    ensures ParseRecords(a + b, codec) == ParseRecords(a, codec) + ParseRecords(b, codec)
    decreases |a|
  {
    if a != [] {
      var head := match a[0] case JObject(f) => [RecordOf(f, codec)] case _ => [];
      assert (a + b)[0] == a[0];
      assert (a + b)[1..] == a[1..] + b;
      assert ParseRecords(a + b, codec) == head + ParseRecords(a[1..] + b, codec);
      assert ParseRecords(a, codec) == head + ParseRecords(a[1..], codec);
      ParseRecordsAppend(a[1..], b, codec);
    } else {
      assert a + b == b;
    }
  }

  /** An object becomes exactly its record, and any other element is skipped. */
  lemma ParseRecordsSingle(v: Json, codec: Codec)
    ensures v.JObject? ==> ParseRecords([v], codec) == [RecordOf(v.fields, codec)]
    ensures !v.JObject? ==> ParseRecords([v], codec) == []
  {
    assert [v][1..] == [];
  }

  /** A key the object lacks leaves its field empty. */
  lemma MissingKeysAreEmpty(fields: map<string, Json>, codec: Codec)
    ensures NameKey !in fields ==> RecordOf(fields, codec).name == ""
    ensures MobileKey !in fields ==> RecordOf(fields, codec).mobile == ""
    ensures StatusKey !in fields ==> RecordOf(fields, codec).deliveryStatus == ""
    ensures fields == map[] ==> RecordOf(fields, codec) == NewRecord("", "", "", "", "", "", "", "", "", "", "")
  {
  }

  // ---------------------------------------------------------------------------
  // handleExtractionResult
  // ---------------------------------------------------------------------------

  /** What handling one answer ends in. */
  datatype Outcome =
    | Shown(message: string)
    | Stored(result: RecordStore.StoreResult, message: string)
    | Uncaught

  const NothingReceived: string := "هیچ داده‌ای دریافت نشد."
  const NothingNew: string := "هیچ مورد جدیدی برای ثبت وجود نداشت."

  /** The message after a merge: the number of new records, or that there were none. */
  function AddedMessage(added: nat): (m: string)
    ensures added == 0 <==> m == NothingNew
  {
    if added > 0 then
      var m := "✅ " + Decimal(added) + " مورد جدید ثبت شد.";
      assert m[0] != NothingNew[0];
      m
    else NothingNew
  }

  /** The message of an added count names that count: distinct counts give distinct messages. */
  lemma AddedMessageNamesCount(a: nat, b: nat)
    requires a > 0 && b > 0 && AddedMessage(a) == AddedMessage(b)
    ensures a == b
  {
    var prefix := "✅ ";
    var suffix := " مورد جدید ثبت شد.";
    DecimalsCut(prefix, Decimal(a), Decimal(b), suffix);
  }

  /** Two digit strings framed by the same non-digit texts are equal when the framed texts are. */
  lemma DecimalsCut(prefix: string, x: string, y: string, suffix: string)
    requires AllIn(x, IsDigit) && AllIn(y, IsDigit)
    requires suffix != [] && !IsDigit(suffix[0])
    requires prefix + x + suffix == prefix + y + suffix
    ensures x == y
  {
    var s := prefix + x + suffix;
    var t := prefix + y + suffix;
    assert !IsDigit(s[|prefix| + |x|]) && !IsDigit(t[|prefix| + |y|]);
    assert forall k :: |prefix| <= k < |prefix| + |y| ==> IsDigit(t[k]);
    assert forall k :: |prefix| <= k < |prefix| + |x| ==> IsDigit(s[k]);
    assert x == s[|prefix|..|prefix| + |x|];
    assert y == t[|prefix|..|prefix| + |y|];
  }

  /**
    The `when (token)` of `handleExtractionResult`: an array is merged into
    the store, an object shows its "error" member (or the whole payload),
    and anything else, or a payload that does not tokenize, is shown as it is.
   */
  function Dispatch(stored: seq<CustomerRecord>, payload: string, token: Option<Json>, codec: Codec): (o: Outcome)
    ensures o.Stored? <==> token.Some? && token.value.JArray?
    ensures o.Stored? ==> o.result == RecordStore.UpsertAll(stored, ParseRecords(token.value.items, codec))
    ensures o.Stored? ==> (o.result.addedCount == 0 <==> o.message == NothingNew)
    ensures !o.Stored? ==> o.Shown?
    ensures token.None? || !(token.value.JArray? || token.value.JObject?) ==> o == Shown(payload)
    ensures token.Some? && token.value.JObject? && "error" !in token.value.fields ==> o == Shown(payload)
    ensures token.Some? && token.value.JObject? && "error" in token.value.fields && token.value.fields["error"].JString? ==>
      o == Shown(token.value.fields["error"].text)
  {
    match token
    case Some(JArray(items)) =>
      var res := RecordStore.UpsertAll(stored, ParseRecords(items, codec));
      Stored(res, AddedMessage(res.addedCount))
    case Some(JObject(fields)) => Shown(OptString(fields, "error", payload, codec))
    case _ => Shown(payload)
  }

  /**
    `handleExtractionResult(result)` against the records `stored` holds:
    nothing received for no or a blank payload, otherwise the dispatch on
    the payload's JSON value.
   */
  function HandleExtractionResult(stored: seq<CustomerRecord>, result: Option<string>, codec: Codec): (o: Outcome)
    ensures o.Uncaught? <==> DecodePayload(result, codec).DecodeThrew?
    ensures DecodePayload(result, codec).NoPayload? ==> o == Shown(NothingReceived)
    ensures o.Stored? ==> DecodePayload(result, codec).Payload?
  {
    match DecodePayload(result, codec)
    case DecodeThrew => Uncaught
    case NoPayload => Shown(NothingReceived)
    case Payload(p) =>
      if AllIn(p, IsKotlinWhitespace) then Shown(NothingReceived)
      else Dispatch(stored, p, codec.parse(p), codec)
  }

  // ---------------------------------------------------------------------------
  // From the script's answer to the store
  // ---------------------------------------------------------------------------

  /** The object `JSON.stringify` writes for one scraped row (JavaScriptInjector.kt:180-192). */
  function RowJson(row: Scraper.Scraped): map<string, Json> {
    map[
      NameKey := JString(row.name),
      MobileKey := JString(row.mobile),
      PhoneKey := JString(row.phone),
      ProvinceKey := JString(row.province),
      CityKey := JString(row.city),
      PostalCodeKey := JString(row.postalCode),
      AddressKey := JString(row.address),
      NotesKey := JString(row.notes),
      RegisteredAtKey := JString(row.registeredAt),
      SellerKey := JString(row.seller),
      StatusKey := JString(row.status)]
  }

  /** The JSON value the script's result stringifies: the row array, or `{error: ...}`. */
  function ResultJson(res: Scraper.ScriptResult): Json {
    match res
    case Rows(rows) => JArray(seq(|rows|, i requires 0 <= i < |rows| => JObject(RowJson(rows[i]))))
    case Failure(e) => JObject(map["error" := JString(Scraper.ErrorMessage(e))])
  }

  /** The record a scraped row becomes in the app: field for field, the row's status as the delivery status. */
  function Imported(row: Scraper.Scraped): (r: CustomerRecord)
    ensures r.status == Pending && r.operatorNotes == ""
  {
    NewRecord(row.name, row.mobile, row.phone, row.province, row.city, row.postalCode,
              row.address, row.notes, row.registeredAt, row.seller, row.status)
  }

  /** Every key the script writes is read back into its own field. */
  lemma RowJsonRead(row: Scraper.Scraped, codec: Codec)
    ensures RecordOf(RowJson(row), codec) == Imported(row)
  {
    RowJsonHolds(row);
  }

  /** The object the script writes for a row holds each field under its key. */
  lemma RowJsonHolds(row: Scraper.Scraped)
    ensures var f := RowJson(row);
      && f[NameKey] == JString(row.name) && f[MobileKey] == JString(row.mobile)
      && f[PhoneKey] == JString(row.phone) && f[ProvinceKey] == JString(row.province)
      && f[CityKey] == JString(row.city) && f[PostalCodeKey] == JString(row.postalCode)
      && f[AddressKey] == JString(row.address) && f[NotesKey] == JString(row.notes)
      && f[RegisteredAtKey] == JString(row.registeredAt) && f[SellerKey] == JString(row.seller)
      && f[StatusKey] == JString(row.status)
  {
  }

  /** The row array parses back to the imported rows, one record per row, in order. */
  lemma RowsRead(rows: seq<Scraper.Scraped>, codec: Codec)
    ensures ParseRecords(ResultJson(Scraper.Rows(rows)).items, codec) == seq(|rows|, i requires 0 <= i < |rows| => Imported(rows[i]))
  {
    var items := ResultJson(Scraper.Rows(rows)).items;
    var parsed := ParseRecords(items, codec);
    ParseAllObjects(items, codec);
    forall i | 0 <= i < |rows|
      ensures parsed[i] == Imported(rows[i])
    {
      RowJsonRead(rows[i], codec);
    }
  }

  /** An array of objects parses to one record per element, in place. */
  lemma {:induction false} ParseAllObjects(items: seq<Json>, codec: Codec)
    requires forall i :: 0 <= i < |items| ==> items[i].JObject?
    ensures |ParseRecords(items, codec)| == |items|
    ensures forall i :: 0 <= i < |items| ==> ParseRecords(items, codec)[i] == RecordOf(items[i].fields, codec)
    decreases |items|
  {
    if items != [] {
      var rest := items[1..];
      ParseAllObjects(rest, codec);
      var r := ParseRecords(items, codec);
      assert r == [RecordOf(items[0].fields, codec)] + ParseRecords(rest, codec);
      forall i | 0 < i < |items|
        ensures r[i] == RecordOf(items[i].fields, codec)
      {
        assert rest[i - 1] == items[i];
      }
    }
  }

  /**
    The answer `evaluateJavascript` delivers: the script's result,
    stringified, arrives as a JSON string literal, and that literal's text
    tokenizes to the result's JSON value.
   */
  predicate Delivers(codec: Codec, wire: string, res: Scraper.ScriptResult) {
    && !AllIn(wire, IsKotlinWhitespace) && wire != NullLiteral
    && codec.parse(wire).Some? && codec.parse(wire).value.JString?
    && var text := codec.parse(wire).value.text;
       !AllIn(text, IsKotlinWhitespace) && codec.parse(text) == Some(ResultJson(res))
  }

  /** Rows the script returns are merged into the store as the imported records. */
  lemma RowsAreStored(stored: seq<CustomerRecord>, wire: string, rows: seq<Scraper.Scraped>, codec: Codec)
    requires Delivers(codec, wire, Scraper.Rows(rows))
    ensures var batch := seq(|rows|, i requires 0 <= i < |rows| => Imported(rows[i]));
      HandleExtractionResult(stored, Some(wire), codec) ==
      Stored(RecordStore.UpsertAll(stored, batch), AddedMessage(RecordStore.UpsertAll(stored, batch).addedCount))
  {
    RowsRead(rows, codec);
  }

  /** An error the script reports is shown as its own message. */
  lemma FailureIsShown(stored: seq<CustomerRecord>, wire: string, e: Scraper.ScriptError, codec: Codec)
    requires Delivers(codec, wire, Scraper.Failure(e))
    ensures HandleExtractionResult(stored, Some(wire), codec) == Shown(Scraper.ErrorMessage(e))
  {
  }

  /** The same rows delivered twice add nothing the second time. */
  lemma SameRowsTwice(stored: seq<CustomerRecord>, wire: string, rows: seq<Scraper.Scraped>, codec: Codec)
    requires Delivers(codec, wire, Scraper.Rows(rows))
    ensures var first := HandleExtractionResult(stored, Some(wire), codec);
      && first.Stored?
      && HandleExtractionResult(first.result.records, Some(wire), codec) ==
         Stored(RecordStore.StoreResult(first.result.records, 0), NothingNew)
  {
    var batch := seq(|rows|, i requires 0 <= i < |rows| => Imported(rows[i]));
    var first := RecordStore.UpsertAll(stored, batch);
    StoredBatch(stored, wire, rows, codec, batch, first);
    var second := RecordStore.UpsertAll(first.records, batch);
    StoredBatch(first.records, wire, rows, codec, batch, second);
    RecordStore.UpsertTwice(stored, batch);
    assert second == RecordStore.StoreResult(first.records, 0);
  }

  /** The batch `Dispatch` hands to `UpsertAll` for the script's rows is exactly their imported records. */
  lemma StoredBatch(stored: seq<CustomerRecord>, wire: string, rows: seq<Scraper.Scraped>, codec: Codec,
                    batch: seq<CustomerRecord>, res: RecordStore.StoreResult)
    requires Delivers(codec, wire, Scraper.Rows(rows))
    requires batch == seq(|rows|, i requires 0 <= i < |rows| => Imported(rows[i]))
    requires res == RecordStore.UpsertAll(stored, batch)
    ensures HandleExtractionResult(stored, Some(wire), codec) == Stored(res, AddedMessage(res.addedCount))
  {
    RowsAreStored(stored, wire, rows, codec);
  }
}

=== FILE: filters.dfy ===
/**
  The record list's filters (MainActivity.kt): the status chip of
  `showRecords`, and the panel of `applyAdvancedFilters` with a delivery
  status spinner and an inclusive registration-date range.
 */
module Filters {
  import opened Wrappers
  import opened Text
  import opened Records
  import Status
  import opened Calendar
  import opened Dates
  import opened Sequences

  /** The spinner option that matches every delivery status; its last word carries a zero-width non-joiner. */
  const AnyDelivery: string := "همه وضعیت\U{200C}ها"

  /** The spinner's options, in order. */
  const DeliveryOptions: seq<string> := [AnyDelivery, Status.Collected, Status.Cancelled, Status.Waiting, Status.Withdrawn]

  // ---------------------------------------------------------------------------
  // The advanced filter panel
  // ---------------------------------------------------------------------------

  /** The panel: the spinner's selected item (none before the adapter is set) and the two date fields. */
  datatype Criteria = Criteria(selectedItem: Option<string>, fromText: string, toText: string)

  /** `selectedItem?.toString()?.trim().orEmpty()`. */
  function SelectedDelivery(c: Criteria): string {
    match c.selectedItem
    case None => ""
    case Some(item) => Trim(item, IsKotlinWhitespace)
  }

  /** The delivery test: the "all" option, or the record's normalised status equals the selection. */
  predicate MatchesDelivery(r: CustomerRecord, selected: string) {
    selected == AnyDelivery || Status.NormalizeDelivery(r.deliveryStatus) == selected
  }

  /**
    The date test: with a lower bound, the record's date must parse and not
    be before it; with an upper bound, it must parse and not be after it.
   */
  predicate WithinBounds(date: Option<Date>, from: Option<Date>, to: Option<Date>) {
    && (from.None? || (date.Some? && !Precedes(date.value, from.value)))
    && (to.None? || (date.Some? && !Precedes(to.value, date.value)))
  }

  /** Whether one record passes the panel. */
  predicate Passes(r: CustomerRecord, c: Criteria) {
    && MatchesDelivery(r, SelectedDelivery(c))
    && WithinBounds(ParseDate(r.registeredAt), ParseDate(c.fromText), ParseDate(c.toText))
  }

  /**
    `applyAdvancedFilters(source, status)`: with a status chip selected the
    panel is hidden and the list passes unchanged; otherwise the records
    that pass the panel, in order.
   */
  function ApplyAdvancedFilters(source: seq<CustomerRecord>, status: Option<RecordStatus>, c: Criteria): (r: seq<CustomerRecord>)
    ensures status.Some? ==> r == source
    ensures status.None? ==> forall x :: x in r <==> x in source && Passes(x, c)
    ensures status.None? ==> forall x :: multiset(r)[x] == if Passes(x, c) then multiset(source)[x] else 0
    ensures Subsequence(r, source)
  {
    if status.Some? then
      assert Filter(source, (x: CustomerRecord) => true) == source by {
        FilterKeepsAll(source, (x: CustomerRecord) => true);
      }
      FilterIsSubsequence(source, (x: CustomerRecord) => true);
      source
    else
      FilterIsSubsequence(source, (x: CustomerRecord) => Passes(x, c));
      Filter(source, (x: CustomerRecord) => Passes(x, c))
  }

  /** Whether a record belongs on screen: it has the chip's status, or passes the panel when no chip is selected. */
  predicate Shown(x: CustomerRecord, status: Option<RecordStatus>, c: Criteria) {
    if status.Some? then x.status == status.value else Passes(x, c)
  }

  /**
    The list `showRecords(status)` displays: the chip's status filter, then
    the panel; exactly the records with that status, or, with no chip,
    exactly those that pass the panel.
   */
  function ShowRecords(records: seq<CustomerRecord>, status: Option<RecordStatus>, c: Criteria): (r: seq<CustomerRecord>)
    ensures forall x :: x in r <==> x in records && Shown(x, status, c)
    ensures forall x :: multiset(r)[x] == if Shown(x, status, c) then multiset(records)[x] else 0
    ensures Subsequence(r, records)
  {
    if status.None? then ApplyAdvancedFilters(records, status, c)
    else
      var filtered := Filter(records, (x: CustomerRecord) => x.status == status.value);
      FilterIsSubsequence(records, (x: CustomerRecord) => x.status == status.value);
      ApplyAdvancedFilters(filtered, status, c)
  }

  // ---------------------------------------------------------------------------
  // Properties of the panel
  // ---------------------------------------------------------------------------

  /** "همه وضعیت‌ها" with both date fields blank keeps the whole list. */
  lemma EmptyPanelKeepsAll(source: seq<CustomerRecord>, c: Criteria)
    requires SelectedDelivery(c) == AnyDelivery
    requires AllIn(c.fromText, IsKotlinWhitespace) && AllIn(c.toText, IsKotlinWhitespace)
    ensures ApplyAdvancedFilters(source, None, c) == source
  {
    ParseDateRejects(c.fromText);
    ParseDateRejects(c.toText);
    FilterKeepsAll(source, (x: CustomerRecord) => Passes(x, c));
  }

  /** With neither bound set, a record's date does not matter, parsable or not. */
  lemma NoBoundsIgnoreDates(r: CustomerRecord, c: Criteria)
    requires ParseDate(c.fromText).None? && ParseDate(c.toText).None?
    ensures Passes(r, c) <==> MatchesDelivery(r, SelectedDelivery(c))
  {
  }

  /** A record whose date does not parse fails as soon as either bound is set. */
  lemma UnparsableDateExcluded(r: CustomerRecord, c: Criteria)
    requires ParseDate(r.registeredAt).None?
    requires ParseDate(c.fromText).Some? || ParseDate(c.toText).Some?
    ensures !Passes(r, c)
  {
  }

  /**
    Both bounds are inclusive, and the range test is day-number order: a
    record passes a set lower bound exactly when its day number is not below it.
   */
  lemma BoundsAreInclusive(date: Date, from: Date, to: Date)
    requires ValidGregorian(date) && ValidGregorian(from) && ValidGregorian(to)
    requires date.year >= 1600 && from.year >= 1600 && to.year >= 1600
    ensures WithinBounds(Some(date), Some(date), Some(date))
    ensures WithinBounds(Some(date), Some(from), Some(to)) <==>
      && GregorianDayNumber(from.year, from.month, from.day) <= GregorianDayNumber(date.year, date.month, date.day)
      && GregorianDayNumber(date.year, date.month, date.day) <= GregorianDayNumber(to.year, to.month, to.day)
  {
    PrecedesIsDayOrder(date, from);
    PrecedesIsDayOrder(to, date);
  }

  /** Choosing a category option selects exactly that label, which is not the "all" option. */
  lemma CategoryOptionSelected(c: Criteria)
    requires c.selectedItem.Some? && c.selectedItem.value in DeliveryOptions[1..]
    ensures SelectedDelivery(c) == c.selectedItem.value
    ensures SelectedDelivery(c) != AnyDelivery
  {
    OptionsAreTrimmed(c.selectedItem.value);
  }

  /**
    A selected category keeps exactly the records whose normalised delivery
    status is that category; a record already carrying the label passes.
   */
  lemma CategoryOptionMatches(r: CustomerRecord, item: string)
    requires item in DeliveryOptions[1..]
    ensures MatchesDelivery(r, item) <==> Status.NormalizeDelivery(r.deliveryStatus) == item
    ensures r.deliveryStatus == item ==> MatchesDelivery(r, item)
  {
    OptionsAreTrimmed(item);
    MatchesCategory(r, item);
  }

  lemma MatchesCategory(r: CustomerRecord, item: string)
    requires item != AnyDelivery && Status.IsCategory(item)
    ensures MatchesDelivery(r, item) <==> Status.NormalizeDelivery(r.deliveryStatus) == item
    ensures r.deliveryStatus == item ==> MatchesDelivery(r, item)
  {
    Status.KotlinFixesCategory(item);
  }

  /** The category options have no surrounding whitespace and differ from the "all" option. */
  lemma OptionsAreTrimmed(item: string)
    requires item in DeliveryOptions[1..]
    ensures Trim(item, IsKotlinWhitespace) == item
    ensures item != AnyDelivery && Status.IsCategory(item)
  {
    assert item == Status.Collected || item == Status.Cancelled || item == Status.Waiting || item == Status.Withdrawn;
    assert item[0] != AnyDelivery[0];
    EndsTrimmed(item);
  }

  lemma EndsTrimmed(s: string)
    requires s != [] && !IsKotlinWhitespace(s[0]) && !IsKotlinWhitespace(s[|s| - 1])
    ensures Trim(s, IsKotlinWhitespace) == s
  {
    assert Trimmed(s, IsKotlinWhitespace);
  }
}

=== FILE: int32.dfy ===
/**
  Kotlin `Int` arithmetic: 32-bit two's-complement values whose `+`, `-` and
  `*` wrap around, and whose `/` and `%` truncate toward zero (Dafny's own
  operators are unbounded and Euclidean).
 */
module Int32 {

  const Min: int := -0x8000_0000
  const Max: int := 0x7FFF_FFFF
  const Modulus: int := 0x1_0000_0000

  predicate InRange(x: int) {
    Min <= x <= Max
  }

  /** The `Int` a Kotlin operation yields when its exact result is `x`. */
  function Wrap(x: int): (r: int)
    ensures InRange(r)
    ensures (x - r) % Modulus == 0
    ensures InRange(x) ==> r == x
  {
    if InRange(x) then x else (x - Min) % Modulus + Min
  }

  /** Kotlin `a / b` for a positive divisor: the quotient truncated toward zero. */
  function KDiv(a: int, b: int): (q: int)
    requires b > 0
    ensures (a >= 0 ==> q >= 0) && (a <= 0 ==> q <= 0)
  {
    if a >= 0 then a / b else -((-a) / b)
  }

  /** Kotlin `a % b` for a positive divisor: the remainder takes the sign of `a`. */
  function KMod(a: int, b: int): (r: int)
    requires b > 0
    ensures a == b * KDiv(a, b) + r
    ensures -b < r < b
    ensures a >= 0 ==> 0 <= r
    ensures a <= 0 ==> r <= 0
  {
    a - b * KDiv(a, b)
  }

  /** Quotient and remainder are unique: `x == d q + r` with `0 <= r < d` fixes both. */
  lemma DivModOf(x: int, d: int, q: int, r: int)
    requires d > 0 && 0 <= r < d && x == d * q + r
    ensures x / d == q && x % d == r
  {
    var q', r' := x / d, x % d;
    assert d * q + r == d * q' + r';
    if q > q' {
      MulAtLeast(d, q - q');
    } else if q < q' {
      MulAtLeast(d, q' - q);
    }
  }

  lemma {:induction false} MulAtLeast(d: int, k: int)
    requires d > 0 && k >= 1
    ensures d * k >= d
    decreases k
  {
    if k > 1 {
      MulAtLeast(d, k - 1);
      assert d * k == d * (k - 1) + d;
    }
  }

  /** The same uniqueness for Kotlin's operators on a non-negative dividend. */
  lemma KDivOf(x: int, d: int, q: int, r: int)
    requires d > 0 && x >= 0 && 0 <= r < d && x == d * q + r
    ensures KDiv(x, d) == q && KMod(x, d) == r
  {
    DivModOf(x, d, q, r);
  }

  /** A truncating remainder is zero exactly when the Euclidean one is. */
  lemma KModZero(a: int, b: int)
    requires b > 0
    ensures KMod(a, b) == 0 <==> a % b == 0
  {
    if KMod(a, b) == 0 {
      DivModOf(a, b, KDiv(a, b), 0);
    }
    if a % b == 0 && a < 0 {
      DivModOf(-a, b, -(a / b), 0);
    }
  }

  /** The truncating pair agrees with Dafny's Euclidean pair on non-negative dividends. */
  lemma TruncationMatchesOnNonNegative(a: int, b: int)
    requires a >= 0 && b > 0
    ensures KDiv(a, b) == a / b && KMod(a, b) == a % b
  {
  }

  /**
    For a negative dividend that is not a multiple of `b` they differ: the
    truncated quotient is one above the floored one, and the remainder is
    negative (`(-1) % 2820` is `-1` in Kotlin, `2819` in Dafny).
   */
  lemma TruncationOnNegative(a: int, b: int)
    requires b > 0 && a < 0 && a % b != 0
    ensures KDiv(a, b) == a / b + 1
    ensures KMod(a, b) == a % b - b
  {
    var q, r := a / b, a % b;
    assert -a == b * (-q - 1) + (b - r);
    DivModOf(-a, b, -q - 1, b - r);
  }
}

=== FILE: ordered_maps.dfy ===
/**
  An insertion-ordered map, the shape of Kotlin's `LinkedHashMap` (and of a
  JavaScript `Map`): writing an existing key replaces its value in place,
  writing a new key appends it, removing a key drops it from the order.
  Every such map in the app is keyed by strings.
 */
module OrderedMaps {
  import opened Wrappers

  datatype OrderedMap<V> = OrderedMap(keys: seq<string>, entries: map<string, V>)

  predicate Distinct(s: seq<string>) {
    forall i, j :: 0 <= i < j < |s| ==> s[i] != s[j]
  }

  /** The order lists every key exactly once and nothing else. */
  ghost predicate Valid<V>(m: OrderedMap<V>) {
    && Distinct(m.keys)
    && (forall k :: k in m.entries <==> k in m.keys)
  }

  function Empty<V>(): (m: OrderedMap<V>)
    ensures Valid(m) && m.keys == []
  {
    OrderedMap([], map[])
  }

  function Get<V>(m: OrderedMap<V>, k: string): Option<V> {
    if k in m.entries then Some(m.entries[k]) else None
  }

  /** `m[k] = v`: an existing key keeps its position, a new key goes last. */
  function Put<V>(m: OrderedMap<V>, k: string, v: V): (m': OrderedMap<V>)
    requires Valid(m)
    ensures Valid(m')
    ensures m'.entries == m.entries[k := v]
    ensures k in m.entries ==> m'.keys == m.keys
    ensures k !in m.entries ==> m'.keys == m.keys + [k]
  {
    if k in m.entries then OrderedMap(m.keys, m.entries[k := v])
    else OrderedMap(m.keys + [k], m.entries[k := v])
  }

  function RemoveFrom(s: seq<string>, k: string): (r: seq<string>)
    ensures forall x :: x in r <==> x in s && x != k
    ensures Distinct(s) ==> Distinct(r)
    ensures k !in s ==> r == s
    ensures |r| <= |s|
    decreases |s|
  {
    if s == [] then []
    else if s[0] == k then RemoveFrom(s[1..], k)
    else
      var rest := RemoveFrom(s[1..], k);
      assert forall j :: 0 <= j < |s| - 1 ==> s[1..][j] == s[j + 1];
      assert Distinct(s) ==> Distinct(s[1..]) && s[0] !in s[1..];
      var r := [s[0]] + rest;
      assert forall i :: 1 <= i < |r| ==> r[i] == rest[i - 1];
      r
  }

  /** `m.remove(k)`: the key leaves the order, the others keep theirs. */
  function Remove<V>(m: OrderedMap<V>, k: string): (m': OrderedMap<V>)
    requires Valid(m)
    ensures Valid(m')
    ensures m'.entries == m.entries - {k}
    ensures k !in m.entries ==> m' == m
  {
    OrderedMap(RemoveFrom(m.keys, k), m.entries - {k})
  }

  /** `m.values.toList()`: the values in key order. */
  function Values<V>(m: OrderedMap<V>): (vs: seq<V>)
    requires Valid(m)
    ensures |vs| == |m.keys|
    ensures forall i :: 0 <= i < |vs| ==> vs[i] == m.entries[m.keys[i]]
  {
    seq(|m.keys|, i requires 0 <= i < |m.keys| => m.entries[m.keys[i]])
  }

  /** Writing a new key adds its value at the end of `Values`. */
  lemma ValuesPutNew<V>(m: OrderedMap<V>, k: string, v: V)
    requires Valid(m) && k !in m.entries
    ensures Values(Put(m, k, v)) == Values(m) + [v]
  {
    assert forall i :: 0 <= i < |m.keys| ==> m.keys[i] != k;
  }

  /** Every stored value is listed by `Values`. */
  lemma ValuesContains<V>(m: OrderedMap<V>, k: string)
    requires Valid(m) && k in m.entries
    ensures m.entries[k] in Values(m)
  {
    var i :| 0 <= i < |m.keys| && m.keys[i] == k;
    assert Values(m)[i] == m.entries[k];
  }

  // ---------------------------------------------------------------------------
  // Insertion order of a sequence of keys
  // ---------------------------------------------------------------------------

  ghost function Elems(s: seq<string>): set<string> {
    set x | x in s
  }

  /** Each distinct element once, in order of first occurrence. */
  function FirstOccurrences(s: seq<string>): (r: seq<string>)
    ensures Distinct(r)
    ensures forall x :: x in r <==> x in s
    decreases |s|
  {
    if s == [] then []
    else
      var p := FirstOccurrences(s[..|s| - 1]);
      var x := s[|s| - 1];
      assert forall y :: y in s <==> y in s[..|s| - 1] || y == x by {
        assert s == s[..|s| - 1] + [x];
      }
      if x in p then p else p + [x]
  }

  lemma {:induction false} DistinctCardinality(s: seq<string>)
    requires Distinct(s)
    ensures |Elems(s)| == |s|
    decreases |s|
  {
    if s != [] {
      var p := s[..|s| - 1];
      assert Distinct(p);
      DistinctCardinality(p);
      assert s == p + [s[|s| - 1]];
      assert Elems(s) == Elems(p) + {s[|s| - 1]};
    }
  }

  /** Appending elements already present changes nothing. */
  lemma {:induction false} FirstOccurrencesAbsorb(a: seq<string>, b: seq<string>)
    requires forall x :: x in b ==> x in a
    ensures FirstOccurrences(a + b) == FirstOccurrences(a)
    decreases |b|
  {
    if b != [] {
      var s := a + b;
      assert s[..|s| - 1] == a + b[..|b| - 1];
      FirstOccurrencesAbsorb(a, b[..|b| - 1]);
    } else {
      assert a + b == a;
    }
  }

  lemma {:induction false} FirstOccurrencesOfDistinct(s: seq<string>)
    requires Distinct(s)
    ensures FirstOccurrences(s) == s
    decreases |s|
  {
    if s != [] {
      var p := s[..|s| - 1];
      assert Distinct(p);
      FirstOccurrencesOfDistinct(p);
      assert s == p + [s[|s| - 1]];
    }
  }
}

=== FILE: record_store.dfy ===
/**
  The record store (RecordStore.kt): the persisted blob is a sequence of
  string-valued field maps; `load` decodes it, `save` replaces it, and the
  merge engine `upsertAll` reconciles a freshly scraped batch with it while
  keeping the operator's fields.
 */
module RecordStore {
  import opened Wrappers
  import opened Records
  import opened OrderedMaps

  // ---------------------------------------------------------------------------
  // Record <-> JSON object
  // ---------------------------------------------------------------------------

  /** One persisted JSON object. `save` only ever writes string values. */
  type FieldMap = map<string, string>

  /** `optString(key, fallback)` on an object holding only strings. */
  function OptString(obj: FieldMap, key: string, fallback: string): string {
    if key in obj then obj[key] else fallback
  }

  /** `RecordStatus.valueOf(name)` inside `runCatching`, defaulting to PENDING. */
  function StatusFromName(name: string): (s: RecordStatus)
    ensures Name(s) == name || (s == Pending && name != "ACCEPTED" && name != "REJECTED")
  {
    if name == "ACCEPTED" then Accepted
    else if name == "REJECTED" then Rejected
    else Pending
  }

  /** `CustomerRecord.toJson()`. */
  function ToJson(r: CustomerRecord): FieldMap {
    map[
      "name" := r.name,
      "mobile" := r.mobile,
      "phone" := r.phone,
      "province" := r.province,
      "city" := r.city,
      "postalCode" := r.postalCode,
      "address" := r.address,
      "notes" := r.notes,
      "registeredAt" := r.registeredAt,
      "seller" := r.seller,
      "deliveryStatus" := r.deliveryStatus,
      "operatorNotes" := r.operatorNotes,
      "status" := Name(r.status)]
  }

  /** `JSONObject.toRecord()`: missing fields read as "", a missing or unknown status as PENDING. */
  function ToRecord(obj: FieldMap): (r: CustomerRecord)
    ensures "status" !in obj ==> r.status == Pending
    ensures "status" in obj ==> r.status == StatusFromName(obj["status"])
    ensures "name" !in obj ==> r.name == ""
    ensures "operatorNotes" !in obj ==> r.operatorNotes == ""
  {
    CustomerRecord(
      name := OptString(obj, "name", ""),
      mobile := OptString(obj, "mobile", ""),
      phone := OptString(obj, "phone", ""),
      province := OptString(obj, "province", ""),
      city := OptString(obj, "city", ""),
      postalCode := OptString(obj, "postalCode", ""),
      address := OptString(obj, "address", ""),
      notes := OptString(obj, "notes", ""),
      registeredAt := OptString(obj, "registeredAt", ""),
      seller := OptString(obj, "seller", ""),
      deliveryStatus := OptString(obj, "deliveryStatus", ""),
      operatorNotes := OptString(obj, "operatorNotes", ""),
      status := StatusFromName(OptString(obj, "status", Name(Pending))))
  }

  /** Reading back what `toJson` wrote gives the record itself, field for field. */
  lemma {:induction false} RecordRoundTrip(r: CustomerRecord)
    ensures ToRecord(ToJson(r)) == r
  {
    var obj := ToJson(r);
    StatusNameRoundTrip(r.status);
    JsonContactFields(r, obj);
    JsonOrderFields(r, obj);
  }

  /** `valueOf(name)` reads back every status's own name. */
  lemma StatusNameRoundTrip(s: RecordStatus)
    ensures StatusFromName(Name(s)) == s
  {
  }

  /** Each field of `toJson` is found under its own key: the customer's contact fields. */
  lemma JsonContactFields(r: CustomerRecord, obj: FieldMap)
    requires obj == ToJson(r)
    ensures OptString(obj, "name", "") == r.name && OptString(obj, "mobile", "") == r.mobile
    ensures OptString(obj, "phone", "") == r.phone && OptString(obj, "province", "") == r.province
    ensures OptString(obj, "city", "") == r.city && OptString(obj, "postalCode", "") == r.postalCode
    ensures OptString(obj, "address", "") == r.address
  {
  }

  /** Each field of `toJson` is found under its own key: the order's fields. */
  lemma JsonOrderFields(r: CustomerRecord, obj: FieldMap)
    requires obj == ToJson(r)
    ensures OptString(obj, "notes", "") == r.notes
    ensures OptString(obj, "registeredAt", "") == r.registeredAt && OptString(obj, "seller", "") == r.seller
    ensures OptString(obj, "deliveryStatus", "") == r.deliveryStatus
    ensures OptString(obj, "operatorNotes", "") == r.operatorNotes
    ensures OptString(obj, "status", Name(Pending)) == Name(r.status)
  {
  }

  /** An object whose status is anything but one of the three enum names loads as PENDING. */
  lemma {:induction false} UnknownStatusLoadsPending(obj: FieldMap)
    requires "status" in obj ==> obj["status"] !in {"PENDING", "ACCEPTED", "REJECTED"}
    ensures ToRecord(obj).status == Pending
  {
  }

  /** The whole blob written by `save`. */
  function Save(records: seq<CustomerRecord>): (blob: seq<FieldMap>)
    ensures |blob| == |records|
    ensures forall i :: 0 <= i < |records| ==> blob[i] == ToJson(records[i])
  {
    seq(|records|, i requires 0 <= i < |records| => ToJson(records[i]))
  }

  /** `load()`: an absent blob is the empty list, otherwise each object is decoded in order. */
  function Load(blob: Option<seq<FieldMap>>): (records: seq<CustomerRecord>)
    ensures blob.None? ==> records == []
    ensures blob.Some? ==> |records| == |blob.value|
    ensures blob.Some? ==> forall i :: 0 <= i < |records| ==> records[i] == ToRecord(blob.value[i])
  {
    match blob
    case None => []
    case Some(objs) => seq(|objs|, i requires 0 <= i < |objs| => ToRecord(objs[i]))
  }

  /** Loading what was saved gives back the same list. */
  lemma {:induction false} LoadAfterSave(records: seq<CustomerRecord>)
    ensures Load(Some(Save(records))) == records
  {
    forall i | 0 <= i < |records| {
      RecordRoundTrip(records[i]);
    }
  }

  // ---------------------------------------------------------------------------
  // Sequences of keys
  // ---------------------------------------------------------------------------

  function KeysOf(records: seq<CustomerRecord>): (ks: seq<string>)
    ensures |ks| == |records|
    ensures forall i :: 0 <= i < |records| ==> ks[i] == Key(records[i])
  {
    seq(|records|, i requires 0 <= i < |records| => Key(records[i]))
  }

  lemma {:induction false} KeysOfPrefix(records: seq<CustomerRecord>, n: nat)
    requires n <= |records|
    ensures KeysOf(records[..n]) == KeysOf(records)[..n]
  {
  }

  lemma {:induction false} KeysOfSnoc(records: seq<CustomerRecord>)
    requires records != []
    ensures KeysOf(records) == KeysOf(records[..|records| - 1]) + [Key(records[|records| - 1])]
  {
    KeysOfPrefix(records, |records| - 1);
    var ks := KeysOf(records);
    assert ks == ks[..|ks| - 1] + [ks[|ks| - 1]];
  }

  /** The position of the first `x` in `s`. */
  function IndexOf(s: seq<string>, x: string): (i: nat)
    requires x in s
    ensures i < |s| && s[i] == x
    decreases |s|
  {
    if s[0] == x then 0 else 1 + IndexOf(s[1..], x)
  }

  // ---------------------------------------------------------------------------
  // Reference description of a merge
  // ---------------------------------------------------------------------------

  /** The last record of `records` whose key is `k` (what `associateBy` keeps). */
  function LastWithKey(records: seq<CustomerRecord>, k: string): (r: Option<CustomerRecord>)
    ensures r.Some? <==> k in KeysOf(records)
    ensures r.Some? ==> Key(r.value) == k && r.value in records
    decreases |records|
  {
    if records == [] then None
    else
      var last := records[|records| - 1];
      KeysOfSnoc(records);
      if Key(last) == k then Some(last) else LastWithKey(records[..|records| - 1], k)
  }

  /** The first record of `records` whose key is `k`. */
  function FirstWithKey(records: seq<CustomerRecord>, k: string): (r: Option<CustomerRecord>)
    ensures r.Some? <==> k in KeysOf(records)
    ensures r.Some? ==> Key(r.value) == k
    decreases |records|
  {
    if records == [] then None
    else
      var last := records[|records| - 1];
      KeysOfSnoc(records);
      var earlier := FirstWithKey(records[..|records| - 1], k);
      if earlier.Some? then earlier
      else if Key(last) == k then Some(last)
      else None
  }

  /** `r` with the operator's fields taken from `owner`. */
  function WithOperatorFields(r: CustomerRecord, owner: CustomerRecord): CustomerRecord {
    r.(status := owner.status, operatorNotes := owner.operatorNotes)
  }

  /**
    What a merge should store under key `k`, stated without the loop: the
    scraped fields of the last incoming record with that key, and the operator
    fields of the stored record, or of the first incoming record when the key
    is new; a key no incoming record has keeps its stored record.
   */
  ghost function Expected(stored: map<string, CustomerRecord>, incoming: seq<CustomerRecord>, k: string): CustomerRecord
    requires k in stored || k in KeysOf(incoming)
  {
    match LastWithKey(incoming, k)
    case None => stored[k]
    case Some(r) =>
      var owner := if k in stored then stored[k] else FirstWithKey(incoming, k).value;
      WithOperatorFields(r, owner)
  }

  // ---------------------------------------------------------------------------
  // upsertAll
  // ---------------------------------------------------------------------------

  /** Every entry is stored under its own key. */
  ghost predicate KeyConsistent(m: OrderedMap<CustomerRecord>) {
    forall k :: k in m.entries ==> Key(m.entries[k]) == k
  }

  /** `existing.associateBy { it.key() }.toMutableMap()`: first position, last value per key. */
  function IndexByKey(records: seq<CustomerRecord>): (m: OrderedMap<CustomerRecord>)
    ensures Valid(m) && KeyConsistent(m)
    ensures m.keys == FirstOccurrences(KeysOf(records))
    ensures forall k :: k in m.entries ==> LastWithKey(records, k) == Some(m.entries[k])
    decreases |records|
  {
    if records == [] then Empty()
    else
      var n := |records| - 1;
      var r := records[n];
      var m := IndexByKey(records[..n]);
      KeysOfPrefix(records, n);
      assert KeysOf(records)[..n] == KeysOf(records)[..|KeysOf(records)| - 1];
      Put(m, Key(r), r)
  }

  /** One pass of the loop body in `upsertAll`. */
  function MergeStep(m: OrderedMap<CustomerRecord>, added: nat, r: CustomerRecord): (res: (OrderedMap<CustomerRecord>, nat))
    requires Valid(m) && KeyConsistent(m)
    ensures Valid(res.0) && KeyConsistent(res.0)
  {
    var k := Key(r);
    if k in m.entries then
      (Put(m, k, WithOperatorFields(r, m.entries[k])), added)
    else
      (Put(m, k, r), added + 1)
  }

  /** The loop of `upsertAll` over the incoming batch, left to right. */
  function Merge(m0: OrderedMap<CustomerRecord>, incoming: seq<CustomerRecord>): (res: (OrderedMap<CustomerRecord>, nat))
    requires Valid(m0) && KeyConsistent(m0)
    ensures Valid(res.0) && KeyConsistent(res.0)
    decreases |incoming|
  {
    if incoming == [] then (m0, 0)
    else
      var prev := Merge(m0, incoming[..|incoming| - 1]);
      MergeStep(prev.0, prev.1, incoming[|incoming| - 1])
  }

  /** Keys after merging: those of `m0` (listed as `a`), then the new incoming keys, in order. */
  lemma {:induction false} MergeKeys(m0: OrderedMap<CustomerRecord>, a: seq<string>, incoming: seq<CustomerRecord>)
    requires Valid(m0) && KeyConsistent(m0) && m0.keys == FirstOccurrences(a)
    ensures Merge(m0, incoming).0.keys == FirstOccurrences(a + KeysOf(incoming))
    ensures Merge(m0, incoming).1 == |FirstOccurrences(a + KeysOf(incoming))| - |FirstOccurrences(a)|
    decreases |incoming|
  {
    if incoming == [] {
      assert a + KeysOf(incoming) == a;
    } else {
      var n := |incoming| - 1;
      var r := incoming[n];
      MergeKeys(m0, a, incoming[..n]);
      KeysOfPrefix(incoming, n);
      var prev := Merge(m0, incoming[..n]);
      var p := a + KeysOf(incoming[..n]);
      var s := a + KeysOf(incoming);
      KeysOfSnoc(incoming);
      assert s == p + [Key(r)];
      assert s[..|s| - 1] == p;
      assert Merge(m0, incoming) == MergeStep(prev.0, prev.1, r);
      assert (Key(r) in prev.0.entries) == (Key(r) in FirstOccurrences(p));
      assert FirstOccurrences(s) == if Key(r) in FirstOccurrences(p) then FirstOccurrences(p) else FirstOccurrences(p) + [Key(r)];
    }
  }

  /** Values after merging agree with the reference description `Expected`. */
  lemma {:induction false} MergeValues(m0: OrderedMap<CustomerRecord>, incoming: seq<CustomerRecord>)
    requires Valid(m0) && KeyConsistent(m0)
    ensures forall k :: k in Merge(m0, incoming).0.entries <==> k in m0.entries || k in KeysOf(incoming)
    ensures forall k :: k in Merge(m0, incoming).0.entries ==>
      Merge(m0, incoming).0.entries[k] == Expected(m0.entries, incoming, k)
    decreases |incoming|
  {
    if incoming != [] {
      var n := |incoming| - 1;
      var pre := incoming[..n];
      var r := incoming[n];
      MergeValues(m0, pre);
      KeysOfSnoc(incoming);
      var m := Merge(m0, pre).0;
      var m' := Merge(m0, incoming).0;
      forall k | k in m'.entries
        ensures m'.entries[k] == Expected(m0.entries, incoming, k)
      {
        if k != Key(r) {
          assert m'.entries[k] == m.entries[k];
          assert LastWithKey(incoming, k) == LastWithKey(pre, k);
          assert FirstWithKey(incoming, k) == FirstWithKey(pre, k);
        } else {
          assert LastWithKey(incoming, k) == Some(r);
          if k in m0.entries {
            assert m.entries[k] == Expected(m0.entries, pre, k);
          } else if k in m.entries {
            assert k in KeysOf(pre);
            assert FirstWithKey(incoming, k) == FirstWithKey(pre, k);
            assert m.entries[k] == Expected(m0.entries, pre, k);
          } else {
            assert k !in KeysOf(pre);
            assert FirstWithKey(incoming, k) == Some(r);
          }
        }
      }
    }
  }

  /** What `upsertAll` returns: the merged list (which also becomes the stored blob) and the added count. */
  datatype StoreResult = StoreResult(records: seq<CustomerRecord>, addedCount: nat)

  /**
    `upsertAll(incoming)` against the list `stored` that `load()` returned.
    The resulting list replaces the store.
   */
  function UpsertAll(stored: seq<CustomerRecord>, incoming: seq<CustomerRecord>): (res: StoreResult)
    ensures KeysOf(res.records) == FirstOccurrences(KeysOf(stored) + KeysOf(incoming))
    ensures res.addedCount == |Elems(KeysOf(incoming)) - Elems(KeysOf(stored))|
  {
    var m0 := IndexByKey(stored);
    var merged := Merge(m0, incoming);
    MergedParts(stored, incoming, m0, merged);
    StoreResult(Values(merged.0), merged.1)
  }

  lemma MergedParts(stored: seq<CustomerRecord>, incoming: seq<CustomerRecord>, m0: OrderedMap<CustomerRecord>, merged: (OrderedMap<CustomerRecord>, nat))
    requires m0 == IndexByKey(stored) && merged == Merge(m0, incoming)
    ensures Valid(merged.0)
    ensures KeysOf(Values(merged.0)) == FirstOccurrences(KeysOf(stored) + KeysOf(incoming))
    ensures merged.1 == |Elems(KeysOf(incoming)) - Elems(KeysOf(stored))|
  {
    MergeKeys(m0, KeysOf(stored), incoming);
    AddedIsNewKeys(KeysOf(stored), KeysOf(incoming));
    KeysOfValues(merged.0);
  }

  lemma KeysOfValues(m: OrderedMap<CustomerRecord>)
    requires Valid(m) && KeyConsistent(m)
    ensures KeysOf(Values(m)) == m.keys
  {
  }

  /** Each merged record is the one the reference description `Expected` gives for its key. */
  lemma {:induction false} UpsertValues(stored: seq<CustomerRecord>, incoming: seq<CustomerRecord>, i: nat)
    requires i < |UpsertAll(stored, incoming).records|
    ensures Key(UpsertAll(stored, incoming).records[i]) in IndexByKey(stored).entries
         || Key(UpsertAll(stored, incoming).records[i]) in KeysOf(incoming)
    ensures UpsertAll(stored, incoming).records[i]
         == Expected(IndexByKey(stored).entries, incoming, Key(UpsertAll(stored, incoming).records[i]))
  {
    var m0 := IndexByKey(stored);
    MergedValueAt(m0, incoming, Merge(m0, incoming).0, i);
  }

  lemma MergedValueAt(m0: OrderedMap<CustomerRecord>, incoming: seq<CustomerRecord>, m: OrderedMap<CustomerRecord>, i: nat)
    requires Valid(m0) && KeyConsistent(m0)
    requires m == Merge(m0, incoming).0 && i < |m.keys|
    ensures Key(Values(m)[i]) in m0.entries || Key(Values(m)[i]) in KeysOf(incoming)
    ensures Values(m)[i] == Expected(m0.entries, incoming, Key(Values(m)[i]))
  {
    MergeValues(m0, incoming);
    assert m.keys[i] in m.entries;
  }

  lemma {:induction false} AddedIsNewKeys(a: seq<string>, b: seq<string>)
    ensures |FirstOccurrences(a + b)| - |FirstOccurrences(a)| == |Elems(b) - Elems(a)|
  {
    DistinctCardinality(FirstOccurrences(a + b));
    DistinctCardinality(FirstOccurrences(a));
    assert Elems(FirstOccurrences(a + b)) == Elems(a) + (Elems(b) - Elems(a));
    assert Elems(FirstOccurrences(a)) == Elems(a);
  }

  // ---------------------------------------------------------------------------
  // Properties of upsertAll
  // ---------------------------------------------------------------------------

  /** The merged list holds each key once: no record is duplicated and none is dropped. */
  lemma {:induction false} UpsertKeysUnion(stored: seq<CustomerRecord>, incoming: seq<CustomerRecord>)
    ensures Distinct(KeysOf(UpsertAll(stored, incoming).records))
    ensures forall k :: k in KeysOf(UpsertAll(stored, incoming).records) <==> k in KeysOf(stored) || k in KeysOf(incoming)
  {
    var s := KeysOf(stored) + KeysOf(incoming);
    assert forall k :: k in s <==> k in KeysOf(stored) || k in KeysOf(incoming);
  }

  /** A stored key that is scraped again keeps the operator's status and notes. */
  lemma {:induction false} UpsertKeepsOperatorFields(stored: seq<CustomerRecord>, incoming: seq<CustomerRecord>, i: nat)
    requires i < |UpsertAll(stored, incoming).records|
    requires Key(UpsertAll(stored, incoming).records[i]) in KeysOf(stored)
    ensures UpsertAll(stored, incoming).records[i].status == LastWithKey(stored, Key(UpsertAll(stored, incoming).records[i])).value.status
    ensures UpsertAll(stored, incoming).records[i].operatorNotes == LastWithKey(stored, Key(UpsertAll(stored, incoming).records[i])).value.operatorNotes
  {
    var rec := UpsertAll(stored, incoming).records[i];
    var k := Key(rec);
    var m0 := IndexByKey(stored);
    assert k in FirstOccurrences(KeysOf(stored));
    assert k in m0.entries;
    assert LastWithKey(stored, k) == Some(m0.entries[k]);
    UpsertValues(stored, incoming, i);
    assert rec == Expected(m0.entries, incoming, k);
    assert rec.status == m0.entries[k].status && rec.operatorNotes == m0.entries[k].operatorNotes;
  }

  /** Upserting one record with a known key adds nothing and keeps the key order. */
  lemma {:induction false} UpsertKnownKeys(stored: seq<CustomerRecord>, r: CustomerRecord)
    requires Key(r) in KeysOf(stored)
    ensures UpsertAll(stored, [r]).addedCount == 0
    ensures KeysOf(UpsertAll(stored, [r]).records) == FirstOccurrences(KeysOf(stored))
  {
    var k := Key(r);
    assert KeysOf([r]) == [k];
    assert Elems([k]) - Elems(KeysOf(stored)) == {};
    FirstOccurrencesAbsorb(KeysOf(stored), [k]);
  }

  /** Upserting one record with a known key stores its scraped fields with the operator fields kept. */
  lemma {:induction false} UpsertKnownRecord(stored: seq<CustomerRecord>, r: CustomerRecord)
    requires Key(r) in KeysOf(stored)
    ensures WithOperatorFields(r, LastWithKey(stored, Key(r)).value) in UpsertAll(stored, [r]).records
  {
    var m0 := IndexByKey(stored);
    assert Key(r) in m0.entries;
    KnownKeyMerge(m0, r, Merge(m0, [r]));
  }

  lemma KnownKeyMerge(m0: OrderedMap<CustomerRecord>, r: CustomerRecord, merged: (OrderedMap<CustomerRecord>, nat))
    requires Valid(m0) && KeyConsistent(m0) && Key(r) in m0.entries
    requires merged == Merge(m0, [r])
    ensures Valid(merged.0)
    ensures WithOperatorFields(r, m0.entries[Key(r)]) in Values(merged.0)
  {
    MergeSingle(m0, r);
    ValuesContains(merged.0, Key(r));
  }

  /** Upserting one record with a new key appends it after the stored records. */
  lemma {:induction false} UpsertNewRecord(stored: seq<CustomerRecord>, r: CustomerRecord)
    requires Key(r) !in KeysOf(stored)
    ensures UpsertAll(stored, [r]).addedCount == 1
    ensures UpsertAll(stored, [r]).records == Values(IndexByKey(stored)) + [r]
  {
    var m0 := IndexByKey(stored);
    NewKeyMerge(m0, r, Merge(m0, [r]));
  }

  lemma NewKeyMerge(m0: OrderedMap<CustomerRecord>, r: CustomerRecord, merged: (OrderedMap<CustomerRecord>, nat))
    requires Valid(m0) && KeyConsistent(m0) && Key(r) !in m0.keys
    requires merged == Merge(m0, [r])
    ensures merged.1 == 1 && Values(merged.0) == Values(m0) + [r]
  {
    MergeSingle(m0, r);
    ValuesPutNew(m0, Key(r), r);
  }

  lemma {:induction false} MergeSingle(m0: OrderedMap<CustomerRecord>, r: CustomerRecord)
    requires Valid(m0) && KeyConsistent(m0)
    ensures Merge(m0, [r]) == MergeStep(m0, 0, r)
  {
    assert [r][..0] == [];
  }

  /** Scraping the same batch twice adds nothing the second time and leaves the store as it was. */
  lemma {:induction false} UpsertTwice(stored: seq<CustomerRecord>, batch: seq<CustomerRecord>)
    ensures UpsertAll(UpsertAll(stored, batch).records, batch).addedCount == 0
    ensures UpsertAll(UpsertAll(stored, batch).records, batch).records == UpsertAll(stored, batch).records
  {
    var first := UpsertAll(stored, batch).records;
    UpsertTwiceKeys(stored, batch, first, UpsertAll(first, batch).records);
    UpsertTwiceRecords(stored, batch);
  }

  lemma UpsertTwiceRecords(stored: seq<CustomerRecord>, batch: seq<CustomerRecord>)
    ensures UpsertAll(UpsertAll(stored, batch).records, batch).records == UpsertAll(stored, batch).records
  {
    var first := UpsertAll(stored, batch).records;
    var second := UpsertAll(first, batch).records;
    UpsertTwiceLength(stored, batch);
    forall i: nat | i < |second|
      ensures second[i] == first[i]
    {
      UpsertTwiceAt(stored, batch, i);
    }
    SamePointwise(second, first);
  }

  lemma UpsertTwiceLength(stored: seq<CustomerRecord>, batch: seq<CustomerRecord>)
    ensures |UpsertAll(UpsertAll(stored, batch).records, batch).records| == |UpsertAll(stored, batch).records|
  {
    var first := UpsertAll(stored, batch).records;
    UpsertTwiceKeys(stored, batch, first, UpsertAll(first, batch).records);
  }

  lemma SamePointwise(a: seq<CustomerRecord>, b: seq<CustomerRecord>)
    requires |a| == |b| && forall i :: 0 <= i < |a| ==> a[i] == b[i]
    ensures a == b
  {
  }

  /** The keys of the first scrape's result and the second scrape's are the same distinct list. */
  lemma UpsertTwiceKeys(stored: seq<CustomerRecord>, batch: seq<CustomerRecord>, first: seq<CustomerRecord>, second: seq<CustomerRecord>)
    requires first == UpsertAll(stored, batch).records && second == UpsertAll(first, batch).records
    ensures UpsertAll(first, batch).addedCount == 0
    ensures Distinct(KeysOf(first)) && KeysOf(second) == KeysOf(first) && |second| == |first|
  {
    UpsertKeysUnion(stored, batch);
    assert Elems(KeysOf(batch)) - Elems(KeysOf(first)) == {};
    FirstOccurrencesAbsorb(KeysOf(first), KeysOf(batch));
    FirstOccurrencesOfDistinct(KeysOf(first));
  }

  /** The record at one position is the same after the second scrape. */
  lemma UpsertTwiceAt(stored: seq<CustomerRecord>, batch: seq<CustomerRecord>, i: nat)
    requires i < |UpsertAll(UpsertAll(stored, batch).records, batch).records| == |UpsertAll(stored, batch).records|
    ensures UpsertAll(UpsertAll(stored, batch).records, batch).records[i] == UpsertAll(stored, batch).records[i]
  {
    var first := UpsertAll(stored, batch).records;
    var second := UpsertAll(first, batch).records;
    UpsertTwiceKeys(stored, batch, first, second);
    var k := Key(first[i]);
    assert Key(second[i]) == KeysOf(second)[i] == k;
    UpsertValues(stored, batch, i);
    UpsertValues(first, batch, i);
    IndexOfDistinct(first, i);
    ExpectedAgain(IndexByKey(stored).entries, IndexByKey(first).entries, batch, k, first[i]);
  }

  /** In a list with distinct keys, each record is what `associateBy` keeps for its key. */
  lemma IndexOfDistinct(records: seq<CustomerRecord>, i: nat)
    requires i < |records| && Distinct(KeysOf(records))
    ensures Key(records[i]) in IndexByKey(records).entries
    ensures IndexByKey(records).entries[Key(records[i])] == records[i]
  {
    var m := IndexByKey(records);
    FirstOccurrencesOfDistinct(KeysOf(records));
    assert KeysOf(records)[i] in m.keys;
    LastOfDistinct(records, i);
  }

  /** Merging a record already merged with the same batch gives it back. */
  lemma ExpectedAgain(m0: map<string, CustomerRecord>, m1: map<string, CustomerRecord>, batch: seq<CustomerRecord>, k: string, x: CustomerRecord)
    requires k in m0 || k in KeysOf(batch)
    requires x == Expected(m0, batch, k) && k in m1 && m1[k] == x
    ensures Expected(m1, batch, k) == x
  {
  }

  lemma {:induction false} LastOfDistinct(records: seq<CustomerRecord>, i: nat)
    requires i < |records| && Distinct(KeysOf(records))
    ensures LastWithKey(records, Key(records[i])) == Some(records[i])
    decreases |records|
  {
    var n := |records| - 1;
    KeysOfPrefix(records, n);
    if i < n {
      assert KeysOf(records)[i] != KeysOf(records)[n];
      assert Distinct(KeysOf(records[..n]));
      LastOfDistinct(records[..n], i);
    }
  }

  /** A batch of N records with distinct keys into an empty store adds exactly N. */
  lemma {:induction false} UpsertIntoEmpty(batch: seq<CustomerRecord>)
    requires Distinct(KeysOf(batch))
    ensures UpsertAll([], batch).addedCount == |batch|
  {
    DistinctCardinality(KeysOf(batch));
    assert Elems(KeysOf([])) == {};
  }

  // ---------------------------------------------------------------------------
  // Operator edits
  // ---------------------------------------------------------------------------

  /** The records, with `edit` applied to those whose key is `recordKey`. */
  function EditMatching(records: seq<CustomerRecord>, recordKey: string, edit: CustomerRecord -> CustomerRecord): (updated: seq<CustomerRecord>)
    ensures |updated| == |records|
    ensures forall i :: 0 <= i < |records| && Key(records[i]) != recordKey ==> updated[i] == records[i]
    ensures forall i :: 0 <= i < |records| && Key(records[i]) == recordKey ==> updated[i] == edit(records[i])
  {
    seq(|records|, i requires 0 <= i < |records| =>
      if Key(records[i]) == recordKey then edit(records[i]) else records[i])
  }

  /**
    `updateStatus(records, recordKey, status)`, whose result is also written
    to the store: order and keys stay, every record with the key gets the
    status, and nothing else in any record changes.
   */
  function UpdateStatus(records: seq<CustomerRecord>, recordKey: string, status: RecordStatus): (updated: seq<CustomerRecord>)
    ensures KeysOf(updated) == KeysOf(records)
    ensures forall i :: 0 <= i < |records| ==> updated[i].(status := records[i].status) == records[i]
    ensures forall i :: 0 <= i < |records| && Key(records[i]) == recordKey ==> updated[i].status == status
    ensures forall i :: 0 <= i < |records| && Key(records[i]) != recordKey ==> updated[i] == records[i]
  {
    EditMatching(records, recordKey, (r: CustomerRecord) => r.(status := status))
  }

  /**
    `updateOperatorNotes(records, recordKey, operatorNotes)`, whose result is
    also written to the store: order and keys stay, every record with the key
    gets the notes, and nothing else in any record changes.
   */
  function UpdateOperatorNotes(records: seq<CustomerRecord>, recordKey: string, operatorNotes: string): (updated: seq<CustomerRecord>)
    ensures KeysOf(updated) == KeysOf(records)
    ensures forall i :: 0 <= i < |records| ==> updated[i].(operatorNotes := records[i].operatorNotes) == records[i]
    ensures forall i :: 0 <= i < |records| && Key(records[i]) == recordKey ==> updated[i].operatorNotes == operatorNotes
    ensures forall i :: 0 <= i < |records| && Key(records[i]) != recordKey ==> updated[i] == records[i]
  {
    EditMatching(records, recordKey, (r: CustomerRecord) => r.(operatorNotes := operatorNotes))
  }

  /** An edit for an absent key changes nothing, and applying an edit twice is applying it once. */
  lemma {:induction false} UpdateStatusFrame(records: seq<CustomerRecord>, recordKey: string, status: RecordStatus)
    ensures recordKey !in KeysOf(records) ==> UpdateStatus(records, recordKey, status) == records
    ensures UpdateStatus(UpdateStatus(records, recordKey, status), recordKey, status) == UpdateStatus(records, recordKey, status)
  {
  }

  lemma {:induction false} UpdateOperatorNotesFrame(records: seq<CustomerRecord>, recordKey: string, notes: string)
    ensures recordKey !in KeysOf(records) ==> UpdateOperatorNotes(records, recordKey, notes) == records
    ensures UpdateOperatorNotes(UpdateOperatorNotes(records, recordKey, notes), recordKey, notes) == UpdateOperatorNotes(records, recordKey, notes)
  {
  }

  /** A status the operator sets survives every later scrape of the same customer. */
  lemma {:induction false} StatusSurvivesRescrape(records: seq<CustomerRecord>, recordKey: string, status: RecordStatus, batch: seq<CustomerRecord>)
    requires recordKey in KeysOf(records)
    ensures forall i ::
      (0 <= i < |UpsertAll(UpdateStatus(records, recordKey, status), batch).records| &&
       Key(UpsertAll(UpdateStatus(records, recordKey, status), batch).records[i]) == recordKey) ==>
      UpsertAll(UpdateStatus(records, recordKey, status), batch).records[i].status == status
  {
    var updated := UpdateStatus(records, recordKey, status);
    var res := UpsertAll(updated, batch).records;
    UpdateStatusFrame(records, recordKey, status);
    forall i | 0 <= i < |res| && Key(res[i]) == recordKey
      ensures res[i].status == status
    {
      UpsertKeepsOperatorFields(updated, batch, i);
      var owner := LastWithKey(updated, recordKey).value;
      assert owner in updated && Key(owner) == recordKey;
      var j :| 0 <= j < |updated| && updated[j] == owner;
      assert Key(updated[j]) == recordKey;
    }
  }
}

=== FILE: records.dfy ===
/**
  The customer record, its operator triage status and its identity key
  (RecordModels.kt).
 */
module Records {
  import opened Text

  /** The operator's triage decision on a record. */
  datatype RecordStatus = Pending | Accepted | Rejected

  const AllStatuses: seq<RecordStatus> := [Pending, Accepted, Rejected]

  /** The Persian label shown for a status. */
  function Label(s: RecordStatus): string {
    match s
    case Pending => "در انتظار بررسی"
    case Accepted => "تایید شده"
    case Rejected => "رد شده"
  }

  /** The enum constant's `name`, which is what the store persists. */
  function Name(s: RecordStatus): string {
    match s
    case Pending => "PENDING"
    case Accepted => "ACCEPTED"
    case Rejected => "REJECTED"
  }

  /** Exactly three statuses, pairwise distinct, with pairwise distinct labels and names. */
  lemma StatusesEnumerated(s: RecordStatus, t: RecordStatus)
    ensures s in AllStatuses && |AllStatuses| == 3
    ensures AllStatuses[0] != AllStatuses[1] && AllStatuses[1] != AllStatuses[2] && AllStatuses[0] != AllStatuses[2]
    ensures Label(s) == Label(t) ==> s == t
    ensures Name(s) == Name(t) ==> s == t
  {
  }

  /**
    One customer. `operatorNotes` and `status` belong to the operator; every
    other field comes from the scraped portal page.
   */
  datatype CustomerRecord = CustomerRecord(
    name: string,
    mobile: string,
    phone: string,
    province: string,
    city: string,
    postalCode: string,
    address: string,
    notes: string,
    registeredAt: string,
    seller: string,
    deliveryStatus: string,
    operatorNotes: string,
    status: RecordStatus)

  /** The constructor call that leaves the operator fields at their defaults. */
  function NewRecord(
    name: string, mobile: string, phone: string, province: string, city: string,
    postalCode: string, address: string, notes: string, registeredAt: string,
    seller: string, deliveryStatus: string): (r: CustomerRecord)
    ensures r.status == Pending && r.operatorNotes == ""
    ensures r.name == name && r.mobile == mobile && r.deliveryStatus == deliveryStatus
    ensures r.phone == phone && r.province == province && r.city == city && r.postalCode == postalCode
    ensures r.address == address && r.notes == notes && r.registeredAt == registeredAt && r.seller == seller
  {
    CustomerRecord(name, mobile, phone, province, city, postalCode, address, notes,
                   registeredAt, seller, deliveryStatus, "", Pending)
  }

  /** `key()`: the name followed by the mobile number, with every `\s` character removed. */
  function Key(r: CustomerRecord): (k: string)
    ensures NoneIn(k, IsRegexSpace)
    ensures |k| <= |r.name| + |r.mobile|
  {
    Strip(r.name + r.mobile, IsRegexSpace)
  }

  /** With no whitespace to remove, the key is the plain concatenation. */
  lemma KeyOfCompactFields(r: CustomerRecord)
    requires NoneIn(r.name + r.mobile, IsRegexSpace)
    ensures Key(r) == r.name + r.mobile
  {
  }

  /** Only the name and the mobile number take part in the key. */
  lemma KeyIgnoresOtherFields(r: CustomerRecord, r': CustomerRecord)
    requires r.name == r'.name && r.mobile == r'.mobile
    ensures Key(r) == Key(r')
  {
  }

  /** Names and mobile numbers that agree once whitespace is dropped give the same key. */
  lemma KeyWhitespaceInsensitive(r: CustomerRecord, r': CustomerRecord)
    requires Strip(r.name, IsRegexSpace) == Strip(r'.name, IsRegexSpace)
    requires Strip(r.mobile, IsRegexSpace) == Strip(r'.mobile, IsRegexSpace)
    ensures Key(r) == Key(r')
  {
    StripAppend(r.name, r.mobile, IsRegexSpace);
    StripAppend(r'.name, r'.mobile, IsRegexSpace);
  }

  /** Inserting a run of whitespace anywhere in the name or the mobile number keeps the key. */
  lemma KeyIgnoresInsertedWhitespace(r: CustomerRecord, i: nat, j: nat, w: string, w': string)
    requires i <= |r.name| && j <= |r.mobile|
    requires AllIn(w, IsRegexSpace) && AllIn(w', IsRegexSpace)
    ensures Key(r.(name := r.name[..i] + w + r.name[i..], mobile := r.mobile[..j] + w' + r.mobile[j..])) == Key(r)
  {
    StripInsert(r.name[..i], w, r.name[i..]);
    StripInsert(r.mobile[..j], w', r.mobile[j..]);
    assert r.name[..i] + r.name[i..] == r.name;
    assert r.mobile[..j] + r.mobile[j..] == r.mobile;
    KeyWhitespaceInsensitive(r.(name := r.name[..i] + w + r.name[i..], mobile := r.mobile[..j] + w' + r.mobile[j..]), r);
  }

  lemma StripInsert(a: string, w: string, b: string)
    requires AllIn(w, IsRegexSpace)
    ensures Strip(a + w + b, IsRegexSpace) == Strip(a + b, IsRegexSpace)
  {
    StripAppend(a + w, b, IsRegexSpace);
    StripAppend(a, w, IsRegexSpace);
    StripAppend(a, b, IsRegexSpace);
    StripAllGone(w, IsRegexSpace);
  }

  /**
    The key does not tell where the name ends: splitting the same text
    differently between name and mobile number keeps the key, so two
    different customers can share one.
   */
  lemma KeyIgnoresSplit(r: CustomerRecord, k: nat)
    requires k <= |r.name + r.mobile|
    ensures var s := r.name + r.mobile; Key(r.(name := s[..k], mobile := s[k..])) == Key(r)
  {
    var s := r.name + r.mobile;
    assert s[..k] + s[k..] == s;
  }
}

=== FILE: registry.dfy ===
/**
  The script registry of JavaScriptInjector.kt: named scripts in a
  `LinkedHashMap`, listed in registration order and looked up by name
  when one is injected into the page.
 */
module Registry {
  import opened Wrappers
  import opened OrderedMaps

  /** A registered script: the built-in extraction script, or any other script text. */
  datatype Script = MainExtraction | Custom(code: string)

  /** The name the built-in script is registered under. */
  const ExtractRecordsName: string := "Extract Records"

  type Scripts = OrderedMap<Script>

  /** The registry right after construction: only the extraction script. */
  function Init(): (reg: Scripts)
    ensures Valid(reg)
    ensures AvailableScripts(reg) == [ExtractRecordsName]
    ensures Get(reg, ExtractRecordsName) == Some(MainExtraction)
  {
    Register(Empty(), ExtractRecordsName, MainExtraction)
  }

  /** `registerScript(name, script)`. */
  function Register(reg: Scripts, name: string, script: Script): (reg': Scripts)
    requires Valid(reg)
    ensures Valid(reg')
    ensures Get(reg', name) == Some(script)
    ensures forall other :: other != name ==> Get(reg', other) == Get(reg, other)
  {
    Put(reg, name, script)
  }

  /** `unregisterScript(name)`. */
  function Unregister(reg: Scripts, name: string): (reg': Scripts)
    requires Valid(reg)
    ensures Valid(reg')
    ensures Get(reg', name) == None
    ensures forall other :: other != name ==> Get(reg', other) == Get(reg, other)
  {
    Remove(reg, name)
  }

  /** `availableScripts()`: the names in registration order. */
  function AvailableScripts(reg: Scripts): seq<string> {
    reg.keys
  }

  /**
    `inject(name, onResult)`: the script handed to the page, if the name is
    registered and a page is open; otherwise nothing happens.
   */
  function Inject(reg: Scripts, name: string, pageOpen: bool): (r: Option<Script>)
    requires Valid(reg)
    ensures r.Some? <==> pageOpen && name in AvailableScripts(reg)
    ensures r.Some? ==> Get(reg, name) == r
  {
    if pageOpen then Get(reg, name) else None
  }

  /** Registering an existing name replaces its script and keeps every position. */
  lemma RegisterExisting(reg: Scripts, name: string, script: Script)
    requires Valid(reg) && name in AvailableScripts(reg)
    ensures AvailableScripts(Register(reg, name, script)) == AvailableScripts(reg)
  {
  }

  /** Registering a new name appends it to the list. */
  lemma RegisterNew(reg: Scripts, name: string, script: Script)
    requires Valid(reg) && name !in AvailableScripts(reg)
    ensures AvailableScripts(Register(reg, name, script)) == AvailableScripts(reg) + [name]
  {
  }

  /** Unregistering drops exactly that name from the list, keeping the order of the rest. */
  lemma UnregisterDropsName(reg: Scripts, name: string)
    requires Valid(reg)
    ensures forall n :: n in AvailableScripts(Unregister(reg, name)) <==> n in AvailableScripts(reg) && n != name
    ensures AvailableScripts(Unregister(reg, name)) == RemoveFrom(AvailableScripts(reg), name)
  {
  }

  /** Registering a new name and unregistering it again restores the registry. */
  lemma UnregisterUndoesRegister(reg: Scripts, name: string, script: Script)
    requires Valid(reg) && name !in AvailableScripts(reg)
    ensures Unregister(Register(reg, name, script), name) == reg
  {
    RemoveLast(reg.keys, name);
    assert reg.entries[name := script] - {name} == reg.entries;
  }

  lemma {:induction false} RemoveLast(s: seq<string>, k: string)
    requires k !in s
    ensures RemoveFrom(s + [k], k) == s
    decreases |s|
  {
    if s == [] {
      assert s + [k] == [k];
    } else {
      assert (s + [k])[1..] == s[1..] + [k];
      RemoveLast(s[1..], k);
    }
  }

  /** A run of registrations, in order. */
  datatype Registration = Registration(name: string, script: Script)

  function RegisterAll(reg: Scripts, regs: seq<Registration>): (reg': Scripts)
    requires Valid(reg)
    ensures Valid(reg')
    decreases |regs|
  {
    if regs == [] then reg
    else
      var last := regs[|regs| - 1];
      Register(RegisterAll(reg, regs[..|regs| - 1]), last.name, last.script)
  }

  function Names(regs: seq<Registration>): (ns: seq<string>)
    ensures |ns| == |regs|
    ensures forall i :: 0 <= i < |regs| ==> ns[i] == regs[i].name
  {
    seq(|regs|, i requires 0 <= i < |regs| => regs[i].name)
  }

  lemma NamesSnoc(regs: seq<Registration>)
    requires regs != []
    ensures Names(regs) == Names(regs[..|regs| - 1]) + [regs[|regs| - 1].name]
  {
    var a := Names(regs);
    var b := Names(regs[..|regs| - 1]) + [regs[|regs| - 1].name];
    assert forall i :: 0 <= i < |a| ==> a[i] == b[i];
  }

  /**
    After any run of registrations the list holds each name once, in the
    order of its first registration, the built-in script first.
   */
  lemma {:induction false} RegistrationOrder(regs: seq<Registration>)
    ensures AvailableScripts(RegisterAll(Init(), regs)) == FirstOccurrences([ExtractRecordsName] + Names(regs))
    decreases |regs|
  {
    if regs == [] {
      var s := [ExtractRecordsName] + Names(regs);
      assert s == [ExtractRecordsName];
      assert FirstOccurrences(s[..0]) == [];
    } else {
      var prefix := regs[..|regs| - 1];
      RegistrationOrder(prefix);
      RegisterOrderStep(regs, RegisterAll(Init(), prefix));
    }
  }

  /** One more registration extends the first-occurrence order by its name. */
  lemma RegisterOrderStep(regs: seq<Registration>, reg: Scripts)
    requires regs != [] && reg == RegisterAll(Init(), regs[..|regs| - 1])
    requires reg.keys == FirstOccurrences([ExtractRecordsName] + Names(regs[..|regs| - 1]))
    ensures RegisterAll(Init(), regs).keys == FirstOccurrences([ExtractRecordsName] + Names(regs))
  {
    var last := regs[|regs| - 1];
    var p := [ExtractRecordsName] + Names(regs[..|regs| - 1]);
    NamesSnoc(regs);
    ConsSnoc(ExtractRecordsName, Names(regs), Names(regs[..|regs| - 1]), last.name);
    RegisterExtendsOrder(reg, p, last);
  }

  lemma RegisterExtendsOrder(reg: Scripts, p: seq<string>, last: Registration)
    requires Valid(reg) && reg.keys == FirstOccurrences(p)
    ensures Register(reg, last.name, last.script).keys == FirstOccurrences(p + [last.name])
  {
    assert (p + [last.name])[..|p|] == p;
  }

  lemma ConsSnoc<T>(a: T, b: seq<T>, c: seq<T>, x: T)
    requires b == c + [x]
    ensures [a] + b == ([a] + c) + [x]
  {
  }
}

=== FILE: scraper.dfy ===
/**
  The extraction script the app injects into the portal page
  (`MAIN_EXTRACTION_SCRIPT` in JavaScriptInjector.kt): it reads the
  registration date and status columns of the listing, collapses the
  listing's links by URL, reads each detail page into a row, and drops the
  rows this page has already produced. The DOM and the synchronous
  requests are inputs: a table is a list of rows of cell texts, and a
  detail page is the list of its `td` texts.
 */
module Scraper {
  import opened Wrappers
  import opened Text
  import opened OrderedMaps
  import opened Sequences
  import opened Status

  /** `String.prototype.trim`. */
  function JsTrim(s: string): (r: string)
    ensures Trimmed(r, IsJsSpace)
  {
    Trim(s, IsJsSpace)
  }

  /** JavaScript `a || b` on two strings: `a` unless it is empty. */
  function Or(a: string, b: string): string {
    if a != [] then a else b
  }

  /** `findIndex`/`find`: the position of the first element satisfying `p`. */
  function FirstIndex<T>(s: seq<T>, p: T -> bool): (r: Option<nat>)
    ensures r.Some? ==> r.value < |s| && p(s[r.value])
    ensures r.Some? ==> forall j :: 0 <= j < r.value ==> !p(s[j])
    ensures r.None? ==> forall j :: 0 <= j < |s| ==> !p(s[j])
    decreases |s|
  {
    if s == [] then None
    else if p(s[0]) then Some(0)
    else
      match FirstIndex(s[1..], p)
      case None => None
      case Some(i) => Some(i + 1)
  }

  // ---------------------------------------------------------------------------
  // Header lookup on the listing page
  // ---------------------------------------------------------------------------

  /** A table row: the texts of its `th` cells and of its `td` cells. */
  datatype TableRow = TableRow(headers: seq<string>, cells: seq<string>)

  /** Where a link sits: outside any row, in a row outside any table, or in a row of a table. */
  datatype Placement = NotInRow | RowWithoutTable | InTable(rows: seq<TableRow>, row: TableRow)

  predicate HasHeaders(r: TableRow) {
    |r.headers| > 0
  }

  /** A header cell's text with every `\s` removed, then trimmed. */
  function HeaderText(th: string): (h: string)
    ensures NoneIn(h, IsJsSpace)
  {
    var stripped := Strip(th, IsJsSpace);
    assert Trim(stripped, IsJsSpace) == stripped;
    JsTrim(stripped)
  }

  function HeaderTexts(row: TableRow): (hs: seq<string>)
    ensures |hs| == |row.headers|
    ensures forall i :: 0 <= i < |hs| ==> hs[i] == HeaderText(row.headers[i])
  {
    seq(|row.headers|, i requires 0 <= i < |row.headers| => HeaderText(row.headers[i]))
  }

  /**
    The shared body of `pickRegistrationDate` and `pickStatus`: in the first
    row of the table that has header cells, the first header `wanted`
    accepts names the column; the link's own row supplies the trimmed cell.
   */
  function PickColumn(place: Placement, wanted: string -> bool): (r: string)
    ensures Trimmed(r, IsJsSpace)
    ensures !place.InTable? ==> r == []
  {
    match place
    case InTable(rows, row) =>
      (match FirstIndex(rows, HasHeaders)
       case None => ""
       case Some(h) =>
         match FirstIndex(HeaderTexts(rows[h]), wanted)
         case None => ""
         case Some(c) => if c < |row.cells| then JsTrim(row.cells[c]) else "")
    case _ => ""
  }

  /** `FirstIndex` finds position `k` when `k` is the first match. */
  lemma FirstIndexIs<T>(s: seq<T>, p: T -> bool, k: nat)
    requires k < |s| && p(s[k])
    requires forall j :: 0 <= j < k ==> !p(s[j])
    ensures FirstIndex(s, p) == Some(k)
  {
  }

  /**
    The column lookup against its description: header row `h` is the first
    with header cells, column `c` the first wanted header in it.
   */
  lemma HeaderLookup(place: Placement, wanted: string -> bool, h: nat, c: nat)
    requires place.InTable?
    requires h < |place.rows| && HasHeaders(place.rows[h])
    requires forall j :: 0 <= j < h ==> !HasHeaders(place.rows[j])
    requires c < |place.rows[h].headers| && wanted(HeaderText(place.rows[h].headers[c]))
    requires forall j :: 0 <= j < c ==> !wanted(HeaderText(place.rows[h].headers[j]))
    ensures PickColumn(place, wanted) == if c < |place.row.cells| then JsTrim(place.row.cells[c]) else ""
  {
    var hs := HeaderTexts(place.rows[h]);
    FirstIndexIs(place.rows, HasHeaders, h);
    FirstIndexIs(hs, wanted, c);
  }

  /** Without a header row, or without a wanted header in the first one, the lookup gives "". */
  lemma HeaderLookupEmpty(place: Placement, wanted: string -> bool, h: nat)
    requires place.InTable?
    requires h < |place.rows| && HasHeaders(place.rows[h])
    requires forall j :: 0 <= j < h ==> !HasHeaders(place.rows[j])
    ensures (forall j :: 0 <= j < |place.rows[h].headers| ==> !wanted(HeaderText(place.rows[h].headers[j]))) ==>
      PickColumn(place, wanted) == ""
  {
    FirstIndexIs(place.rows, HasHeaders, h);
  }

  lemma NoHeaderRow(place: Placement, wanted: string -> bool)
    requires place.InTable?
    requires forall j :: 0 <= j < |place.rows| ==> !HasHeaders(place.rows[j])
    ensures PickColumn(place, wanted) == ""
  {
  }

  const DateHeader: string := "تاریخثبت"
  const StatusHeader: string := "وضعیت"
  const CustomerStatusHeader: string := "وضعیتمشتری"

  /** `/تاریخثبت/i.test(h)`. */
  predicate IsDateHeader(h: string) {
    Contains(h, DateHeader)
  }

  /** `/وضعیتمشتری|وضعیت/i.test(h)`. */
  predicate IsStatusHeader(h: string) {
    Contains(h, CustomerStatusHeader) || Contains(h, StatusHeader)
  }

  /** The first alternative of the status pattern is redundant: any header containing "وضعیت" matches. */
  lemma StatusHeaderIsPlain(h: string)
    ensures IsStatusHeader(h) <==> Contains(h, StatusHeader)
  {
    if Contains(h, CustomerStatusHeader) {
      var i := ContainedOccurrence(h, CustomerStatusHeader);
      assert CustomerStatusHeader[..|StatusHeader|] == StatusHeader;
      assert h[i..i + |StatusHeader|] == h[i..i + |CustomerStatusHeader|][..|StatusHeader|];
      OccurrenceContained(h, StatusHeader, i);
    }
  }

  function PickRegistrationDate(place: Placement): string {
    PickColumn(place, IsDateHeader)
  }

  function PickStatus(place: Placement): string {
    PickColumn(place, IsStatusHeader)
  }

  // ---------------------------------------------------------------------------
  // Collapsing the listing's links by URL
  // ---------------------------------------------------------------------------

  /** One listing link with the date and status read from its row. */
  datatype Link = Link(url: string, registeredAt: string, status: string)

  datatype LinkFields = LinkFields(registeredAt: string, status: string)

  function Urls(links: seq<Link>): (us: seq<string>)
    ensures |us| == |links|
    ensures forall i :: 0 <= i < |links| ==> us[i] == links[i].url
  {
    seq(|links|, i requires 0 <= i < |links| => links[i].url)
  }

  /** One pass of the collapsing loop: a new URL is added, a known one keeps its non-empty fields. */
  function CollapseStep(m: OrderedMap<LinkFields>, l: Link): (m': OrderedMap<LinkFields>)
    requires Valid(m)
    ensures Valid(m')
  {
    if l.url !in m.entries then
      Put(m, l.url, LinkFields(Or(l.registeredAt, ""), Or(l.status, "")))
    else
      var current := m.entries[l.url];
      Put(m, l.url, LinkFields(Or(Or(current.registeredAt, l.registeredAt), ""), Or(Or(current.status, l.status), "")))
  }

  /** The `unique` map after the loop: one entry per URL, in order of first occurrence. */
  function CollapseMap(collected: seq<Link>): (m: OrderedMap<LinkFields>)
    ensures Valid(m)
    ensures m.keys == FirstOccurrences(Urls(collected))
    decreases |collected|
  {
    if collected == [] then Empty()
    else
      var init := collected[..|collected| - 1];
      var last := collected[|collected| - 1];
      var m := CollapseMap(init);
      assert Urls(collected)[..|collected| - 1] == Urls(init);
      assert Urls(collected)[|collected| - 1] == last.url;
      CollapseStep(m, last)
  }

  /** `window._patraLinks`: the collapsed entries as links. */
  function CollapseLinks(collected: seq<Link>): (links: seq<Link>)
    ensures Urls(links) == FirstOccurrences(Urls(collected))
    ensures links == [] <==> collected == []
  {
    var m := CollapseMap(collected);
    var links := seq(|m.keys|, i requires 0 <= i < |m.keys| => Link(m.keys[i], m.entries[m.keys[i]].registeredAt, m.entries[m.keys[i]].status));
    assert Urls(links) == m.keys;
    assert collected != [] ==> collected[0].url in Urls(collected);
    links
  }

  /** Which of a link's two fields. */
  datatype Field = RegisteredAt | ListStatus

  function FieldOf(l: Link, f: Field): string {
    match f
    case RegisteredAt => l.registeredAt
    case ListStatus => l.status
  }

  function EntryField(e: LinkFields, f: Field): string {
    match f
    case RegisteredAt => e.registeredAt
    case ListStatus => e.status
  }

  /** The values field `f` takes on the links to `url`, in listing order. */
  function ValuesFor(collected: seq<Link>, url: string, f: Field): (vs: seq<string>)
    ensures |vs| <= |collected|
    decreases |collected|
  {
    if collected == [] then []
    else
      var last := collected[|collected| - 1];
      ValuesFor(collected[..|collected| - 1], url, f) + (if last.url == url then [FieldOf(last, f)] else [])
  }

  /** The first non-empty string, or "" when there is none. */
  function FirstNonEmpty(values: seq<string>): (r: string)
    ensures r == [] || r in values
    ensures r == [] <==> forall i :: 0 <= i < |values| ==> values[i] == []
    decreases |values|
  {
    if values == [] then ""
    else if values[0] != [] then values[0]
    else FirstNonEmpty(values[1..])
  }

  lemma {:induction false} FirstNonEmptySnoc(values: seq<string>, x: string)
    ensures FirstNonEmpty(values + [x]) == Or(FirstNonEmpty(values), x)
    decreases |values|
  {
    if values == [] {
      assert [x][1..] == [];
    } else {
      assert (values + [x])[1..] == values[1..] + [x];
      FirstNonEmptySnoc(values[1..], x);
    }
  }

  /** One pass of the loop on field `f` of `url`'s entry. */
  lemma CollapseStepField(m: OrderedMap<LinkFields>, l: Link, url: string, f: Field)
    requires Valid(m)
    ensures url in CollapseStep(m, l).entries <==> url in m.entries || url == l.url
    ensures url != l.url && url in m.entries ==>
      CollapseStep(m, l).entries[url] == m.entries[url]
    ensures url == l.url && url in m.entries ==>
      EntryField(CollapseStep(m, l).entries[url], f) == Or(EntryField(m.entries[url], f), FieldOf(l, f))
    ensures url == l.url && url !in m.entries ==>
      EntryField(CollapseStep(m, l).entries[url], f) == FieldOf(l, f)
  {
  }

  /**
    After collapsing, each URL's date and status are the first non-empty
    values any of its links carried, or "" when all were empty.
   */
  lemma {:induction false} CollapseKeepsFirstNonEmpty(collected: seq<Link>, url: string, f: Field)
    ensures url !in CollapseMap(collected).entries ==> ValuesFor(collected, url, f) == []
    ensures url in CollapseMap(collected).entries ==>
      EntryField(CollapseMap(collected).entries[url], f) == FirstNonEmpty(ValuesFor(collected, url, f))
    decreases |collected|
  {
    if collected != [] {
      var init := collected[..|collected| - 1];
      var last := collected[|collected| - 1];
      var m := CollapseMap(init);
      assert CollapseMap(collected) == CollapseStep(m, last);
      CollapseKeepsFirstNonEmpty(init, url, f);
      CollapseStepField(m, last, url, f);
      var vs := ValuesFor(init, url, f);
      if last.url == url {
        assert ValuesFor(collected, url, f) == vs + [FieldOf(last, f)];
        FirstNonEmptySnoc(vs, FieldOf(last, f));
      } else {
        assert ValuesFor(collected, url, f) == vs;
      }
    }
  }

  // ---------------------------------------------------------------------------
  // Reading a detail page
  // ---------------------------------------------------------------------------

  /** The cells' trimmed texts, as the loop reads them. */
  function Texts(tds: seq<string>): (texts: seq<string>)
    ensures |texts| == |tds|
    ensures forall i :: 0 <= i < |tds| ==> texts[i] == JsTrim(tds[i])
  {
    seq(|tds|, i requires 0 <= i < |tds| => JsTrim(tds[i]))
  }

  /** Text `i` is a label seen for the first time there. */
  predicate FirstLabelAt(texts: seq<string>, i: nat)
    requires i < |texts|
  {
    texts[i] != [] && forall j :: 0 <= j < i ==> texts[j] != texts[i]
  }

  /** The label map after the loop has looked at texts `0 .. n - 1` as labels. */
  function LabelMapUpTo(texts: seq<string>, n: nat): map<string, string>
    requires n == 0 || n < |texts|
    decreases n
  {
    if n == 0 then map[]
    else
      var m := LabelMapUpTo(texts, n - 1);
      var key := texts[n - 1];
      if key != [] && key !in m then m[key := texts[n]] else m
  }

  /** The label map holds exactly the non-empty texts seen so far, each mapped to some text. */
  lemma {:induction false} LabelMapDomain(texts: seq<string>, n: nat)
    requires n == 0 || n < |texts|
    ensures forall k :: k in LabelMapUpTo(texts, n) <==> k != [] && k in texts[..n]
    ensures forall k :: k in LabelMapUpTo(texts, n) ==> LabelMapUpTo(texts, n)[k] in texts
    decreases n
  {
    if n > 0 {
      LabelMapDomain(texts, n - 1);
      assert texts[..n] == texts[..n - 1] + [texts[n - 1]];
    }
  }

  /** A label's first occurrence fixes its value; later cells with the same label do not override it. */
  lemma LabelMapFirstWins(texts: seq<string>, n: nat, i: nat)
    requires n == 0 || n < |texts|
    requires i < n && FirstLabelAt(texts, i)
    ensures texts[i] in LabelMapUpTo(texts, n)
    ensures LabelMapUpTo(texts, n)[texts[i]] == texts[i + 1]
  {
    LabelMapAddsFirst(texts, i);
    LabelMapKeepsFrom(texts, i + 1, n, texts[i], texts[i + 1]);
  }

  /** The step that meets a label for the first time records the cell after it. */
  lemma LabelMapAddsFirst(texts: seq<string>, i: nat)
    requires i + 1 < |texts| && FirstLabelAt(texts, i)
    ensures texts[i] in LabelMapUpTo(texts, i + 1)
    ensures LabelMapUpTo(texts, i + 1)[texts[i]] == texts[i + 1]
  {
    var m := LabelMapUpTo(texts, i);
    LabelMapStep(texts, i + 1, m, LabelMapUpTo(texts, i + 1));
    LabelMapDomain(texts, i);
    assert forall j :: 0 <= j < i ==> texts[..i][j] == texts[j];
    assert texts[i] !in m;
  }

  /** Once a label is in the map, the later steps keep its value. */
  lemma {:induction false} LabelMapKeepsFrom(texts: seq<string>, k: nat, n: nat, x: string, v: string)
    requires 0 < k <= n < |texts|
    requires x in LabelMapUpTo(texts, k) && LabelMapUpTo(texts, k)[x] == v
    ensures x in LabelMapUpTo(texts, n) && LabelMapUpTo(texts, n)[x] == v
    decreases n
  {
    if n > k {
      LabelMapKeepsFrom(texts, k, n - 1, x, v);
      LabelMapStep(texts, n, LabelMapUpTo(texts, n - 1), LabelMapUpTo(texts, n));
    }
  }

  lemma LabelMapStep(texts: seq<string>, n: nat, m: map<string, string>, m': map<string, string>)
    requires 0 < n < |texts|
    requires m == LabelMapUpTo(texts, n - 1) && m' == LabelMapUpTo(texts, n)
    ensures m' == if texts[n - 1] != [] && texts[n - 1] !in m then m[texts[n - 1] := texts[n]] else m
  {
  }

  /**
    `labelMap`: for each cell but the last whose trimmed text is a
    non-empty label not seen before, the trimmed text of the next cell;
    `texts` are the cells' trimmed texts.
   */
  function LabelMap(texts: seq<string>): map<string, string> {
    if texts == [] then map[] else LabelMapUpTo(texts, |texts| - 1)
  }

  /** `td(label)`: the label's value, or "" for a label the page lacks. */
  function Td(m: map<string, string>, name: string): string {
    Or(if name in m then m[name] else "", "")
  }

  /** The first occurrence of a label fixes what `td` reads for it: the text of the next cell. */
  lemma TdFirst(texts: seq<string>, name: string, i: nat)
    requires i < |texts| - 1 && texts[i] == name && FirstLabelAt(texts, i)
    ensures Td(LabelMap(texts), name) == texts[i + 1]
  {
    LabelMapFirstWins(texts, |texts| - 1, i);
    TdReadsEntry(LabelMap(texts), texts[i], texts[i + 1]);
  }

  /** `td` reads a present label's value as it is. */
  lemma TdReadsEntry(m: map<string, string>, name: string, v: string)
    requires name in m && m[name] == v
    ensures Td(m, name) == v
  {
  }

  /** A label on no cell but the last reads "". */
  lemma TdAbsent(texts: seq<string>, name: string)
    requires forall i :: 0 <= i < |texts| - 1 ==> texts[i] != name
    ensures Td(LabelMap(texts), name) == ""
  {
    if texts != [] {
      LabelMapDomain(texts, |texts| - 1);
    }
  }

  /** What `td` reads is empty or one of the texts. */
  lemma TdFromTexts(texts: seq<string>, name: string)
    ensures Td(LabelMap(texts), name) == [] || Td(LabelMap(texts), name) in texts
  {
    if texts != [] {
      LabelMapDomain(texts, |texts| - 1);
    }
  }

  /** What `td` reads from a detail page is trimmed. */
  lemma TdTrimmed(tds: seq<string>, name: string)
    ensures Td(LabelMap(Texts(tds)), name) == [] || !IsJsSpace(Td(LabelMap(Texts(tds)), name)[0])
  {
    var texts := Texts(tds);
    var v := Td(LabelMap(texts), name);
    TdFromTexts(texts, name);
    if v != [] {
      var i :| 0 <= i < |texts| && texts[i] == v;
      assert v == JsTrim(tds[i]);
    }
  }

  /** A scraped row, under the keys the app reads back. */
  datatype Scraped = Scraped(
    name: string, mobile: string, phone: string, province: string, city: string,
    postalCode: string, address: string, notes: string, registeredAt: string,
    seller: string, status: string)

  /** The outcome of the synchronous request: an exception, or a status code and the page's `td` texts. */
  datatype Response = Threw | Answered(code: int, tds: seq<string>)

  /** The detail-page status, tried under three labels in order. */
  function RawStatus(m: map<string, string>): string {
    Or(Or(Td(m, "وضعیت"), Td(m, "وضعیت پرونده")), Td(m, "وضعیت سفارش"))
  }

  /** `extract(link)`: no row for an exception or a status outside 200..299. */
  function Extract(link: Link, response: Response): (r: Option<Scraped>)
    ensures r.None? <==> response.Threw? || !(200 <= response.code < 300)
    ensures r.Some? ==> r.value.registeredAt == link.registeredAt
  {
    match response
    case Threw => None
    case Answered(code, tds) =>
      if code < 200 || code >= 300 then None
      else
        var m := LabelMap(Texts(tds));
        Some(Scraped(
          Td(m, "نام و نام خانوادگی"), Td(m, "شماره موبایل"), Td(m, "شماره تلفن"),
          Td(m, "استان"), Td(m, "شهر"), Td(m, "کد ارسال"), Td(m, "آدرس"),
          Td(m, "توضیحات"), Or(link.registeredAt, ""), Td(m, "فروشنده"),
          FinalStatus(RawStatus(m), link.status)))
  }

  /**
    A row's status is `mapStatus` of the detail-page status, or of the
    listing status when the page has none: a canonical category, the
    cleaned text, or "" when both are blank.
   */
  lemma ExtractStatus(link: Link, response: Response)
    requires Extract(link, response).Some?
    ensures var m := LabelMap(Texts(response.tds));
      Extract(link, response).value.status == MapStatus(Or(RawStatus(m), link.status))
    ensures var m := LabelMap(Texts(response.tds)); var s := Extract(link, response).value.status;
      IsCategory(s) || s == CleanJs(Or(RawStatus(m), link.status))
  {
    var m := LabelMap(Texts(response.tds));
    TdTrimmed(response.tds, "وضعیت");
    TdTrimmed(response.tds, "وضعیت پرونده");
    TdTrimmed(response.tds, "وضعیت سفارش");
    FallbackIsDead(RawStatus(m), link.status);
  }

  // ---------------------------------------------------------------------------
  // Dropping rows already produced
  // ---------------------------------------------------------------------------

  /** The keys of `rows`. */
  function KeySet<T>(rows: seq<T>, key: T -> string): (ks: set<string>)
    ensures forall k :: k in ks <==> exists i :: 0 <= i < |rows| && key(rows[i]) == k
    decreases |rows|
  {
    if rows == [] then {}
    else
      var init := rows[..|rows| - 1];
      assert forall i :: 0 <= i < |init| ==> rows[i] == init[i];
      KeySet(init, key) + {key(rows[|rows| - 1])}
  }

  /**
    The final loop: a row is kept when its key is non-empty and not yet in
    `seen`, and its key joins `seen`. Returns the kept rows and the new `seen`.
   */
  function Dedup<T(==)>(clean: seq<T>, key: T -> string, seen: set<string>): (res: (seq<T>, set<string>))
    ensures Subsequence(res.0, clean)
    ensures res.1 == seen + KeySet(res.0, key)
    decreases |clean|
  {
    if clean == [] then ([], seen)
    else
      var init := clean[..|clean| - 1];
      var r := clean[|clean| - 1];
      var prev := Dedup(init, key, seen);
      assert clean == init + [r];
      SubsequenceSnoc(prev.0, init, r);
      if key(r) != [] && key(r) !in prev.1 then
        var rows := prev.0 + [r];
        assert rows[..|rows| - 1] == prev.0;
        (rows, prev.1 + {key(r)})
      else
        (prev.0, prev.1)
  }

  /** Every kept row has a non-empty key that was not seen before. */
  lemma {:induction false} DedupFresh<T>(clean: seq<T>, key: T -> string, seen: set<string>)
    ensures forall i :: 0 <= i < |Dedup(clean, key, seen).0| ==>
      key(Dedup(clean, key, seen).0[i]) != [] && key(Dedup(clean, key, seen).0[i]) !in seen
    decreases |clean|
  {
    if clean != [] {
      var init := clean[..|clean| - 1];
      var r := clean[|clean| - 1];
      var prev := Dedup(init, key, seen);
      DedupFresh(init, key, seen);
      var rows := Dedup(clean, key, seen).0;
      if key(r) != [] && key(r) !in prev.1 {
        assert rows == prev.0 + [r];
        forall i | 0 <= i < |rows|
          ensures key(rows[i]) != [] && key(rows[i]) !in seen
        {
          if i < |prev.0| {
            assert rows[i] == prev.0[i];
          }
        }
      } else {
        assert rows == prev.0;
      }
    }
  }

  /** No two kept rows share a key. */
  lemma {:induction false} DedupDistinct<T>(clean: seq<T>, key: T -> string, seen: set<string>)
    ensures forall i, j :: 0 <= i < j < |Dedup(clean, key, seen).0| ==>
      key(Dedup(clean, key, seen).0[i]) != key(Dedup(clean, key, seen).0[j])
    decreases |clean|
  {
    if clean != [] {
      var init := clean[..|clean| - 1];
      var r := clean[|clean| - 1];
      var prev := Dedup(init, key, seen);
      DedupDistinct(init, key, seen);
      var rows := Dedup(clean, key, seen).0;
      if key(r) != [] && key(r) !in prev.1 {
        assert rows == prev.0 + [r];
        forall i, j | 0 <= i < j < |rows|
          ensures key(rows[i]) != key(rows[j])
        {
          assert rows[i] == prev.0[i];
          if j == |prev.0| {
            assert key(prev.0[i]) in KeySet(prev.0, key);
          } else {
            assert rows[j] == prev.0[j];
          }
        }
      } else {
        assert rows == prev.0;
      }
    }
  }

  /** Every row with a non-empty key ends up with its key seen, whether it was kept or dropped. */
  lemma {:induction false} DedupComplete<T>(clean: seq<T>, key: T -> string, seen: set<string>)
    ensures forall i :: 0 <= i < |clean| && key(clean[i]) != [] ==> key(clean[i]) in Dedup(clean, key, seen).1
    decreases |clean|
  {
    if clean != [] {
      var init := clean[..|clean| - 1];
      var prev := Dedup(init, key, seen);
      DedupComplete(init, key, seen);
      assert prev.1 <= Dedup(clean, key, seen).1;
      assert forall i :: 0 <= i < |init| ==> clean[i] == init[i];
    }
  }

  /** Deduplicating the same rows again, against the keys the first pass left, keeps nothing. */
  lemma DedupTwice<T>(clean: seq<T>, key: T -> string, seen: set<string>)
    ensures Dedup(clean, key, Dedup(clean, key, seen).1).0 == []
  {
    var seen' := Dedup(clean, key, seen).1;
    DedupComplete(clean, key, seen);
    var again := Dedup(clean, key, seen');
    SeenStaysSeen(clean, key, seen', again.0);
    DedupFresh(clean, key, seen');
  }

  /** Nothing is kept exactly when every row's key is empty or already seen. */
  lemma DedupKeepsNothing<T>(clean: seq<T>, key: T -> string, seen: set<string>)
    ensures Dedup(clean, key, seen).0 == [] <==> forall r :: r in clean ==> key(r) == [] || key(r) in seen
  {
    var rows := Dedup(clean, key, seen).0;
    if forall r :: r in clean ==> key(r) == [] || key(r) in seen {
      SeenStaysSeen(clean, key, seen, rows);
      DedupFresh(clean, key, seen);
    } else {
      DedupComplete(clean, key, seen);
      var r :| r in clean && key(r) != [] && key(r) !in seen;
      var i :| 0 <= i < |clean| && clean[i] == r;
      assert key(clean[i]) in Dedup(clean, key, seen).1;
    }
  }

  /** A subsequence of rows whose non-empty keys are all in `seen` has only such keys. */
  lemma SeenStaysSeen<T>(clean: seq<T>, key: T -> string, seen: set<string>, rows: seq<T>)
    requires forall i :: 0 <= i < |clean| && key(clean[i]) != [] ==> key(clean[i]) in seen
    requires Subsequence(rows, clean)
    ensures forall i :: 0 <= i < |rows| ==> key(rows[i]) == [] || key(rows[i]) in seen
  {
    SubsequenceMembers(rows, clean);
    forall i | 0 <= i < |rows|
      ensures key(rows[i]) == [] || key(rows[i]) in seen
    {
      assert rows[i] in rows;
      var j :| 0 <= j < |clean| && clean[j] == rows[i];
    }
  }

  /** `(r["نام"] + r["شماره موبایل"]).replace(/\s+/g, "")`. */
  function DedupKey(row: Scraped): string {
    Strip(row.name + row.mobile, IsJsSpace)
  }

  // ---------------------------------------------------------------------------
  // One run of the script
  // ---------------------------------------------------------------------------

  /** A listing link: its target and where it sits. */
  datatype Anchor = Anchor(url: string, place: Placement)

  /** What the script keeps on `window` between runs on one page. */
  datatype PageState = PageState(links: Option<seq<Link>>, seen: set<string>)

  /** The two errors the script reports. */
  datatype ScriptError = NoLinks | NoNewRows

  /** The error's text, as the page reports it. */
  function ErrorMessage(e: ScriptError): string {
    match e
    case NoLinks => "هیچ لینکی پیدا نشد."
    case NoNewRows => "هیچ رکورد جدیدی باقی نماند."
  }

  /** What the script returns, before `JSON.stringify`: `{error: ...}` or the array of rows. */
  datatype ScriptResult = Failure(error: ScriptError) | Rows(rows: seq<Scraped>)

  /** `anchors.map(...)`: each link with the date and status of its row. */
  function Collected(anchors: seq<Anchor>): (links: seq<Link>)
    ensures |links| == |anchors|
    ensures forall i :: 0 <= i < |anchors| ==> links[i].url == anchors[i].url
  {
    seq(|anchors|, i requires 0 <= i < |anchors| =>
      Link(anchors[i].url, PickRegistrationDate(anchors[i].place), PickStatus(anchors[i].place)))
  }

  /**
    `extract` with the portal's answers supplied by `fetch`: the script's
    only contact with the network.
   */
  function Reader(fetch: string -> Response): Link -> Option<Scraped> {
    (l: Link) => Extract(l, fetch(l.url))
  }

  /** `links.map(extract)`. */
  function Raw(links: seq<Link>, extract: Link -> Option<Scraped>): (raw: seq<Option<Scraped>>)
    ensures |raw| == |links|
    ensures forall i :: 0 <= i < |links| ==> raw[i] == extract(links[i])
  {
    seq(|links|, i requires 0 <= i < |links| => extract(links[i]))
  }

  /** `.filter(Boolean)`: the rows that were produced, in order. */
  function Present<T(!new)>(raw: seq<Option<T>>): (rows: seq<T>)
    ensures |rows| <= |raw|
    ensures forall x :: x in rows <==> Some(x) in raw
    decreases |raw|
  {
    if raw == [] then []
    else
      var init := raw[..|raw| - 1];
      assert raw == init + [raw[|raw| - 1]];
      Present(init) + match raw[|raw| - 1] case Some(x) => [x] case None => []
  }

  /** `clean`: the rows the detail pages produced, in link order. */
  function Clean(links: seq<Link>, extract: Link -> Option<Scraped>): seq<Scraped> {
    Present(Raw(links, extract))
  }

  /** The links a run works on: those cached on the page, or the collapsed anchors. */
  function LinksOf(state: PageState, anchors: seq<Anchor>): seq<Link> {
    match state.links
    case Some(links) => links
    case None => CollapseLinks(Collected(anchors))
  }

  /**
    One run of the script on a page, reading each detail page with
    `extract`: the result, and the page's state afterwards.
   */
  function Run(state: PageState, anchors: seq<Anchor>, extract: Link -> Option<Scraped>): (out: (ScriptResult, PageState))
    ensures out.1.links == Some(LinksOf(state, anchors))
    ensures out.0 == Failure(NoLinks) <==> LinksOf(state, anchors) == []
    ensures state.links.None? ==> (out.0 == Failure(NoLinks) <==> anchors == [])
    ensures out.0 == Failure(NoNewRows) <==>
      LinksOf(state, anchors) != [] &&
      forall r :: r in Clean(LinksOf(state, anchors), extract) ==> DedupKey(r) == [] || DedupKey(r) in state.seen
    ensures out.0.Rows? ==> |out.0.rows| > 0
    ensures state.seen <= out.1.seen
  {
    var links := LinksOf(state, anchors);
    if links == [] then (Failure(NoLinks), state.(links := Some(links)))
    else
      var clean := Clean(links, extract);
      DedupKeepsNothing(clean, DedupKey, state.seen);
      var res := Dedup(clean, DedupKey, state.seen);
      if res.0 == [] then (Failure(NoNewRows), PageState(Some(links), res.1))
      else (Rows(res.0), PageState(Some(links), res.1))
  }

  /** The rows a run returns are new to the page, distinct by key, in page order, and recorded as seen. */
  lemma RunRows(state: PageState, anchors: seq<Anchor>, extract: Link -> Option<Scraped>, rows: seq<Scraped>, st: PageState)
    requires Run(state, anchors, extract) == (Rows(rows), st)
    ensures Subsequence(rows, Clean(LinksOf(state, anchors), extract))
    ensures forall i :: 0 <= i < |rows| ==> DedupKey(rows[i]) != [] && DedupKey(rows[i]) !in state.seen
    ensures forall i, j :: 0 <= i < j < |rows| ==> DedupKey(rows[i]) != DedupKey(rows[j])
    ensures st.seen == state.seen + KeySet(rows, DedupKey)
  {
    var clean := Clean(LinksOf(state, anchors), extract);
    assert rows == Dedup(clean, DedupKey, state.seen).0;
    DedupFresh(clean, DedupKey, state.seen);
    DedupDistinct(clean, DedupKey, state.seen);
  }

  /** The links are read once per page: later runs ignore the anchors. */
  lemma LinksReadOnce(state: PageState, anchors: seq<Anchor>, anchors': seq<Anchor>, extract: Link -> Option<Scraped>)
    ensures Run(Run(state, anchors, extract).1, anchors', extract) == Run(Run(state, anchors, extract).1, anchors, extract)
  {
    var st := Run(state, anchors, extract).1;
    assert LinksOf(st, anchors') == LinksOf(st, anchors);
  }

  /**
    Running the script again on the same page, with the same detail pages,
    finds nothing new.
   */
  lemma RerunFindsNothingNew(state: PageState, anchors: seq<Anchor>, extract: Link -> Option<Scraped>)
    requires LinksOf(state, anchors) != []
    ensures Run(Run(state, anchors, extract).1, anchors, extract).0 == Failure(NoNewRows)
  {
    var links := LinksOf(state, anchors);
    var clean := Clean(links, extract);
    var st := Run(state, anchors, extract).1;
    assert LinksOf(st, anchors) == links;
    assert st.seen == Dedup(clean, DedupKey, state.seen).1;
    DedupTwice(clean, DedupKey, state.seen);
  }
}

=== FILE: sequences.dfy ===
/** Order-preserving selection from a sequence: Kotlin's `filter`, and what "in order" means for its result. */
module Sequences {

  /** `r` is `s` with some elements dropped and the rest in their original order. */
  predicate Subsequence<T(==)>(r: seq<T>, s: seq<T>)
    decreases |s|
  {
    r == [] || (s != [] && ((r[0] == s[0] && Subsequence(r[1..], s[1..])) || Subsequence(r, s[1..])))
  }

  /** Kotlin `filter`: the elements satisfying `keep`, in order. */
  function Filter<T(==,!new)>(s: seq<T>, keep: T -> bool): (r: seq<T>)
    ensures |r| <= |s|
    ensures forall x :: x in r <==> x in s && keep(x)
    ensures forall x :: multiset(r)[x] == if keep(x) then multiset(s)[x] else 0
    decreases |s|
  {
    if s == [] then []
    else
      var rest := Filter(s[1..], keep);
      assert s == [s[0]] + s[1..];
      assert forall x :: x in s <==> x == s[0] || x in s[1..];
      (if keep(s[0]) then [s[0]] else []) + rest
  }

  lemma {:induction false} FilterIsSubsequence<T(!new)>(s: seq<T>, keep: T -> bool)
    ensures Subsequence(Filter(s, keep), s)
    decreases |s|
  {
    if s != [] {
      var r := Filter(s, keep);
      FilterIsSubsequence(s[1..], keep);
      if keep(s[0]) {
        assert r[0] == s[0] && r[1..] == Filter(s[1..], keep);
        assert Subsequence(r[1..], s[1..]);
      } else {
        assert r == Filter(s[1..], keep);
      }
    }
  }

  /** Filtering keeps everything exactly when every element passes. */
  lemma FilterKeepsAll<T(!new)>(s: seq<T>, keep: T -> bool)
    ensures Filter(s, keep) == s <==> forall i :: 0 <= i < |s| ==> keep(s[i])
  {
    if forall i :: 0 <= i < |s| ==> keep(s[i]) {
      FilterAllPass(s, keep);
    }
  }

  /** When every element passes, filtering changes nothing. */
  lemma {:induction false} FilterAllPass<T(!new)>(s: seq<T>, keep: T -> bool)
    requires forall i :: 0 <= i < |s| ==> keep(s[i])
    ensures Filter(s, keep) == s
    decreases |s|
  {
    if s != [] {
      assert forall i :: 0 <= i < |s[1..]| ==> s[1..][i] == s[i + 1];
      FilterAllPass(s[1..], keep);
      assert keep(s[0]);
      assert s == [s[0]] + s[1..];
    }
  }

  /** Keeping the same last element on both sides keeps a subsequence. */
  lemma {:induction false} SubsequenceSnoc<T>(r: seq<T>, s: seq<T>, x: T)
    requires Subsequence(r, s)
    ensures Subsequence(r + [x], s + [x])
    ensures Subsequence(r, s + [x])
    decreases |s|
  {
    if r == [] {
      assert r + [x] == [x];
      SubsequenceOfAny(s, x);
    } else {
      assert s != [];
      assert (s + [x])[1..] == s[1..] + [x];
      assert (r + [x])[1..] == r[1..] + [x];
      if r[0] == s[0] && Subsequence(r[1..], s[1..]) {
        SubsequenceSnoc(r[1..], s[1..], x);
      } else {
        SubsequenceSnoc(r, s[1..], x);
      }
    }
  }

  lemma {:induction false} SubsequenceOfAny<T>(s: seq<T>, x: T)
    ensures Subsequence([x], s + [x])
    decreases |s|
  {
    if s == [] {
      assert [x][1..] == [];
    } else {
      assert (s + [x])[1..] == s[1..] + [x];
      SubsequenceOfAny(s[1..], x);
    }
  }

  /** Every element of a subsequence is an element of the sequence. */
  lemma {:induction false} SubsequenceMembers<T>(r: seq<T>, s: seq<T>)
    requires Subsequence(r, s)
    ensures forall x :: x in r ==> x in s
    decreases |s|
  {
    if r != [] {
      if r[0] == s[0] && Subsequence(r[1..], s[1..]) {
        SubsequenceMembers(r[1..], s[1..]);
        assert forall x :: x in r ==> x == r[0] || x in r[1..];
      } else {
        SubsequenceMembers(r, s[1..]);
      }
    }
  }
}

=== FILE: status.dfy ===
/**
  The free-text delivery status the portal shows for an order, and the two
  normalisers that map it onto four canonical categories: the in-page
  script's `normalizeStatus`/`mapStatus` (JavaScriptInjector.kt), applied
  while scraping, and the app's `normalizeDeliveryStatus` (MainActivity.kt),
  applied when filtering. They look alike but are not the same function.
 */
module Status {
  import opened Text

  const Waiting: string := "در انتظار تحویل"
  const Collected: string := "وصولی"
  const Cancelled: string := "کنسل نهایی"
  const Withdrawn: string := "انصرافی هماهنگی"

  /** The canonical delivery categories. */
  predicate IsCategory(s: string) {
    s == Collected || s == Cancelled || s == Waiting || s == Withdrawn
  }

  const ArabicYeh: char := '\U{064A}'
  const PersianYeh: char := '\U{06CC}'
  const ArabicKaf: char := '\U{0643}'
  const PersianKaf: char := '\U{06A9}'

  /** Arabic yeh and kaf rewritten as their Persian forms. */
  function PersianLetters(s: string): (r: string)
    ensures |r| == |s|
    ensures ArabicYeh !in r && ArabicKaf !in r
    ensures ArabicYeh !in s && ArabicKaf !in s ==> r == s
  {
    ReplaceChar(ReplaceChar(s, ArabicYeh, PersianYeh), ArabicKaf, PersianKaf)
  }

  /** The letter rewrite never turns whitespace into a letter or a letter into whitespace. */
  lemma {:induction false} PersianLettersKeepSpaces(s: string)
    ensures AllIn(PersianLetters(s), IsJsSpace) <==> AllIn(s, IsJsSpace)
  {
    var r := PersianLetters(s);
    assert forall i :: 0 <= i < |s| ==> r[i] == s[i] || (!IsJsSpace(r[i]) && !IsJsSpace(s[i]));
  }

  /** Neither collapsing nor trimming brings the Arabic letters back. */
  lemma ForeignLettersGone(raw: string, p: char -> bool, q: char -> bool, r: string)
    requires p(' ') && !p(ArabicYeh) && !p(ArabicKaf)
    requires r == Trim(Collapse(PersianLetters(raw), p), q)
    ensures ArabicYeh !in r && ArabicKaf !in r
  {
    var c := Collapse(PersianLetters(raw), p);
    CollapseMembers(PersianLetters(raw), p, ArabicYeh);
    CollapseMembers(PersianLetters(raw), p, ArabicKaf);
    TrimMembers(c, q, ArabicYeh);
    TrimMembers(c, q, ArabicKaf);
  }

  // ---------------------------------------------------------------------------
  // The app's normalizeDeliveryStatus
  // ---------------------------------------------------------------------------

  /** The cleaning half of `normalizeDeliveryStatus`: letters, then `\s+` to one space, then `trim()`. */
  function CleanKotlin(raw: string): string {
    Trim(Collapse(PersianLetters(raw), IsRegexSpace), IsKotlinWhitespace)
  }

  /** A cleaned status has Persian letters only, single spaces, and no whitespace at either end. */
  lemma CleanKotlinShape(raw: string)
    ensures ArabicYeh !in CleanKotlin(raw) && ArabicKaf !in CleanKotlin(raw)
    ensures Compact(CleanKotlin(raw), IsRegexSpace)
    ensures var r := CleanKotlin(raw); r == [] || (!IsKotlinWhitespace(r[0]) && !IsKotlinWhitespace(r[|r| - 1]))
  {
    CleanKotlinCompact(raw, CleanKotlin(raw));
    CleanKotlinLetters(raw, CleanKotlin(raw));
  }

  lemma CleanKotlinCompact(raw: string, r: string)
    requires r == CleanKotlin(raw)
    ensures Compact(r, IsRegexSpace)
    ensures r == [] || (!IsKotlinWhitespace(r[0]) && !IsKotlinWhitespace(r[|r| - 1]))
  {
    CleanedShape(PersianLetters(raw), IsRegexSpace, IsKotlinWhitespace, r);
  }

  lemma CleanKotlinLetters(raw: string, r: string)
    requires r == CleanKotlin(raw)
    ensures ArabicYeh !in r && ArabicKaf !in r
  {
    LettersAreNoRegexSpace();
    ForeignLettersGone(raw, IsRegexSpace, IsKotlinWhitespace, r);
  }

  lemma LettersAreNoJsSpace()
    ensures IsJsSpace(' ') && !IsJsSpace(ArabicYeh) && !IsJsSpace(ArabicKaf)
  {
  }

  lemma LettersAreNoRegexSpace()
    ensures IsRegexSpace(' ') && !IsRegexSpace(ArabicYeh) && !IsRegexSpace(ArabicKaf)
  {
  }

  /** The keyword tests of `normalizeDeliveryStatus`, first match wins. */
  function ClassifyKotlin(n: string): (r: string)
    ensures r == n || IsCategory(r)
  {
    if Contains(n, "در انتظار") && Contains(n, "تحویل") then Waiting
    else if Contains(n, "وصولی") then Collected
    else if Contains(n, "کنسل") || Contains(n, "کنسلی") then Cancelled
    else if Contains(n, "انصرافی") then Withdrawn
    else n
  }

  /** `normalizeDeliveryStatus(raw)`. */
  function NormalizeDelivery(raw: string): (r: string)
    ensures r != CleanKotlin(raw) ==> IsCategory(r)
  {
    ClassifyKotlin(CleanKotlin(raw))
  }

  /** Cleaning an already clean status changes nothing. */
  lemma {:induction false} CleanKotlinIdempotent(raw: string)
    ensures CleanKotlin(CleanKotlin(raw)) == CleanKotlin(raw)
  {
    CleanKotlinShape(raw);
    CleanLabel(CleanKotlin(raw));
  }

  /** Normalising twice is normalising once. */
  lemma {:induction false} NormalizeDeliveryIdempotent(raw: string)
    ensures NormalizeDelivery(NormalizeDelivery(raw)) == NormalizeDelivery(raw)
  {
    var n := CleanKotlin(raw);
    var r := ClassifyKotlin(n);
    if r == n {
      CleanKotlinIdempotent(raw);
    } else {
      KotlinFixesCategories();
    }
  }

  /** Each canonical category is its own normal form, so the spinner's options can match. */
  lemma {:induction false} KotlinFixesCategories()
    ensures forall c :: IsCategory(c) ==> NormalizeDelivery(c) == c
  {
    forall c | IsCategory(c)
      ensures NormalizeDelivery(c) == c
    {
      KotlinFixesCategory(c);
    }
  }

  lemma KotlinFixesCategory(c: string)
    requires IsCategory(c)
    ensures NormalizeDelivery(c) == c
  {
    if c == Waiting {
      KotlinFixesWaiting(c);
    } else if c == Collected {
      KotlinFixesCollected(c);
    } else if c == Cancelled {
      KotlinFixesCancelled(c);
    } else {
      KotlinFixesWithdrawn(c);
    }
  }

  /** A clean status with no stray whitespace or Arabic letters is left by the cleaning step. */
  lemma {:induction false} CleanLabel(c: string)
    requires ArabicYeh !in c && ArabicKaf !in c
    requires Compact(c, IsRegexSpace)
    requires Trimmed(c, IsKotlinWhitespace)
    ensures CleanKotlin(c) == c
  {
    assert PersianLetters(c) == c;
    CollapseCompact(c, IsRegexSpace);
  }

  /** A letter of the Arabic script other than the two the normalisers rewrite. */
  predicate IsLetter(c: char) {
    '\U{0621}' <= c <= '\U{06FF}' && c != ArabicYeh && c != ArabicKaf
  }

  /**
    From position `i` on, `s` is letters separated by single spaces, as every
    status label is written. Stated position by position so that it
    evaluates on string literals.
   */
  predicate WordsFrom(s: string, i: nat)
    decreases |s| - i
  {
    || i >= |s|
    || (&& IsLetter(s[i])
        && (|| i + 1 == |s|
            || (if s[i + 1] == ' ' then i + 2 < |s| && WordsFrom(s, i + 2) else WordsFrom(s, i + 1))))
  }

  /** Position `j` holds a letter, or a single space with a letter after it. */
  predicate WordCharAt(s: string, j: nat)
    requires j < |s|
  {
    IsLetter(s[j]) || (j < |s| - 1 && s[j] == ' ' && IsLetter(s[j + 1]))
  }

  lemma {:induction false} WordsShape(s: string, i: nat)
    requires i < |s| && WordsFrom(s, i)
    ensures IsLetter(s[i]) && IsLetter(s[|s| - 1])
    ensures forall j :: i <= j < |s| ==> WordCharAt(s, j) && (j == i ==> IsLetter(s[j]))
    decreases |s| - i
  {
    if i + 1 < |s| {
      if s[i + 1] == ' ' {
        WordsShape(s, i + 2);
      } else {
        WordsShape(s, i + 1);
      }
    }
  }

  /** No letter is whitespace under any of the three definitions. */
  lemma LetterIsNoSpace(c: char)
    requires IsLetter(c)
    ensures !IsRegexSpace(c) && !IsJsSpace(c) && !IsKotlinWhitespace(c)
  {
  }

  /** Words separated by single spaces are compact under any notion of space that includes ' '. */
  lemma {:induction false} WordsCompact(s: string, p: char -> bool)
    requires s != [] && WordsFrom(s, 0)
    requires forall c :: IsLetter(c) ==> !p(c)
    ensures Compact(s, p) && !p(s[0]) && !p(s[|s| - 1])
    ensures ArabicYeh !in s && ArabicKaf !in s
  {
    WordsShape(s, 0);
    forall i | 0 <= i < |s| && p(s[i])
      ensures s[i] == ' '
    {
      assert WordCharAt(s, i);
    }
    forall i | 0 <= i < |s| - 1
      ensures !p(s[i]) || !p(s[i + 1])
    {
    }
    forall i | 0 <= i < |s|
      ensures s[i] != ArabicYeh && s[i] != ArabicKaf
    {
      assert WordCharAt(s, i);
    }
  }

  /** Words separated by single spaces are left alone by both cleaning steps. */
  lemma WordsAreClean(s: string)
    requires WordsFrom(s, 0)
    ensures CleanKotlin(s) == s
    ensures CleanJs(s) == s
  {
    WordsAreCleanKotlin(s);
    WordsAreCleanJs(s);
  }

  lemma WordsAreCleanKotlin(s: string)
    requires WordsFrom(s, 0)
    ensures CleanKotlin(s) == s
  {
    if s != [] {
      LettersAreNoSpace();
      WordsCompact(s, IsRegexSpace);
      WordsCompact(s, IsKotlinWhitespace);
    }
    CleanLabel(s);
  }

  lemma WordsAreCleanJs(s: string)
    requires WordsFrom(s, 0)
    ensures CleanJs(s) == s
  {
    if s != [] {
      LettersAreNoSpace();
      WordsCompact(s, IsJsSpace);
    }
    CleanJsLabel(s);
  }

  lemma LettersAreNoSpace()
    ensures forall c :: IsLetter(c) ==> !IsRegexSpace(c)
    ensures forall c :: IsLetter(c) ==> !IsJsSpace(c)
    ensures forall c :: IsLetter(c) ==> !IsKotlinWhitespace(c)
  {
    forall c | IsLetter(c)
      ensures !IsRegexSpace(c) && !IsJsSpace(c) && !IsKotlinWhitespace(c)
    {
      LetterIsNoSpace(c);
    }
  }

  // The keyword facts about each label, stated for any string equal to it so
  // that the solver does not evaluate the recursive predicates on literals.

  lemma {:induction false} WaitingKeywords(s: string)
    requires s == Waiting
    ensures Contains(s, "در انتظار") && Contains(s, "تحویل")
  {
    assert MatchesFrom(Waiting, "در انتظار", 0, 0);
    assert MatchesFrom(Waiting, "تحویل", 10, 0);
    MatchContained(s, "در انتظار", 0);
    MatchContained(s, "تحویل", 10);
  }

  lemma WaitingPatterns(s: string)
    requires s == Waiting
    ensures WaitingAt(s)
  {
    WaitingPieces(s);
    WaitingLayout(s);
  }

  lemma WaitingPieces(s: string)
    requires s == Waiting
    ensures |s| >= 15 && s[2] == ' ' && s[9] == ' '
    ensures s[..2] == "در" && s[3..9] == "انتظار" && s[10..15] == "تحویل"
  {
  }

  /** "در", a space, "انتظار", a space, "تحویل" at the start of `s` matches the waiting pattern. */
  lemma WaitingLayout(s: string)
    requires |s| >= 15 && s[2] == ' ' && s[9] == ' '
    requires s[..2] == "در" && s[3..9] == "انتظار" && s[10..15] == "تحویل"
    ensures WaitingAt(s)
  {
    var t := s[3..];
    WaitingGap(s, t);
    assert StartsWith(t, "انتظار") by {
      assert t[..6] == s[3..9];
    }
    var u := t[6..];
    assert u[0] == s[9];
    assert u[1..6] == s[10..15] by {
      assert forall k :: 1 <= k < 6 ==> u[k] == s[9 + k];
    }
    WaitingTail(u, "تحویل");
  }

  /** The single space between "در" and "انتظار" is all that the pattern's `\s*` skips. */
  lemma WaitingGap(s: string, t: string)
    requires |s| >= 4 && s[2] == ' ' && IsLetter(s[3]) && t == s[3..]
    ensures TrimStart(s[2..], IsJsSpace) == t
  {
    assert s[2..][1..] == t;
    LetterIsNoSpace(s[3]);
    LettersAreNoJsSpace();
    SkipOneSpace(s[2..], IsJsSpace);
  }

  /** A space and then `w` matches `.*w`. */
  lemma WaitingTail(u: string, w: string)
    requires |u| >= |w| + 1 && u[0] == ' ' && u[1..|w| + 1] == w
    ensures OnLine(u, w)
  {
    assert u[1..][..|w|] == u[1..|w| + 1];
    assert StartsWith(u[1..], w);
    assert OnLine(u[1..], w);
  }

  lemma {:induction false} CollectedKeywords(s: string)
    requires s == Collected
    ensures !Contains(s, "در انتظار") && Contains(s, "وصولی")
  {
    assert MatchesFrom(Collected, "وصولی", 0, 0);
    assert AbsentFrom(Collected, '\U{062F}', 0);
    AbsentNotContained(s, "در انتظار", 0);
    MatchContained(s, "وصولی", 0);
  }

  lemma {:induction false} CollectedPatterns(s: string)
    requires s == Collected
    ensures !WaitingPattern(s)
  {
    assert AbsentFrom(Collected, '\U{062F}', 0);
    AbsentFromMeans(s, '\U{062F}', 0);
    NoDalNoWaiting(s);
  }

  lemma {:induction false} CancelledKeywords(s: string)
    requires s == Cancelled
    ensures !Contains(s, "در انتظار") && !Contains(s, "وصولی") && Contains(s, "کنسل")
  {
    assert MatchesFrom(Cancelled, "کنسل", 0, 0);
    assert AbsentFrom(Cancelled, '\U{062F}', 0);
    assert AbsentFrom(Cancelled, '\U{0648}', 0);
    AbsentNotContained(s, "در انتظار", 0);
    AbsentNotContained(s, "وصولی", 0);
    MatchContained(s, "کنسل", 0);
  }

  lemma CancelledPatterns(s: string)
    requires s == Cancelled
    ensures !WaitingPattern(s) && CancelPattern(s)
  {
    CancelledNotWaiting(s);
    CancelledSpaced(s, "نهایی");
    assert ContainsSpaced(s, "کنسل", "نهایی");
  }

  lemma CancelledNotWaiting(s: string)
    requires s == Cancelled
    ensures !WaitingPattern(s)
  {
    assert AbsentFrom(Cancelled, '\U{062F}', 0);
    AbsentFromMeans(s, '\U{062F}', 0);
    NoDalNoWaiting(s);
  }

  lemma CancelledSpaced(s: string, b: string)
    requires s == Cancelled && b == "نهایی"
    ensures SpacedAt(s, "کنسل", b)
  {
    assert MatchesFrom(Cancelled, "کنسل", 0, 0);
    assert MatchesFrom(Cancelled, "نهایی", 5, 0);
    LetterIsNoSpace(b[0]);
    OneSpaceApart(s, "کنسل", b);
  }

  lemma WithdrawnKeywords(s: string)
    requires s == Withdrawn
    ensures !Contains(s, "در انتظار") && !Contains(s, "وصولی")
    ensures !Contains(s, "کنسل") && !Contains(s, "کنسلی") && Contains(s, "انصرافی")
  {
    WithdrawnLacksOthers(s);
    WithdrawnHasKeyword(s);
  }

  lemma WithdrawnHasKeyword(s: string)
    requires s == Withdrawn
    ensures Contains(s, "انصرافی")
  {
    assert MatchesFrom(Withdrawn, "انصرافی", 0, 0);
    MatchContained(s, "انصرافی", 0);
  }

  lemma WithdrawnLacksOthers(s: string)
    requires s == Withdrawn
    ensures !Contains(s, "در انتظار") && !Contains(s, "وصولی")
    ensures !Contains(s, "کنسل") && !Contains(s, "کنسلی")
  {
    assert AbsentFrom(Withdrawn, '\U{062F}', 0);
    assert AbsentFrom(Withdrawn, '\U{0648}', 0);
    assert AbsentFrom(Withdrawn, '\U{06A9}', 0);
    AbsentNotContained(s, "در انتظار", 0);
    AbsentNotContained(s, "وصولی", 0);
    AbsentNotContained(s, "کنسل", 0);
    AbsentNotContained(s, "کنسلی", 0);
  }

  lemma {:induction false} WithdrawnPatterns(s: string)
    requires s == Withdrawn
    ensures !WaitingPattern(s) && !CancelPattern(s)
  {
    assert AbsentFrom(Withdrawn, '\U{062F}', 0);
    assert AbsentFrom(Withdrawn, '\U{06A9}', 0);
    AbsentFromMeans(s, '\U{062F}', 0);
    NoDalNoWaiting(s);
    AbsentFromMeans(s, '\U{06A9}', 0);
    NoKafNoCancel(s);
  }

  /** Every label is letters separated by single spaces. */
  lemma LabelIsWords(s: string)
    requires IsCategory(s)
    ensures WordsFrom(s, 0)
  {
    if s == Waiting {
      WaitingIsWords(s);
    } else if s == Collected {
      CollectedIsWords(s);
    } else if s == Cancelled {
      CancelledIsWords(s);
    } else {
      WithdrawnIsWords(s);
    }
  }

  lemma WaitingIsWords(s: string)
    requires s == Waiting
    ensures WordsFrom(s, 0)
  {
    assert WordsFrom(Waiting, 0);
  }

  lemma CollectedIsWords(s: string)
    requires s == Collected
    ensures WordsFrom(s, 0)
  {
    assert WordsFrom(Collected, 0);
  }

  lemma CancelledIsWords(s: string)
    requires s == Cancelled
    ensures WordsFrom(s, 0)
  {
    assert WordsFrom(Cancelled, 0);
  }

  lemma WithdrawnIsWords(s: string)
    requires s == Withdrawn
    ensures WordsFrom(s, 0)
  {
    assert WordsFrom(Withdrawn, 0);
  }

  lemma KotlinFixesWaiting(s: string)
    requires s == Waiting
    ensures NormalizeDelivery(s) == s
  {
    LabelIsWords(s);
    WordsAreCleanKotlin(s);
    WaitingKeywords(s);
  }

  lemma KotlinFixesCollected(s: string)
    requires s == Collected
    ensures NormalizeDelivery(s) == s
  {
    LabelIsWords(s);
    WordsAreCleanKotlin(s);
    CollectedKeywords(s);
  }

  lemma KotlinFixesCancelled(s: string)
    requires s == Cancelled
    ensures NormalizeDelivery(s) == s
  {
    LabelIsWords(s);
    WordsAreCleanKotlin(s);
    CancelledKeywords(s);
  }

  lemma KotlinFixesWithdrawn(s: string)
    requires s == Withdrawn
    ensures NormalizeDelivery(s) == s
  {
    LabelIsWords(s);
    WordsAreCleanKotlin(s);
    WithdrawnKeywords(s);
  }

  // ---------------------------------------------------------------------------
  // The page script's normalizeStatus and mapStatus
  // ---------------------------------------------------------------------------

  /** `normalizeStatus(raw)`: letters, then `/\s+/g` to one space, then `trim()`, all with JavaScript's `\s`. */
  function CleanJs(raw: string): string {
    Trim(Collapse(PersianLetters(raw), IsJsSpace), IsJsSpace)
  }

  /** The page script's cleaned status: Persian letters, single spaces, no whitespace at the ends; empty only for blank input. */
  lemma {:induction false} CleanJsShape(raw: string)
    ensures ArabicYeh !in CleanJs(raw) && ArabicKaf !in CleanJs(raw)
    ensures Compact(CleanJs(raw), IsJsSpace)
    ensures Trimmed(CleanJs(raw), IsJsSpace)
    ensures CleanJs(raw) == [] <==> AllIn(raw, IsJsSpace)
  {
    LettersAreNoJsSpace();
    ForeignLettersGone(raw, IsJsSpace, IsJsSpace, CleanJs(raw));
    CleanJsCompact(raw);
    CleanJsBlank(raw);
  }

  lemma {:induction false} CleanJsCompact(raw: string)
    ensures Compact(CleanJs(raw), IsJsSpace)
    ensures Trimmed(CleanJs(raw), IsJsSpace)
  {
    CleanedShape(PersianLetters(raw), IsJsSpace, IsJsSpace, CleanJs(raw));
  }

  lemma {:induction false} CleanJsBlank(raw: string)
    ensures CleanJs(raw) == [] <==> AllIn(raw, IsJsSpace)
  {
    var p := PersianLetters(raw);
    var c := Collapse(p, IsJsSpace);
    assert CleanJs(raw) == Trim(c, IsJsSpace);
    CollapseAllSpace(p, IsJsSpace);
    PersianLettersKeepSpaces(raw);
  }

  lemma {:induction false} CollapseAllSpace(s: string, p: char -> bool)
    requires p(' ')
    ensures AllIn(Collapse(s, p), p) <==> AllIn(s, p)
  {
    var c := Collapse(s, p);
    if AllIn(s, p) {
      StripAllGone(s, p);
      StripEmptyAllIn(c, p);
    } else {
      var j :| 0 <= j < |s| && !p(s[j]);
      StripKeeps(s, p, j);
      if AllIn(c, p) {
        StripAllGone(c, p);
        assert false;
      }
    }
  }

  lemma {:induction false} StripEmptyAllIn(s: string, p: char -> bool)
    requires Strip(s, p) == []
    ensures AllIn(s, p)
    decreases |s|
  {
    if s != [] {
      StripEmptyAllIn(s[1..], p);
    }
  }

  lemma {:induction false} StripKeeps(s: string, p: char -> bool, j: nat)
    requires j < |s| && !p(s[j])
    ensures Strip(s, p) != []
    decreases |s|
  {
    if j > 0 && p(s[0]) {
      StripKeeps(s[1..], p, j - 1);
    }
  }

  predicate IsLineTerminator(c: char) {
    c == '\n' || c == '\r' || c == '\U{2028}' || c == '\U{2029}'
  }

  /** `/a\s*b/` matches at the very start of `s` (`b` never starts with a space). */
  predicate SpacedAt(s: string, a: string, b: string) {
    StartsWith(s, a) && StartsWith(TrimStart(s[|a|..], IsJsSpace), b)
  }

  /** `/a\s*b/.test(s)`. */
  predicate ContainsSpaced(s: string, a: string, b: string)
    decreases |s|
  {
    SpacedAt(s, a, b) || (|s| > 0 && ContainsSpaced(s[1..], a, b))
  }

  /** `/.*t/` matches at the start of `s`: `t` occurs with no line terminator before it. */
  predicate OnLine(s: string, t: string)
    decreases |s|
  {
    StartsWith(s, t) || (|s| > 0 && !IsLineTerminator(s[0]) && OnLine(s[1..], t))
  }

  /** `/در\s*انتظار.*تحویل/` matches at the very start of `s`. */
  predicate WaitingAt(s: string) {
    && StartsWith(s, "در")
    && var t := TrimStart(s[2..], IsJsSpace);
       StartsWith(t, "انتظار") && OnLine(t[6..], "تحویل")
  }

  /** `/در\s*انتظار.*تحویل/.test(s)`. */
  predicate WaitingPattern(s: string)
    decreases |s|
  {
    WaitingAt(s) || (|s| > 0 && WaitingPattern(s[1..]))
  }

  /** `/کنسل\s*نهایی|کنسلی/.test(s)`. */
  predicate CancelPattern(s: string) {
    ContainsSpaced(s, "کنسل", "نهایی") || Contains(s, "کنسلی")
  }

  /** `/انصرافی\s*هماهنگی|انصرافی/.test(s)`. */
  predicate WithdrawnPattern(s: string) {
    ContainsSpaced(s, "انصرافی", "هماهنگی") || Contains(s, "انصرافی")
  }

  /** The pattern tests of `mapStatus`, first match wins. */
  function ClassifyJs(s: string): (r: string)
    ensures r != s ==> IsCategory(r)
    ensures s != [] ==> r != []
  {
    if WaitingPattern(s) then Waiting
    else if Contains(s, "وصولی") then Collected
    else if CancelPattern(s) then Cancelled
    else if WithdrawnPattern(s) then Withdrawn
    else s
  }

  /** `mapStatus(raw)`. */
  function MapStatus(raw: string): (r: string)
    ensures r != CleanJs(raw) ==> IsCategory(r)
    ensures r == [] <==> AllIn(raw, IsJsSpace)
  {
    CleanJsBlank(raw);
    var s := CleanJs(raw);
    if s == [] then [] else ClassifyJs(s)
  }

  /** The status written into a scraped row: `mapStatus(rawStatus || listStatus) || normalizeStatus(listStatus)`. */
  function FinalStatus(rawStatus: string, listStatus: string): string {
    var m := MapStatus(if rawStatus != [] then rawStatus else listStatus);
    if m != [] then m else CleanJs(listStatus)
  }

  /**
    The fallback to `normalizeStatus(listStatus)` never changes the outcome:
    the detail-page status is already trimmed, and `mapStatus` returns "" exactly
    when `normalizeStatus` does.
   */
  lemma {:induction false} FallbackIsDead(rawStatus: string, listStatus: string)
    requires rawStatus == [] || !IsJsSpace(rawStatus[0])
    ensures FinalStatus(rawStatus, listStatus) == MapStatus(if rawStatus != [] then rawStatus else listStatus)
  {
    if rawStatus == [] {
      CleanJsBlank(listStatus);
    } else {
      assert !AllIn(rawStatus, IsJsSpace) by {
        assert !IsJsSpace(rawStatus[0]);
      }
    }
  }

  /** The JavaScript `\s`-pattern `/a\s*b/` only matches where `a` itself occurs. */
  lemma {:induction false} ContainsSpacedContains(s: string, a: string, b: string)
    ensures ContainsSpaced(s, a, b) ==> Contains(s, a)
    decreases |s|
  {
    if |s| > 0 && !SpacedAt(s, a, b) {
      ContainsSpacedContains(s[1..], a, b);
    }
  }

  /** The first alternative of the withdrawn pattern is subsumed by the second. */
  lemma WithdrawnIsPlain(s: string)
    ensures WithdrawnPattern(s) <==> Contains(s, "انصرافی")
  {
    ContainsSpacedContains(s, "انصرافی", "هماهنگی");
  }

  /** `a`, one space, then `b` at the start of `s` is a match of `/a\s*b/`. */
  lemma {:induction false} OneSpaceApart(s: string, a: string, b: string)
    requires |a| < |s| && s[|a|] == ' '
    requires MatchesFrom(s, a, 0, 0) && MatchesFrom(s, b, |a| + 1, 0)
    requires b != [] && !IsJsSpace(b[0])
    ensures SpacedAt(s, a, b)
  {
    MatchContained(s, a, 0);
    MatchContained(s, b, |a| + 1);
    var r := s[|a|..];
    assert r[1..] == s[|a| + 1..];
    assert r[1] == b[0];
    LettersAreNoJsSpace();
    SkipOneSpace(r, IsJsSpace);
    assert s[|a| + 1..][..|b|] == s[|a| + 1..|a| + 1 + |b|];
  }

  lemma {:induction false} NoDalNoWaiting(s: string)
    requires forall j :: 0 <= j < |s| ==> s[j] != '\U{062F}'
    ensures !WaitingPattern(s)
    decreases |s|
  {
    if |s| > 0 {
      assert !StartsWith(s, "در") by {
        assert s[0] != "در"[0];
      }
      NoDalNoWaiting(s[1..]);
    }
  }

  lemma {:induction false} NoKafNoCancel(s: string)
    requires forall j :: 0 <= j < |s| ==> s[j] != '\U{06A9}'
    ensures !CancelPattern(s)
  {
    ContainsSpacedContains(s, "کنسل", "نهایی");
    MissingCharNotContained(s, "کنسل", '\U{06A9}');
    MissingCharNotContained(s, "کنسلی", '\U{06A9}');
  }

  /** A clean status is its own `normalizeStatus`. */
  lemma {:induction false} CleanJsLabel(c: string)
    requires ArabicYeh !in c && ArabicKaf !in c
    requires Compact(c, IsJsSpace)
    requires Trimmed(c, IsJsSpace)
    ensures CleanJs(c) == c
  {
    assert PersianLetters(c) == c;
    CollapseCompact(c, IsJsSpace);
  }

  lemma {:induction false} CleanJsIdempotent(raw: string)
    ensures CleanJs(CleanJs(raw)) == CleanJs(raw)
  {
    CleanJsShape(raw);
    CleanJsLabel(CleanJs(raw));
  }

  lemma PageFixesWaiting(s: string)
    requires s == Waiting
    ensures MapStatus(s) == s
  {
    LabelIsWords(s);
    WordsAreCleanJs(s);
    WaitingKeywords(s);
    WaitingPatterns(s);
  }

  lemma PageFixesCollected(s: string)
    requires s == Collected
    ensures MapStatus(s) == s
  {
    LabelIsWords(s);
    WordsAreCleanJs(s);
    CollectedKeywords(s);
    CollectedPatterns(s);
  }

  lemma PageFixesCancelled(s: string)
    requires s == Cancelled
    ensures MapStatus(s) == s
  {
    LabelIsWords(s);
    WordsAreCleanJs(s);
    CancelledKeywords(s);
    CancelledPatterns(s);
  }

  lemma PageFixesWithdrawn(s: string)
    requires s == Withdrawn
    ensures MapStatus(s) == s
  {
    LabelIsWords(s);
    WordsAreCleanJs(s);
    WithdrawnKeywords(s);
    WithdrawnPatterns(s);
  }

  /** Each canonical category is its own `mapStatus`. */
  lemma {:induction false} PageFixesCategories()
    ensures forall c :: IsCategory(c) ==> MapStatus(c) == c
  {
    forall c | IsCategory(c)
      ensures MapStatus(c) == c
    {
      if c == Waiting {
        PageFixesWaiting(c);
      } else if c == Collected {
        PageFixesCollected(c);
      } else if c == Cancelled {
        PageFixesCancelled(c);
      } else {
        PageFixesWithdrawn(c);
      }
    }
  }

  /** Mapping a mapped status again changes nothing. */
  lemma {:induction false} MapStatusIdempotent(raw: string)
    ensures MapStatus(MapStatus(raw)) == MapStatus(raw)
  {
    var r := MapStatus(raw);
    if IsCategory(r) {
      PageFixesCategories();
    } else {
      CleanJsIdempotent(raw);
    }
  }

  // ---------------------------------------------------------------------------
  // The two normalisers side by side
  // ---------------------------------------------------------------------------

  /** A category the page script assigned survives the app's normaliser, so the filter finds it. */
  lemma {:induction false} AppKeepsPageCategories(raw: string)
    requires IsCategory(MapStatus(raw))
    ensures NormalizeDelivery(MapStatus(raw)) == MapStatus(raw)
  {
    KotlinFixesCategories();
  }

  /** The bare word "کنسل" is a cancellation to the app but not to the page script. */
  lemma {:induction false} BareCancelDiffers(s: string)
    requires s == "کنسل"
    ensures NormalizeDelivery(s) == Cancelled
    ensures MapStatus(s) == s
  {
    assert WordsFrom("کنسل", 0);
    WordsAreClean(s);
    BareCancelKeywords(CleanKotlin(s));
    var c := CleanJs(s);
    BareCancelKeywords(c);
    AbsentFromMeans(c, '\U{062F}', 0);
    NoDalNoWaiting(c);
    NotSpacedWhenShort(c, "کنسل", "نهایی");
    WithdrawnIsPlain(c);
    assert !CancelPattern(c) && !WithdrawnPattern(c);
    assert ClassifyJs(c) == c;
  }

  lemma {:induction false} BareCancelKeywords(s: string)
    requires s == "کنسل"
    ensures !Contains(s, "در انتظار") && !Contains(s, "وصولی") && Contains(s, "کنسل")
    ensures !Contains(s, "کنسلی") && !Contains(s, "انصرافی")
    ensures AbsentFrom(s, '\U{062F}', 0)
  {
    assert AbsentFrom("کنسل", '\U{062F}', 0);
    assert AbsentFrom("کنسل", '\U{0648}', 0);
    assert AbsentFrom("کنسل", '\U{06CC}', 0);
    assert AbsentFrom("کنسل", '\U{0627}', 0);
    AbsentNotContained(s, "در انتظار", 0);
    AbsentNotContained(s, "وصولی", 0);
    AbsentNotContained(s, "کنسلی", 4);
    AbsentNotContained(s, "انصرافی", 0);
    OccurrenceContained(s, "کنسل", 0);
  }

  /** `/a\s*b/` needs room for both `a` and `b`. */
  lemma {:induction false} NotSpacedWhenShort(s: string, a: string, b: string)
    requires |s| < |a| + |b|
    ensures !ContainsSpaced(s, a, b)
    decreases |s|
  {
    if |s| > 0 {
      NotSpacedWhenShort(s[1..], a, b);
    }
  }

  /**
    A zero-width no-break space (U+FEFF) is whitespace to the page script but
    not to the app: a status made of it is blank to one and kept by the other.
   */
  lemma ByteOrderMarkDiffers(s: string)
    requires s == "\U{FEFF}"
    ensures NormalizeDelivery(s) == s
    ensures MapStatus(s) == []
  {
    AppKeepsByteOrderMark(s);
    PageDropsByteOrderMark(s);
  }

  lemma AppKeepsByteOrderMark(s: string)
    requires s == "\U{FEFF}"
    ensures NormalizeDelivery(s) == s
  {
    ByteOrderMarkClass(s[0]);
    assert Compact(s, IsRegexSpace);
    CleanLabel(s);
    ByteOrderMarkKeywords(s);
  }

  lemma ByteOrderMarkKeywords(s: string)
    requires s == "\U{FEFF}"
    ensures ClassifyKotlin(s) == s
  {
    assert AbsentFrom("\U{FEFF}", '\U{062F}', 0);
    assert AbsentFrom("\U{FEFF}", '\U{0648}', 0);
    assert AbsentFrom("\U{FEFF}", '\U{06A9}', 0);
    assert AbsentFrom("\U{FEFF}", '\U{0627}', 0);
    AbsentNotContained(s, "در انتظار", 0);
    AbsentNotContained(s, "وصولی", 0);
    AbsentNotContained(s, "کنسل", 0);
    AbsentNotContained(s, "کنسلی", 0);
    AbsentNotContained(s, "انصرافی", 0);
  }

  lemma PageDropsByteOrderMark(s: string)
    requires s == "\U{FEFF}"
    ensures MapStatus(s) == []
  {
    ByteOrderMarkClass(s[0]);
    assert AllIn(s, IsJsSpace);
  }

  lemma ByteOrderMarkClass(c: char)
    requires c == '\U{FEFF}'
    ensures IsJsSpace(c) && !IsRegexSpace(c) && !IsKotlinWhitespace(c) && !IsLetter(c)
  {
  }

  // ---------------------------------------------------------------------------
  // Keywords through cleaning, and which test wins
  // ---------------------------------------------------------------------------

  /** The letter rewrite leaves an occurrence of text without Arabic yeh or kaf in place. */
  lemma PersianKeepsOccurrence(raw: string, t: string, i: nat)
    requires OccursAt(raw, t, i) && ArabicYeh !in t && ArabicKaf !in t
    ensures OccursAt(PersianLetters(raw), t, i)
  {
    var y := ReplaceChar(raw, ArabicYeh, PersianYeh);
    var r := ReplaceChar(y, ArabicKaf, PersianKaf);
    assert r == PersianLetters(raw);
    forall k | 0 <= k < |t|
      ensures r[i + k] == t[k]
    {
      assert raw[i + k] == t[k] && t[k] != ArabicYeh && t[k] != ArabicKaf;
      assert y[i + k] == raw[i + k];
    }
  }

  /** Text without Persian yeh or kaf found after the letter rewrite was there before it. */
  lemma PersianFindsOccurrence(raw: string, t: string, j: nat)
    requires OccursAt(PersianLetters(raw), t, j) && PersianYeh !in t && PersianKaf !in t
    ensures OccursAt(raw, t, j)
  {
    var y := ReplaceChar(raw, ArabicYeh, PersianYeh);
    var r := ReplaceChar(y, ArabicKaf, PersianKaf);
    assert r == PersianLetters(raw);
    forall k | 0 <= k < |t|
      ensures raw[j + k] == t[k]
    {
      assert r[j + k] == t[k] && t[k] != PersianYeh && t[k] != PersianKaf;
      assert y[j + k] != ArabicKaf;
      assert raw[j + k] != ArabicYeh;
    }
  }

  /**
    A run of words in the raw text survives the letter rewrite, collapsing
    and trimming, so the classifier still sees it.
   */
  lemma KeywordSurvives(raw: string, t: string, p: char -> bool, q: char -> bool, clean: string)
    requires p(' ') && WordRun(t, p) && !q(t[0]) && !q(t[|t| - 1])
    requires ArabicYeh !in t && ArabicKaf !in t
    requires clean == Trim(Collapse(PersianLetters(raw), p), q)
    ensures Contains(raw, t) ==> Contains(clean, t)
  {
    if Contains(raw, t) {
      var i := ContainedOccurs(raw, t);
      PersianKeepsOccurrence(raw, t, i);
      var j := CollapseKeepsOccurrence(PersianLetters(raw), p, t, i);
      var k := TrimKeepsOccurrence(Collapse(PersianLetters(raw), p), q, t, j);
      OccursContained(clean, t, k);
    }
  }

  /** Cleaning creates no occurrence of a space-free word without Persian yeh or kaf. */
  lemma KeywordOrigin(raw: string, t: string, p: char -> bool, q: char -> bool, clean: string)
    requires p(' ') && t != [] && NoneIn(t, p) && PersianYeh !in t && PersianKaf !in t
    requires clean == Trim(Collapse(PersianLetters(raw), p), q)
    ensures Contains(clean, t) ==> Contains(raw, t)
  {
    if Contains(clean, t) {
      var k := ContainedOccurs(clean, t);
      var j := TrimFindsOccurrence(Collapse(PersianLetters(raw), p), q, t, k);
      var i := CollapseFindsOccurrence(PersianLetters(raw), p, t, j);
      PersianFindsOccurrence(raw, t, i);
      OccursContained(raw, t, i);
    }
  }

  /** Letters other than the Persian yeh and kaf: a word that no letter rewrite can produce. */
  predicate PlainLetters(t: string) {
    forall k :: 0 <= k < |t| ==> IsLetter(t[k]) && t[k] != PersianYeh && t[k] != PersianKaf
  }

  lemma WordsAreKeyword(t: string)
    requires t != [] && WordsFrom(t, 0)
    ensures WordRun(t, IsRegexSpace) && WordRun(t, IsJsSpace)
    ensures !IsKotlinWhitespace(t[0]) && !IsKotlinWhitespace(t[|t| - 1])
    ensures ArabicYeh !in t && ArabicKaf !in t
  {
    LettersAreNoSpace();
    WordsCompact(t, IsRegexSpace);
    WordsCompact(t, IsJsSpace);
    WordsCompact(t, IsKotlinWhitespace);
  }

  /** A keyword in the raw status is still there after the app's cleaning. */
  lemma KotlinKeeps(raw: string, t: string)
    requires t != [] && WordsFrom(t, 0)
    ensures Contains(raw, t) ==> Contains(CleanKotlin(raw), t)
  {
    WordsAreKeyword(t);
    KeywordSurvives(raw, t, IsRegexSpace, IsKotlinWhitespace, CleanKotlin(raw));
  }

  /** A keyword in the raw status is still there after the page's cleaning. */
  lemma PageKeeps(raw: string, t: string)
    requires t != [] && WordsFrom(t, 0)
    ensures Contains(raw, t) ==> Contains(CleanJs(raw), t)
  {
    WordsAreKeyword(t);
    KeywordSurvives(raw, t, IsJsSpace, IsJsSpace, CleanJs(raw));
  }

  /** A plain word in the app's cleaned status was in the raw status. */
  lemma KotlinFinds(raw: string, t: string)
    requires t != [] && PlainLetters(t)
    ensures Contains(CleanKotlin(raw), t) ==> Contains(raw, t)
  {
    LettersAreNoSpace();
    assert NoneIn(t, IsRegexSpace);
    KeywordOrigin(raw, t, IsRegexSpace, IsKotlinWhitespace, CleanKotlin(raw));
  }

  /** A plain word in the page's cleaned status was in the raw status. */
  lemma PageFinds(raw: string, t: string)
    requires t != [] && PlainLetters(t)
    ensures Contains(CleanJs(raw), t) ==> Contains(raw, t)
  {
    LettersAreNoSpace();
    assert NoneIn(t, IsJsSpace);
    KeywordOrigin(raw, t, IsJsSpace, IsJsSpace, CleanJs(raw));
  }

  lemma AwaitingIsWords(s: string)
    requires s == "در انتظار"
    ensures s != [] && WordsFrom(s, 0)
  {
    assert WordsFrom("در انتظار", 0);
  }

  lemma DeliveryIsWords(s: string)
    requires s == "تحویل"
    ensures s != [] && WordsFrom(s, 0)
  {
    assert WordsFrom("تحویل", 0);
  }

  lemma WaitWordIsPlain(s: string)
    requires s == "انتظار"
    ensures s != [] && PlainLetters(s)
  {
  }

  /** "انتظار" sits inside "در انتظار", three characters in. */
  lemma WaitWordInside(n: string)
    ensures Contains(n, "در انتظار") ==> Contains(n, "انتظار")
  {
    if Contains(n, "در انتظار") {
      var i := ContainedOccurs(n, "در انتظار");
      WaitWordAt("در انتظار", "انتظار");
      forall k | 0 <= k < 6
        ensures n[i + 3 + k] == "انتظار"[k]
      {
        assert n[i + (3 + k)] == "در انتظار"[3 + k];
      }
      OccursContained(n, "انتظار", i + 3);
    }
  }

  lemma WaitWordAt(a: string, b: string)
    requires a == "در انتظار" && b == "انتظار"
    ensures |a| == 9 && |b| == 6 && forall k :: 0 <= k < 6 ==> a[3 + k] == b[k]
  {
  }

  /** Every match of the waiting pattern has "انتظار" in it. */
  lemma {:induction false} WaitingNeedsWaitWord(s: string)
    ensures WaitingPattern(s) ==> Contains(s, "انتظار")
    decreases |s|
  {
    if WaitingAt(s) {
      WaitingAtHasWaitWord(s, "انتظار");
    } else if |s| > 0 {
      WaitingNeedsWaitWord(s[1..]);
    }
  }

  lemma WaitingAtHasWaitWord(s: string, w: string)
    requires w == "انتظار" && WaitingAt(s)
    ensures Contains(s, w)
  {
    var t := TrimStart(s[2..], IsJsSpace);
    assert StartsWith(t, w);
    StartsWithOccurs(t, w);
    var k := |s| - |t|;
    assert t == s[k..];
    var m := SuffixOccurs(s, k, t, w, 0);
    OccursContained(s, w, m);
  }

  /** The label "در انتظار تحویل" anywhere in the page's text matches the waiting pattern. */
  lemma WaitingLabelMatches(s: string)
    ensures Contains(s, Waiting) ==> WaitingPattern(s)
  {
    if Contains(s, Waiting) {
      var i := ContainedOccurrence(s, Waiting);
      WaitingAtLabel(s[i..]);
      WaitingPatternFrom(s, i);
    }
  }

  lemma WaitingAtLabel(u: string)
    requires StartsWith(u, Waiting)
    ensures WaitingAt(u)
  {
    var w := u[..15];
    WaitingPieces(w);
    assert u[..2] == w[..2] && u[3..9] == w[3..9] && u[10..15] == w[10..15];
    WaitingLayout(u);
  }

  lemma {:induction false} WaitingPatternFrom(s: string, i: nat)
    requires i <= |s| && WaitingAt(s[i..])
    ensures WaitingPattern(s)
    decreases i
  {
    if i > 0 {
      assert s[1..][i - 1..] == s[i..];
      WaitingPatternFrom(s[1..], i - 1);
    }
  }

  /**
    `normalizeDeliveryStatus` tests for waiting first: raw text mentioning
    "در انتظار" and "تحویل" is filed as waiting, whatever else it says.
   */
  lemma KotlinWaitingWins(raw: string)
    ensures Contains(raw, "در انتظار") && Contains(raw, "تحویل") ==> NormalizeDelivery(raw) == Waiting
  {
    AwaitingIsWords("در انتظار");
    DeliveryIsWords("تحویل");
    KotlinKeeps(raw, "در انتظار");
    KotlinKeeps(raw, "تحویل");
  }

  /**
    Collected is tested second: raw text mentioning "وصولی" but not "انتظار"
    is filed as collected, whatever cancel or withdrawal words it also has.
   */
  lemma KotlinCollectedWins(raw: string)
    ensures Contains(raw, Collected) && !Contains(raw, "انتظار") ==> NormalizeDelivery(raw) == Collected
  {
    CollectedIsWords(Collected);
    KotlinKeeps(raw, Collected);
    WaitWordIsPlain("انتظار");
    KotlinFinds(raw, "انتظار");
    WaitWordInside(CleanKotlin(raw));
  }

  /** `mapStatus` tests the waiting pattern first: raw text containing the waiting label maps to it. */
  lemma PageWaitingWins(raw: string)
    ensures Contains(raw, Waiting) ==> MapStatus(raw) == Waiting
  {
    WaitingIsWords(Waiting);
    PageKeeps(raw, Waiting);
    WaitingLabelMatches(CleanJs(raw));
  }

  /**
    `mapStatus` tests "وصولی" second: raw text containing it but not
    "انتظار" maps to collected, whatever else it contains.
   */
  lemma PageCollectedWins(raw: string)
    ensures Contains(raw, Collected) && !Contains(raw, "انتظار") ==> MapStatus(raw) == Collected
  {
    CollectedIsWords(Collected);
    PageKeeps(raw, Collected);
    WaitWordIsPlain("انتظار");
    PageFinds(raw, "انتظار");
    WaitingNeedsWaitWord(CleanJs(raw));
  }
}

=== FILE: text.dfy ===
/**
  Character classes and string operations shared by the Kotlin side and the
  in-page JavaScript side of the app. Strings are `seq<char>` of UTF-16 code
  units; every character named below lies in the Basic Multilingual Plane.
 */
module Text {
  import opened Wrappers
  import Int32

  // ---------------------------------------------------------------------------
  // Whitespace: the three runtimes involved disagree on what it is.
  // ---------------------------------------------------------------------------

  /** Unicode separators, general categories Zs, Zl and Zp. */
  predicate IsSeparator(c: char) {
    || c == ' ' || c == '\U{00A0}' || c == '\U{1680}'
    || ('\U{2000}' <= c <= '\U{200A}')
    || c == '\U{2028}' || c == '\U{2029}' || c == '\U{202F}' || c == '\U{205F}' || c == '\U{3000}'
  }

  /**
    `\s` in a Kotlin `Regex` on Android, whose java.util.regex is backed by
    ICU: the Unicode White_Space property, that is U+0009..U+000D, U+0085
    and the separators.
   */
  predicate IsRegexSpace(c: char) {
    ('\t' <= c <= '\r') || c == '\U{0085}' || IsSeparator(c)
  }

  /** `\s` in a JavaScript regular expression; also what `String.prototype.trim` removes. */
  predicate IsJsSpace(c: char) {
    || c == '\t' || c == '\n' || c == '\U{000B}' || c == '\U{000C}' || c == '\r'
    || c == '\U{FEFF}' || IsSeparator(c)
  }

  /** Kotlin `Char.isWhitespace`, which `trim()` and `isBlank()` use. */
  predicate IsKotlinWhitespace(c: char) {
    || c == '\t' || c == '\n' || c == '\U{000B}' || c == '\U{000C}' || c == '\r'
    || ('\U{001C}' <= c <= '\U{001F}') || IsSeparator(c)
  }

  /**
    The three classes share U+0009..U+000D and the separators; beyond them
    the regex class adds U+0085, JavaScript adds U+FEFF, and Kotlin's
    `isWhitespace` adds U+001C..U+001F.
   */
  lemma SpaceClassesCompared(c: char)
    ensures IsRegexSpace(c) && c != '\U{0085}' <==> IsJsSpace(c) && c != '\U{FEFF}'
    ensures IsRegexSpace(c) && c != '\U{0085}' ==> IsKotlinWhitespace(c)
    ensures IsRegexSpace('\U{0085}') && !IsJsSpace('\U{0085}') && !IsKotlinWhitespace('\U{0085}')
    ensures IsJsSpace('\U{FEFF}') && !IsRegexSpace('\U{FEFF}') && !IsKotlinWhitespace('\U{FEFF}')
    ensures IsKotlinWhitespace('\U{001C}') && !IsRegexSpace('\U{001C}') && !IsJsSpace('\U{001C}')
  {
  }

  predicate NoneIn(s: string, p: char -> bool) {
    forall i :: 0 <= i < |s| ==> !p(s[i])
  }

  predicate AllIn(s: string, p: char -> bool) {
    forall i :: 0 <= i < |s| ==> p(s[i])
  }

  /** Neither end of `s` satisfies `p`. */
  predicate Trimmed(s: string, p: char -> bool) {
    s == [] || (!p(s[0]) && !p(s[|s| - 1]))
  }

  // ---------------------------------------------------------------------------
  // Removing, collapsing and trimming whitespace
  // ---------------------------------------------------------------------------

  /** `replace(/\s+/g, "")`: every character satisfying `p` deleted, the others kept in order. */
  function Strip(s: string, p: char -> bool): (r: string)
    ensures |r| <= |s|
    ensures NoneIn(r, p)
    ensures NoneIn(s, p) ==> r == s
    decreases |s|
  {
    if s == [] then []
    else (if p(s[0]) then [] else [s[0]]) + Strip(s[1..], p)
  }

  lemma {:induction false} StripAppend(a: string, b: string, p: char -> bool)
    ensures Strip(a + b, p) == Strip(a, p) + Strip(b, p)
    decreases |a|
  {
    if a == [] {
      assert a + b == b;
    } else {
      assert (a + b)[1..] == a[1..] + b;
      StripAppend(a[1..], b, p);
    }
  }

  lemma {:induction false} StripAllGone(s: string, p: char -> bool)
    requires AllIn(s, p)
    ensures Strip(s, p) == []
    decreases |s|
  {
    if s != [] {
      StripAllGone(s[1..], p);
    }
  }

  /** Two whitespace notions that agree on every character of `s` strip it alike. */
  lemma {:induction false} StripAgrees(s: string, p: char -> bool, q: char -> bool)
    requires forall i :: 0 <= i < |s| ==> p(s[i]) == q(s[i])
    ensures Strip(s, p) == Strip(s, q)
    decreases |s|
  {
    if s != [] {
      assert forall i :: 0 <= i < |s| - 1 ==> s[1..][i] == s[i + 1];
      StripAgrees(s[1..], p, q);
    }
  }

  /** Leading characters satisfying `p` removed: Kotlin `trimStart`, or skipping a run. */
  function TrimStart(s: string, p: char -> bool): (r: string)
    ensures |r| <= |s| && r == s[|s| - |r|..]
    ensures r == [] || !p(r[0])
    ensures AllIn(s[..|s| - |r|], p)
    decreases |s|
  {
    if s != [] && p(s[0]) then TrimStart(s[1..], p) else s
  }

  /** A single leading `p` character before a non-`p` one is all that `TrimStart` removes. */
  lemma SkipOneSpace(s: string, p: char -> bool)
    requires |s| >= 2 && p(s[0]) && !p(s[1])
    ensures TrimStart(s, p) == s[1..]
  {
  }

  /** Trailing characters satisfying `p` removed. */
  function TrimEnd(s: string, p: char -> bool): (r: string)
    ensures |r| <= |s| && r == s[..|r|]
    ensures r == [] || !p(r[|r| - 1])
    ensures AllIn(s[|r|..], p)
    decreases |s|
  {
    if s != [] && p(s[|s| - 1]) then TrimEnd(s[..|s| - 1], p) else s
  }

  /** `trim()` under the whitespace notion `p`: a slice of `s` with whitespace-only margins. */
  function Trim(s: string, p: char -> bool): (r: string)
    ensures |r| <= |s|
    ensures Trimmed(r, p)
    ensures r == [] <==> AllIn(s, p)
    ensures Trimmed(s, p) ==> r == s
  {
    var t := TrimStart(s, p);
    TrimShape(s, p, t, TrimEnd(t, p));
    TrimEnd(t, p)
  }

  lemma TrimShape(s: string, p: char -> bool, t: string, r: string)
    requires t == TrimStart(s, p) && r == TrimEnd(t, p)
    ensures Trimmed(r, p)
    ensures r == [] <==> AllIn(s, p)
    ensures Trimmed(s, p) ==> r == s
  {
    if r != [] {
      assert r[0] == t[0];
    }
    if r == [] {
      assert AllIn(t, p) by {
        assert t[|r|..] == t;
      }
      TrimmedAway(s, p, t);
    }
    if AllIn(s, p) {
      TrimStartAllIn(s, p);
    }
  }

  lemma {:induction false} TrimStartAllIn(s: string, p: char -> bool)
    requires AllIn(s, p)
    ensures TrimStart(s, p) == []
    decreases |s|
  {
    if s != [] {
      assert AllIn(s[1..], p) by {
        assert forall i :: 0 <= i < |s| - 1 ==> s[1..][i] == s[i + 1];
      }
      TrimStartAllIn(s[1..], p);
    }
  }

  lemma TrimmedAway(s: string, p: char -> bool, t: string)
    requires t == TrimStart(s, p) && AllIn(t, p)
    ensures AllIn(s, p)
  {
    var k := |s| - |t|;
    assert AllIn(s[..k], p);
    forall i | 0 <= i < |s|
      ensures p(s[i])
    {
      if i >= k {
        assert s[i] == t[i - k];
      } else {
        assert s[i] == s[..k][i];
      }
    }
  }

  /**
    `replace(Regex("\\s+"), " ")`: every maximal run of characters satisfying
    `p` becomes a single space; every other character is kept in order.
   */
  function Collapse(s: string, p: char -> bool): (r: string)
    requires p(' ')
    ensures |r| <= |s|
    ensures |r| == 0 <==> |s| == 0
    ensures |r| > 0 ==> (p(r[0]) <==> p(s[0]))
    ensures forall i :: 0 <= i < |r| && p(r[i]) ==> r[i] == ' '
    ensures forall i :: 0 <= i < |r| - 1 ==> !p(r[i]) || !p(r[i + 1])
    ensures Strip(r, p) == Strip(s, p)
    decreases |s|
  {
    if s == [] then []
    else if p(s[0]) then
      var rest := TrimStart(s[1..], p);
      var c := Collapse(rest, p);
      CollapseRun(s, p, rest, c);
      [' '] + c
    else
      var c := Collapse(s[1..], p);
      CollapseWord(s, p, c);
      [s[0]] + c
  }

  /** `r` is a collapsed form of `s`: the properties `Collapse` promises. */
  predicate CollapsedFrom(r: string, s: string, p: char -> bool) {
    && |r| <= |s|
    && (|r| == 0 <==> |s| == 0)
    && (|r| > 0 ==> (p(r[0]) <==> p(s[0])))
    && (forall i :: 0 <= i < |r| && p(r[i]) ==> r[i] == ' ')
    && (forall i :: 0 <= i < |r| - 1 ==> !p(r[i]) || !p(r[i + 1]))
    && Strip(r, p) == Strip(s, p)
  }

  /** A run of whitespace at the front becomes one space. */
  lemma CollapseRun(s: string, p: char -> bool, rest: string, c: string)
    requires p(' ') && s != [] && p(s[0])
    requires rest == TrimStart(s[1..], p)
    requires CollapsedFrom(c, rest, p)
    ensures CollapsedFrom([' '] + c, s, p)
  {
    StripRun(s, p, rest);
    var r := [' '] + c;
    assert r[1..] == c;
    assert Strip(r, p) == Strip(c, p);
    SpaceBeforeSpaces(c, p);
    SpaceBeforeWord(c, p);
  }

  lemma SpaceBeforeSpaces(c: string, p: char -> bool)
    requires forall i :: 0 <= i < |c| && p(c[i]) ==> c[i] == ' '
    ensures forall i :: 0 <= i < |[' '] + c| && p(([' '] + c)[i]) ==> ([' '] + c)[i] == ' '
  {
    var r := [' '] + c;
    forall i | 0 <= i < |r| && p(r[i])
      ensures r[i] == ' '
    {
      if i > 0 {
        assert r[i] == c[i - 1];
      }
    }
  }

  lemma SpaceBeforeWord(c: string, p: char -> bool)
    requires c == [] || !p(c[0])
    requires forall i :: 0 <= i < |c| - 1 ==> !p(c[i]) || !p(c[i + 1])
    ensures forall i :: 0 <= i < |[' '] + c| - 1 ==> !p(([' '] + c)[i]) || !p(([' '] + c)[i + 1])
  {
    var r := [' '] + c;
    forall i | 0 <= i < |r| - 1
      ensures !p(r[i]) || !p(r[i + 1])
    {
      assert r[i + 1] == c[i];
      if i > 0 {
        assert r[i] == c[i - 1];
      }
    }
  }

  /** Stripping ignores a leading run of whitespace. */
  lemma StripRun(s: string, p: char -> bool, rest: string)
    requires s != [] && p(s[0])
    requires rest == TrimStart(s[1..], p)
    ensures Strip(s, p) == Strip(rest, p)
  {
    var u := s[1..];
    var m := |u| - |rest|;
    var gap := u[..m];
    StripAllGone(gap, p);
    SplitAt(u, m);
    StripAppend(gap, rest, p);
  }

  lemma SplitAt(u: string, m: nat)
    requires m <= |u|
    ensures u == u[..m] + u[m..]
  {
  }

  /** A non-whitespace character at the front is kept. */
  lemma CollapseWord(s: string, p: char -> bool, c: string)
    requires p(' ') && s != [] && !p(s[0])
    requires CollapsedFrom(c, s[1..], p)
    ensures CollapsedFrom([s[0]] + c, s, p)
  {
    var r := [s[0]] + c;
    assert r[1..] == c;
    assert forall i :: 1 <= i < |r| ==> r[i] == c[i - 1];
  }

  /** What `Trim` keeps is one contiguous piece of its input. */
  lemma {:induction false} TrimIsSlice(s: string, p: char -> bool) returns (i: nat)
    ensures i + |Trim(s, p)| <= |s| && Trim(s, p) == s[i..i + |Trim(s, p)|]
    ensures AllIn(s[..i], p) && AllIn(s[i + |Trim(s, p)|..], p)
  {
    var r := Trim(s, p);
    var t := TrimStart(s, p);
    TrimIsBothEnds(s, p, t, TrimEnd(t, p));
    i := |s| - |t|;
    SliceOfSuffix(s, t, r, i);
    assert s[i + |r|..] == t[|r|..];
  }

  lemma TrimSliceAt(s: string, p: char -> bool, r: string) returns (i: nat)
    requires r == Trim(s, p)
    ensures i + |r| <= |s| && r == s[i..i + |r|]
  {
    var t := TrimStart(s, p);
    TrimIsBothEnds(s, p, t, TrimEnd(t, p));
    i := |s| - |t|;
    SliceOfSuffix(s, t, r, i);
  }

  lemma TrimIsBothEnds(s: string, p: char -> bool, t: string, r: string)
    requires t == TrimStart(s, p) && r == TrimEnd(t, p)
    ensures Trim(s, p) == r
  {
  }

  lemma SliceOfSuffix(s: string, t: string, r: string, i: nat)
    requires i <= |s| && t == s[i..] && |r| <= |t| && r == t[..|r|]
    ensures i + |r| <= |s| && r == s[i..i + |r|]
  {
  }

  /** A string already in collapsed form: its only `p` characters are isolated spaces. */
  predicate Compact(s: string, p: char -> bool) {
    && (forall i :: 0 <= i < |s| && p(s[i]) ==> s[i] == ' ')
    && (forall i :: 0 <= i < |s| - 1 ==> !p(s[i]) || !p(s[i + 1]))
  }

  lemma {:induction false} CompactSlice(s: string, p: char -> bool, i: nat, t: string)
    requires i + |t| <= |s| && t == s[i..i + |t|] && Compact(s, p)
    ensures Compact(t, p)
  {
    assert forall k :: 0 <= k < |t| ==> t[k] == s[i + k];
  }


  lemma {:induction false} StripMembers(s: string, p: char -> bool, x: char)
    ensures x in Strip(s, p) <==> x in s && !p(x)
    decreases |s|
  {
    if s != [] {
      StripMembers(s[1..], p, x);
      assert s == [s[0]] + s[1..];
    }
  }

  /** Collapsing keeps exactly the non-whitespace characters of its input. */
  lemma {:induction false} CollapseMembers(s: string, p: char -> bool, x: char)
    requires p(' ') && !p(x)
    ensures x in Collapse(s, p) <==> x in s
  {
    StripMembers(s, p, x);
    StripMembers(Collapse(s, p), p, x);
  }

  lemma {:induction false} TrimMembers(s: string, p: char -> bool, x: char)
    ensures x in Trim(s, p) ==> x in s
  {
    var r := Trim(s, p);
    var i := TrimSliceAt(s, p, r);
    if x in r {
      var k :| 0 <= k < |r| && r[k] == x;
      assert r[k] == s[i..i + |r|][k] == s[i + k];
    }
  }

  /** Trimming a collapsed string keeps it collapsed. */
  lemma {:induction false} TrimCompact(s: string, p: char -> bool, q: char -> bool)
    requires Compact(s, p)
    ensures Compact(Trim(s, q), p)
  {
    var r := Trim(s, q);
    var i := TrimSliceAt(s, q, r);
    CompactSlice(s, p, i, r);
  }

  /** Collapsing and then trimming leaves a compact string with no `q` character at either end. */
  lemma CleanedShape(s: string, p: char -> bool, q: char -> bool, r: string)
    requires p(' ') && r == Trim(Collapse(s, p), q)
    ensures Compact(r, p)
    ensures r == [] || (!q(r[0]) && !q(r[|r| - 1]))
  {
    TrimCompact(Collapse(s, p), p, q);
  }

  lemma {:induction false} CollapseCompact(s: string, p: char -> bool)
    requires p(' ') && Compact(s, p)
    ensures Collapse(s, p) == s
    decreases |s|
  {
    if s != [] {
      if p(s[0]) {
        assert s[1..] == [] || !p(s[1]);
        assert TrimStart(s[1..], p) == s[1..];
      }
      CollapseCompact(s[1..], p);
    }
  }

  /** Text without whitespace passes through collapsing untouched, whatever follows it. */
  lemma {:induction false} CollapseAfterWord(a: string, b: string, p: char -> bool)
    requires p(' ') && NoneIn(a, p)
    ensures Collapse(a + b, p) == a + Collapse(b, p)
    decreases |a|
  {
    if a == [] {
      assert a + b == b;
    } else {
      var u := a[1..] + b;
      assert a + b == [a[0]] + u;
      CollapseAfterWord(a[1..], b, p);
      CollapseConsWord(a[0], u, p, a[1..] + Collapse(b, p));
      ConsJoin(a, Collapse(b, p));
    }
  }

  lemma ConsJoin(a: string, c: string)
    requires a != []
    ensures [a[0]] + (a[1..] + c) == a + c
  {
  }

  lemma CollapseConsWord(x: char, u: string, p: char -> bool, c: string)
    requires p(' ') && !p(x) && c == Collapse(u, p)
    ensures Collapse([x] + u, p) == [x] + c
  {
    var s := [x] + u;
    assert s[0] == x && s[1..] == u;
  }

  /** Collapsing text without whitespace is the identity. */
  lemma {:induction false} CollapseWordFree(a: string, p: char -> bool)
    requires p(' ') && NoneIn(a, p)
    ensures Collapse(a, p) == a
  {
    CollapseAfterWord(a, [], p);
    assert a + [] == a;
  }

  /** Skipping a whole run of `p` characters lands on what follows the run. */
  lemma {:induction false} TrimStartRun(w: string, b: string, p: char -> bool)
    requires AllIn(w, p) && (b == [] || !p(b[0]))
    ensures TrimStart(w + b, p) == b
    decreases |w|
  {
    if w == [] {
      assert w + b == b;
    } else {
      assert (w + b)[0] == w[0];
      assert (w + b)[1..] == w[1..] + b;
      TrimStartRun(w[1..], b, p);
    }
  }

  /**
    Each maximal whitespace run becomes exactly one space: a run `w` between
    whitespace-free text `a` and text `b` that does not start with whitespace
    (an empty `a` is a leading run, an empty `b` a trailing one).
   */
  lemma {:induction false} CollapseRunToSpace(a: string, w: string, b: string, p: char -> bool)
    requires p(' ') && NoneIn(a, p) && w != [] && AllIn(w, p) && (b == [] || !p(b[0]))
    ensures Collapse(a + w + b, p) == Collapse(a, p) + [' '] + Collapse(b, p)
  {
    var u := w + b;
    Associate(a, w, b);
    CollapseAfterWord(a, u, p);
    CollapseWordFree(a, p);
    var c := Collapse(b, p);
    CollapseLeadingRun(w, b, p);
    Associate(a, [' '], c);
  }

  lemma Associate(a: string, b: string, c: string)
    ensures a + (b + c) == a + b + c
  {
  }

  lemma CollapseLeadingRun(w: string, b: string, p: char -> bool)
    requires p(' ') && w != [] && AllIn(w, p) && (b == [] || !p(b[0]))
    ensures Collapse(w + b, p) == [' '] + Collapse(b, p)
  {
    var s := w + b;
    assert s[0] == w[0];
    assert s[1..] == w[1..] + b;
    TrimStartRun(w[1..], b, p);
  }

  /** Two whitespace notions that agree on every character of `s` collapse it alike. */
  lemma {:induction false} CollapseAgrees(s: string, p: char -> bool, q: char -> bool)
    requires p(' ') && q(' ')
    requires forall i :: 0 <= i < |s| ==> p(s[i]) == q(s[i])
    ensures Collapse(s, p) == Collapse(s, q)
    decreases |s|
  {
    if s != [] {
      var u := s[1..];
      assert forall i :: 0 <= i < |u| ==> u[i] == s[i + 1];
      if p(s[0]) {
        TrimStartAgrees(u, p, q);
        var rest := TrimStart(u, p);
        SuffixAgrees(u, rest, p, q);
        CollapseAgrees(rest, p, q);
        assert Collapse(s, p) == [' '] + Collapse(rest, p);
        assert Collapse(s, q) == [' '] + Collapse(rest, q);
      } else {
        CollapseAgrees(u, p, q);
        assert Collapse(s, p) == [s[0]] + Collapse(u, p);
        assert Collapse(s, q) == [s[0]] + Collapse(u, q);
      }
    }
  }

  lemma SuffixAgrees(u: string, rest: string, p: char -> bool, q: char -> bool)
    requires |rest| <= |u| && rest == u[|u| - |rest|..]
    requires forall i :: 0 <= i < |u| ==> p(u[i]) == q(u[i])
    ensures forall i :: 0 <= i < |rest| ==> p(rest[i]) == q(rest[i])
  {
    assert forall i :: 0 <= i < |rest| ==> rest[i] == u[|u| - |rest| + i];
  }

  lemma {:induction false} TrimStartAgrees(s: string, p: char -> bool, q: char -> bool)
    requires forall i :: 0 <= i < |s| ==> p(s[i]) == q(s[i])
    ensures TrimStart(s, p) == TrimStart(s, q)
    decreases |s|
  {
    if s != [] && p(s[0]) {
      TrimStartAgrees(s[1..], p, q);
    }
  }

  lemma {:induction false} TrimEndAgrees(s: string, p: char -> bool, q: char -> bool)
    requires forall i :: 0 <= i < |s| ==> p(s[i]) == q(s[i])
    ensures TrimEnd(s, p) == TrimEnd(s, q)
    decreases |s|
  {
    if s != [] && p(s[|s| - 1]) {
      TrimEndAgrees(s[..|s| - 1], p, q);
    }
  }

  lemma TrimAgrees(s: string, p: char -> bool, q: char -> bool)
    requires forall i :: 0 <= i < |s| ==> p(s[i]) == q(s[i])
    ensures Trim(s, p) == Trim(s, q)
  {
    TrimStartAgrees(s, p, q);
    var t := TrimStart(s, p);
    assert forall i :: 0 <= i < |t| ==> t[i] == s[|s| - |t| + i];
    TrimEndAgrees(t, p, q);
  }

  /** Kotlin `replace(from, to)` for one-character strings. */
  function ReplaceChar(s: string, from: char, to: char): (r: string)
    ensures |r| == |s|
    ensures from != to ==> from !in r
    ensures forall i :: 0 <= i < |s| && s[i] != from ==> r[i] == s[i]
    ensures forall i :: 0 <= i < |s| && s[i] == from ==> r[i] == to
    ensures from !in s ==> r == s
  {
    seq(|s|, i requires 0 <= i < |s| => if s[i] == from then to else s[i])
  }

  // ---------------------------------------------------------------------------
  // Substring search
  // ---------------------------------------------------------------------------

  predicate StartsWith(s: string, prefix: string) {
    |prefix| <= |s| && s[..|prefix|] == prefix
  }

  /** `s.contains(t)` / `/t/.test(s)` for a plain pattern `t`. */
  predicate Contains(s: string, t: string)
    decreases |s|
  {
    StartsWith(s, t) || (|s| > 0 && Contains(s[1..], t))
  }

  lemma {:induction false} OccurrenceContained(s: string, t: string, i: nat)
    requires i + |t| <= |s| && s[i..i + |t|] == t
    ensures Contains(s, t)
    decreases i
  {
    if i > 0 {
      assert s[1..][i - 1..i - 1 + |t|] == t;
      OccurrenceContained(s[1..], t, i - 1);
    }
  }

  lemma {:induction false} ContainedOccurrence(s: string, t: string) returns (i: nat)
    requires Contains(s, t)
    ensures i + |t| <= |s| && s[i..i + |t|] == t
    decreases |s|
  {
    if StartsWith(s, t) {
      i := 0;
    } else {
      var j := ContainedOccurrence(s[1..], t);
      assert s[1..][j..j + |t|] == s[j + 1..j + 1 + |t|];
      i := j + 1;
    }
  }

  /** A pattern with a character that `s` lacks cannot occur in `s`. */
  lemma {:induction false} MissingCharNotContained(s: string, t: string, c: char)
    requires c in t && c !in s
    ensures !Contains(s, t)
    decreases |s|
  {
    if |s| > 0 {
      MissingCharNotContained(s[1..], t, c);
    }
  }

  /**
    `c` does not occur in `s` at or after position `i`. Written position by
    position so that it can be evaluated on string literals.
   */
  predicate AbsentFrom(s: string, c: char, i: nat)
    decreases |s| - i
  {
    i >= |s| || (s[i] != c && AbsentFrom(s, c, i + 1))
  }

  lemma {:induction false} AbsentFromMeans(s: string, c: char, i: nat)
    requires AbsentFrom(s, c, i)
    ensures forall j :: i <= j < |s| ==> s[j] != c
    decreases |s| - i
  {
    if i < |s| {
      AbsentFromMeans(s, c, i + 1);
    }
  }

  /** A pattern with a character that `s` lacks, checked position by position, does not occur in `s`. */
  lemma AbsentNotContained(s: string, t: string, k: nat)
    requires k < |t| && AbsentFrom(s, t[k], 0)
    ensures !Contains(s, t)
  {
    AbsentFromMeans(s, t[k], 0);
    MissingCharNotContained(s, t, t[k]);
  }

  /**
    `t[j..]` occurs in `s` at `i + j`, compared character by character; the
    form the solver can evaluate on string literals.
   */
  predicate MatchesFrom(s: string, t: string, i: nat, j: nat)
    decreases |t| - j
  {
    j >= |t| || (i + j < |s| && s[i + j] == t[j] && MatchesFrom(s, t, i, j + 1))
  }

  lemma {:induction false} MatchesFromMeans(s: string, t: string, i: nat, j: nat)
    requires i <= |s| && j <= |t| && MatchesFrom(s, t, i, j)
    ensures j < |t| ==> i + |t| <= |s|
    ensures forall k :: j <= k < |t| ==> s[i + k] == t[k]
    decreases |t| - j
  {
    if j < |t| {
      MatchesFromMeans(s, t, i, j + 1);
    }
  }

  /** A character-by-character match is an occurrence. */
  lemma {:induction false} MatchContained(s: string, t: string, i: nat)
    requires i <= |s| && MatchesFrom(s, t, i, 0)
    ensures i + |t| <= |s| && s[i..i + |t|] == t
    ensures Contains(s, t)
  {
    MatchesFromMeans(s, t, i, 0);
    assert s[i..i + |t|] == t;
    OccurrenceContained(s, t, i);
  }

  /** An occurrence inside a part is an occurrence inside the whole. */
  lemma ContainsInfix(a: string, b: string, c: string, t: string)
    requires Contains(b, t)
    ensures Contains(a + b + c, t)
  {
    var i := ContainedOccurrence(b, t);
    assert (a + b + c)[|a| + i..|a| + i + |t|] == b[i..i + |t|];
    OccurrenceContained(a + b + c, t, |a| + i);
  }

  // ---------------------------------------------------------------------------
  // Occurrences under collapsing and trimming
  // ---------------------------------------------------------------------------

  /** `t` occurs in `s` at position `i`, stated character by character. */
  predicate OccursAt(s: string, t: string, i: nat) {
    i + |t| <= |s| && forall k :: 0 <= k < |t| ==> s[i + k] == t[k]
  }

  lemma OccursContained(s: string, t: string, i: nat)
    requires OccursAt(s, t, i)
    ensures Contains(s, t)
  {
    assert s[i..i + |t|] == t;
    OccurrenceContained(s, t, i);
  }

  lemma ContainedOccurs(s: string, t: string) returns (i: nat)
    requires Contains(s, t)
    ensures OccursAt(s, t, i)
  {
    i := ContainedOccurrence(s, t);
    forall k | 0 <= k < |t|
      ensures s[i + k] == t[k]
    {
      assert s[i + k] == s[i..i + |t|][k];
    }
  }

  /**
    `t` is a run of words under the whitespace notion `p`: it begins and ends
    with a non-`p` character and its only `p` characters are isolated spaces.
   */
  predicate WordRun(t: string, p: char -> bool) {
    t != [] && !p(t[0]) && !p(t[|t| - 1]) && Compact(t, p)
  }

  lemma WordRunTail(t: string, p: char -> bool, k: nat)
    requires WordRun(t, p) && k < |t| && !p(t[k])
    ensures WordRun(t[k..], p)
  {
    CompactSlice(t, p, k, t[k..]);
  }

  /** A word run at the start of `s` is still at the start once `p`-runs are collapsed. */
  lemma {:induction false} CollapseKeepsPrefix(s: string, p: char -> bool, t: string)
    requires p(' ') && OccursAt(s, t, 0) && WordRun(t, p)
    ensures OccursAt(Collapse(s, p), t, 0)
    decreases |t|
  {
    assert s[0] == t[0];
    var c := Collapse(s[1..], p);
    assert Collapse(s, p) == [s[0]] + c;
    if |t| > 1 {
      TailOccurs(s, t, 0);
      if !p(t[1]) {
        WordRunTail(t, p, 1);
        CollapseKeepsPrefix(s[1..], p, t[1..]);
      } else {
        assert |t| >= 3 && !p(t[2]);
        WordRunTail(t, p, 2);
        TailOccurs(s[1..], t[1..], 0);
        var u := s[1..][1..];
        assert u[0] == t[2];
        assert t[1..][1..] == t[2..];
        var d := Collapse(u, p);
        assert c == [' '] + d;
        CollapseKeepsPrefix(u, p, t[2..]);
        ConsPrefix(' ', d, t[1..]);
      }
    }
    ConsPrefix(s[0], c, t);
  }

  /** A word run occurring in `s` still occurs once `p`-runs are collapsed. */
  lemma {:induction false} CollapseKeepsOccurrence(s: string, p: char -> bool, t: string, i: nat) returns (j: nat)
    requires p(' ') && WordRun(t, p) && OccursAt(s, t, i)
    ensures OccursAt(Collapse(s, p), t, j)
    decreases |s|, 1
  {
    if i == 0 {
      CollapseKeepsPrefix(s, p, t);
      j := 0;
    } else if p(s[0]) {
      j := CollapseKeepsAfterRun(s, p, t, i);
    } else {
      j := CollapseKeepsAfterChar(s, p, t, i);
    }
  }

  lemma {:induction false} CollapseKeepsAfterRun(s: string, p: char -> bool, t: string, i: nat) returns (j: nat)
    requires p(' ') && WordRun(t, p) && OccursAt(s, t, i) && i > 0 && p(s[0])
    ensures OccursAt(Collapse(s, p), t, j)
    decreases |s|, 0
  {
    TailOccurs(s, t, i);
    var rest := TrimStart(s[1..], p);
    var m := TrimStartKeeps(s[1..], p, t, i - 1, rest);
    var c := Collapse(rest, p);
    assert Collapse(s, p) == [' '] + c;
    var j' := CollapseKeepsOccurrence(rest, p, t, m);
    ConsOccurs(' ', c, t, j');
    j := j' + 1;
  }

  lemma {:induction false} CollapseKeepsAfterChar(s: string, p: char -> bool, t: string, i: nat) returns (j: nat)
    requires p(' ') && WordRun(t, p) && OccursAt(s, t, i) && i > 0 && !p(s[0])
    ensures OccursAt(Collapse(s, p), t, j)
    decreases |s|, 0
  {
    TailOccurs(s, t, i);
    var c := Collapse(s[1..], p);
    assert Collapse(s, p) == [s[0]] + c;
    var j' := CollapseKeepsOccurrence(s[1..], p, t, i - 1);
    ConsOccurs(s[0], c, t, j');
    j := j' + 1;
  }

  /** Dropping the first character moves every later occurrence one place left. */
  lemma TailOccurs(s: string, t: string, i: nat)
    requires OccursAt(s, t, i) && (i > 0 || t != [])
    ensures i > 0 ==> OccursAt(s[1..], t, i - 1)
    ensures i == 0 ==> OccursAt(s[1..], t[1..], 0)
  {
    if i > 0 {
      forall k | 0 <= k < |t|
        ensures s[1..][i - 1 + k] == t[k]
      {
        assert s[1..][i - 1 + k] == s[i + k];
      }
    } else {
      forall k | 0 <= k < |t| - 1
        ensures s[1..][k] == t[1..][k]
      {
        assert s[1..][k] == s[0 + (k + 1)];
      }
    }
  }

  lemma ConsPrefix(x: char, c: string, t: string)
    requires t != [] && t[0] == x && OccursAt(c, t[1..], 0)
    ensures OccursAt([x] + c, t, 0)
  {
    forall k | 1 <= k < |t|
      ensures ([x] + c)[k] == t[k]
    {
      assert ([x] + c)[k] == c[k - 1] == t[1..][k - 1];
    }
  }

  lemma ConsOccurs(x: char, c: string, t: string, j: nat)
    requires OccursAt(c, t, j)
    ensures OccursAt([x] + c, t, j + 1)
  {
    forall k | 0 <= k < |t|
      ensures ([x] + c)[j + 1 + k] == t[k]
    {
      assert ([x] + c)[j + 1 + k] == c[j + k];
    }
  }

  lemma ConsOccursBack(x: char, c: string, t: string, j: nat)
    requires j > 0 && OccursAt([x] + c, t, j)
    ensures OccursAt(c, t, j - 1)
  {
    forall k | 0 <= k < |t|
      ensures c[j - 1 + k] == t[k]
    {
      assert ([x] + c)[j + k] == c[j - 1 + k];
    }
  }

  lemma ConsPrefixBack(x: char, c: string, t: string)
    requires t != [] && OccursAt([x] + c, t, 0)
    ensures t[0] == x && OccursAt(c, t[1..], 0)
  {
    assert ([x] + c)[0 + 0] == t[0];
    forall k | 0 <= k < |t| - 1
      ensures c[k] == t[1..][k]
    {
      assert ([x] + c)[0 + (k + 1)] == c[k];
    }
  }

  /** An occurrence in a suffix `s[k..]` is an occurrence in `s`. */
  lemma SuffixOccurs(s: string, k: nat, u: string, t: string, i: nat) returns (m: nat)
    requires k <= |s| && u == s[k..] && OccursAt(u, t, i)
    ensures m == k + i && OccursAt(s, t, m)
  {
    m := k + i;
    forall m | 0 <= m < |t|
      ensures s[k + i + m] == t[m]
    {
      assert s[k + i + m] == u[i + m];
    }
  }

  /** An occurrence of `t` whose end characters are not `q` survives trimming `q`. */
  lemma TrimKeepsOccurrence(s: string, q: char -> bool, t: string, i: nat) returns (j: nat)
    requires t != [] && !q(t[0]) && !q(t[|t| - 1]) && OccursAt(s, t, i)
    ensures OccursAt(Trim(s, q), t, j)
  {
    var u := TrimStart(s, q);
    var m := TrimStartKeeps(s, q, t, i, u);
    var r := TrimEnd(u, q);
    TrimEndKeeps(u, q, t, m, r);
    TrimIsBothEnds(s, q, u, r);
    j := m;
  }

  /** An occurrence that starts with a non-`q` character lies after any all-`q` prefix. */
  lemma TrimStartKeeps(s: string, q: char -> bool, t: string, i: nat, u: string) returns (j: nat)
    requires t != [] && !q(t[0]) && OccursAt(s, t, i)
    requires |u| <= |s| && u == s[|s| - |u|..] && AllIn(s[..|s| - |u|], q)
    ensures OccursAt(u, t, j)
  {
    var a := |s| - |u|;
    assert s[i] == t[0];
    forall k | 0 <= k < a
      ensures q(s[k])
    {
      assert s[..a][k] == s[k];
    }
    assert a <= i;
    OccursInSlice(s, t, i, a, |s|, u);
    j := i - a;
  }

  /** An occurrence that ends with a non-`q` character lies before any all-`q` suffix. */
  lemma TrimEndKeeps(u: string, q: char -> bool, t: string, j: nat, r: string)
    requires t != [] && !q(t[|t| - 1]) && OccursAt(u, t, j)
    requires |r| <= |u| && r == u[..|r|] && AllIn(u[|r|..], q)
    ensures OccursAt(r, t, j)
  {
    var e := j + |t|;
    assert u[e - 1] == t[|t| - 1];
    forall k | |r| <= k < |u|
      ensures q(u[k])
    {
      assert u[|r|..][k - |r|] == u[k];
    }
    assert e <= |r|;
    OccursInSlice(u, t, j, 0, |r|, r);
  }

  lemma StartsWithOccurs(s: string, t: string)
    requires StartsWith(s, t)
    ensures OccursAt(s, t, 0)
  {
    forall k | 0 <= k < |t|
      ensures s[0 + k] == t[k]
    {
      assert s[k] == s[..|t|][k];
    }
  }

  /** An occurrence inside the window `s[a..b]` is an occurrence in the window. */
  lemma OccursInSlice(s: string, t: string, i: nat, a: nat, b: nat, w: string)
    requires OccursAt(s, t, i) && a <= i && i + |t| <= b <= |s| && w == s[a..b]
    ensures OccursAt(w, t, i - a)
  {
    forall k | 0 <= k < |t|
      ensures w[i - a + k] == t[k]
    {
      assert w[i - a + k] == s[i + k];
    }
  }

  /** A prefix free of `p` characters in the collapsed string was already a prefix. */
  lemma {:induction false} CollapseFindsPrefix(s: string, p: char -> bool, t: string)
    requires p(' ') && NoneIn(t, p) && OccursAt(Collapse(s, p), t, 0)
    ensures OccursAt(s, t, 0)
    decreases |t|
  {
    if t != [] {
      var r := Collapse(s, p);
      assert r[0 + 0] == t[0] && !p(t[0]);
      var c := Collapse(s[1..], p);
      assert r == [s[0]] + c;
      ConsPrefixBack(s[0], c, t);
      CollapseFindsPrefix(s[1..], p, t[1..]);
      ConsPrefix(s[0], s[1..], t);
      assert [s[0]] + s[1..] == s;
    }
  }

  /** A `p`-free string occurring in the collapsed string already occurs in `s`. */
  lemma {:induction false} CollapseFindsOccurrence(s: string, p: char -> bool, t: string, j: nat) returns (i: nat)
    requires p(' ') && t != [] && NoneIn(t, p) && OccursAt(Collapse(s, p), t, j)
    ensures OccursAt(s, t, i)
    decreases |s|, 1
  {
    if p(s[0]) {
      i := CollapseFindsAfterRun(s, p, t, j);
    } else if j == 0 {
      CollapseFindsPrefix(s, p, t);
      i := 0;
    } else {
      i := CollapseFindsAfterChar(s, p, t, j);
    }
  }

  lemma {:induction false} CollapseFindsAfterRun(s: string, p: char -> bool, t: string, j: nat) returns (i: nat)
    requires p(' ') && t != [] && NoneIn(t, p) && OccursAt(Collapse(s, p), t, j) && s != [] && p(s[0])
    ensures OccursAt(s, t, i)
    decreases |s|, 0
  {
    var rest := TrimStart(s[1..], p);
    var j' := CollapseRunBack(s, p, t, j, rest);
    var i' := CollapseFindsOccurrence(rest, p, t, j');
    i := SuffixOccurs(s, |s| - |rest|, rest, t, i');
  }

  /** A `p`-free occurrence after a collapsed run is an occurrence in what follows the run. */
  lemma CollapseRunBack(s: string, p: char -> bool, t: string, j: nat, rest: string) returns (j': nat)
    requires p(' ') && t != [] && NoneIn(t, p) && OccursAt(Collapse(s, p), t, j) && s != [] && p(s[0])
    requires rest == TrimStart(s[1..], p)
    ensures OccursAt(Collapse(rest, p), t, j')
  {
    var c := Collapse(rest, p);
    CollapseOfRun(s, p, rest);
    SpaceHeadBack(c, p, t, j);
    j' := j - 1;
  }

  lemma CollapseOfRun(s: string, p: char -> bool, rest: string)
    requires p(' ') && s != [] && p(s[0]) && rest == TrimStart(s[1..], p)
    ensures Collapse(s, p) == [' '] + Collapse(rest, p)
  {
  }

  /** A string that starts with a non-`p` character cannot occur at a leading space. */
  lemma SpaceHeadBack(c: string, p: char -> bool, t: string, j: nat)
    requires p(' ') && t != [] && !p(t[0]) && OccursAt([' '] + c, t, j)
    ensures j > 0 && OccursAt(c, t, j - 1)
  {
    assert ([' '] + c)[j + 0] == t[0];
    ConsOccursBack(' ', c, t, j);
  }

  lemma {:induction false} CollapseFindsAfterChar(s: string, p: char -> bool, t: string, j: nat) returns (i: nat)
    requires p(' ') && t != [] && NoneIn(t, p) && OccursAt(Collapse(s, p), t, j) && s != [] && !p(s[0]) && j > 0
    ensures OccursAt(s, t, i)
    decreases |s|, 0
  {
    var c := Collapse(s[1..], p);
    assert Collapse(s, p) == [s[0]] + c;
    ConsOccursBack(s[0], c, t, j);
    var i' := CollapseFindsOccurrence(s[1..], p, t, j - 1);
    i := SuffixOccurs(s, 1, s[1..], t, i');
  }

  /** What occurs in the trimmed string occurs in the string. */
  lemma TrimFindsOccurrence(s: string, q: char -> bool, t: string, j: nat) returns (i: nat)
    requires OccursAt(Trim(s, q), t, j)
    ensures OccursAt(s, t, i)
  {
    var r := Trim(s, q);
    var a := TrimSliceAt(s, q, r);
    i := WindowOccurs(s, a, r, t, j);
  }

  /** An occurrence in the window `s[a..a + |w|]` is an occurrence in `s`. */
  lemma WindowOccurs(s: string, a: nat, w: string, t: string, j: nat) returns (i: nat)
    requires a + |w| <= |s| && w == s[a..a + |w|] && OccursAt(w, t, j)
    ensures i == a + j && OccursAt(s, t, i)
  {
    i := a + j;
    forall k | 0 <= k < |t|
      ensures s[i + k] == t[k]
    {
      assert s[i + k] == w[j + k];
    }
  }

  // ---------------------------------------------------------------------------
  // Splitting
  // ---------------------------------------------------------------------------

  function Count(s: string, p: char -> bool): nat
    decreases |s|
  {
    if s == [] then 0 else (if p(s[0]) then 1 else 0) + Count(s[1..], p)
  }

  lemma {:induction false} CountAppend(a: string, b: string, p: char -> bool)
    ensures Count(a + b, p) == Count(a, p) + Count(b, p)
    decreases |a|
  {
    if a == [] {
      assert a + b == b;
    } else {
      assert (a + b)[1..] == a[1..] + b;
      CountAppend(a[1..], b, p);
    }
  }

  /** A piece of a string holds no more matching characters than the whole. */
  lemma CountSlice(s: string, p: char -> bool, i: nat, j: nat)
    requires i <= j <= |s|
    ensures Count(s[i..j], p) <= Count(s, p)
  {
    assert s == s[..i] + s[i..j] + s[j..];
    CountAppend(s[..i] + s[i..j], s[j..], p);
    CountAppend(s[..i], s[i..j], p);
  }

  /** Kotlin `split("-", "/")`: the pieces between separators, empty pieces kept. */
  function Split(s: string, sep: char -> bool): (parts: seq<string>)
    ensures |parts| == Count(s, sep) + 1
    ensures forall k :: 0 <= k < |parts| ==> NoneIn(parts[k], sep)
    decreases |s|
  {
    if s == [] then [[]]
    else
      var rest := Split(s[1..], sep);
      if sep(s[0]) then [[]] + rest
      else [[s[0]] + rest[0]] + rest[1..]
  }

  /** A separator-free first piece is split off whole. */
  lemma {:induction false} SplitFirst(a: string, x: char, rest: string, sep: char -> bool)
    requires NoneIn(a, sep) && sep(x)
    ensures Split(a + [x] + rest, sep) == [a] + Split(rest, sep)
    decreases |a|
  {
    if a == [] {
      assert a + [x] + rest == [x] + rest;
      assert ([x] + rest)[1..] == rest;
    } else {
      assert (a + [x] + rest)[1..] == a[1..] + [x] + rest;
      SplitFirst(a[1..], x, rest, sep);
      assert [a[0]] + a[1..] == a;
    }
  }

  lemma {:induction false} SplitNone(s: string, sep: char -> bool)
    requires NoneIn(s, sep)
    ensures Split(s, sep) == [s]
    decreases |s|
  {
    if s != [] {
      SplitNone(s[1..], sep);
      assert [s[0]] + s[1..] == s;
    }
  }

  // ---------------------------------------------------------------------------
  // Decimal numbers
  // ---------------------------------------------------------------------------

  /**
    `Character.digit(c, 10)`, which Kotlin's `toIntOrNull` uses: ASCII digits,
    Arabic-Indic digits (U+0660..U+0669) and the Persian digits (U+06F0..U+06F9);
    -1 for anything else.
   */
  function DigitValue(c: char): (d: int)
    ensures -1 <= d <= 9
    ensures '0' <= c <= '9' ==> d == c as int - '0' as int
    ensures '\U{06F0}' <= c <= '\U{06F9}' ==> d == c as int - 0x06F0
  {
    if '0' <= c <= '9' then c as int - '0' as int
    else if '\U{0660}' <= c <= '\U{0669}' then c as int - 0x0660
    else if '\U{06F0}' <= c <= '\U{06F9}' then c as int - 0x06F0
    else -1
  }

  predicate IsDigit(c: char) {
    DigitValue(c) >= 0
  }

  /** The value of a string of digits, most significant first. */
  function DigitsValue(s: string): (v: nat)
    requires AllIn(s, IsDigit)
    decreases |s|
  {
    if s == [] then 0 else 10 * DigitsValue(s[..|s| - 1]) + DigitValue(s[|s| - 1])
  }

  /**
    Kotlin `String.toIntOrNull()`: an optional `+` or `-`, then one or more
    digits, and a value that fits in an `Int`; `None` otherwise.
   */
  function ParseInt(s: string): (r: Option<int>)
    ensures r.Some? ==> Int32.InRange(r.value)
    ensures r.Some? ==> |s| > 0 && AllIn(s[1..], IsDigit)
    ensures r.Some? && IsDigit(s[0]) ==> r.value == DigitsValue(s)
    ensures AllIn(s, IsDigit) && |s| > 0 && DigitsValue(s) <= Int32.Max ==> r == Some(DigitsValue(s))
  {
    if s == [] then None
    else if s[0] < '0' then
      if |s| == 1 || !AllIn(s[1..], IsDigit) then None
      else if s[0] == '-' then
        var v: int := DigitsValue(s[1..]);
        if -v >= Int32.Min then Some(-v) else None
      else if s[0] == '+' then
        (if DigitsValue(s[1..]) <= Int32.Max then Some(DigitsValue(s[1..])) else None)
      else None
    else if AllIn(s, IsDigit) && DigitsValue(s) <= Int32.Max then Some(DigitsValue(s))
    else None
  }

  function DigitChar(d: nat): (c: char)
    requires d <= 9
    ensures DigitValue(c) == d
  {
    ('0' as int + d) as char
  }

  /** The shortest ASCII decimal spelling of `n`. */
  function Decimal(n: nat): (s: string)
    ensures |s| > 0 && AllIn(s, IsDigit)
    ensures DigitsValue(s) == n
    decreases n
  {
    var last := [DigitChar(n % 10)];
    if n < 10 then last
    else
      var s := Decimal(n / 10) + last;
      assert s[..|s| - 1] == Decimal(n / 10);
      s
  }

  /** `String.format(Locale.US, "%0<width>d", n)` for a non-negative `n`. */
  function ZeroPadded(n: nat, width: nat): (s: string)
    ensures |s| > 0 && AllIn(s, IsDigit)
    ensures DigitsValue(s) == n
    ensures |s| >= width
  {
    var digits := Decimal(n);
    var pad := if |digits| < width then width - |digits| else 0;
    ZerosValue(seq(pad, _ => '0'), digits);
    seq(pad, _ => '0') + digits
  }

  lemma {:induction false} ZerosValue(zeros: string, digits: string)
    requires AllIn(zeros, c => c == '0') && AllIn(digits, IsDigit)
    ensures AllIn(zeros + digits, IsDigit)
    ensures DigitsValue(zeros + digits) == DigitsValue(digits)
    decreases |digits|
  {
    var s := zeros + digits;
    if digits == [] {
      assert s == zeros;
      ZerosOnly(zeros);
    } else {
      assert s[..|s| - 1] == zeros + digits[..|digits| - 1];
      ZerosValue(zeros, digits[..|digits| - 1]);
    }
  }

  lemma {:induction false} ZerosOnly(zeros: string)
    requires AllIn(zeros, c => c == '0')
    ensures AllIn(zeros, IsDigit) && DigitsValue(zeros) == 0
    decreases |zeros|
  {
    if zeros != [] {
      ZerosOnly(zeros[..|zeros| - 1]);
    }
  }

  /** Printing with `%0Nd` and reading back with `toIntOrNull` is the identity on `Int` values. */
  lemma ParsePadded(n: nat, width: nat)
    requires n <= Int32.Max
    ensures ParseInt(ZeroPadded(n, width)) == Some(n)
  {
  }

  /** Persian digits are read as digits: "۱۴۰۲" is 1402. */
  lemma ParsePersianDigits()
    ensures ParseInt("\U{06F1}\U{06F4}\U{06F0}\U{06F2}") == Some(1402)
  {
    var s := "\U{06F1}\U{06F4}\U{06F0}\U{06F2}";
    assert AllIn(s, IsDigit);
    var one, two, three := "\U{06F1}", "\U{06F1}\U{06F4}", "\U{06F1}\U{06F4}\U{06F0}";
    assert one[..0] == [] && two[..1] == one && three[..2] == two && s[..3] == three;
    assert DigitsValue(one) == 1;
    assert DigitsValue(two) == 14;
    assert DigitsValue(three) == 140;
  }
}

=== FILE: wrappers.dfy ===
/** The optional value used wherever the source returns a nullable result. */
module Wrappers {

  datatype Option<+T> = None | Some(value: T)
}
